=== FILE: README.md ===
# Nested-set forest

A model of the core of a nested-set tree plugin for an SQL model layer. A table holds a
forest of trees. Each row carries an `id`, a pair of interval bounds `lft < rgt`, a `level`
and the `rootId` of the tree it belongs to. A node's descendants are exactly the rows of the
same tree whose interval lies strictly inside its own. The model reads every mutation as a
bulk relabelling of bounds (`shiftRlValues`, `shiftRlRange`) followed by a save of the
in-memory node; "## Left out" says how this reading departs from the calls as written.

Each operation is a pure function from a table (`seq<Row>`) to a result:

- The in-memory instance (`this`, `destNode`) is a `Row` parameter. It may be stale with
  respect to the table, exactly as in the code.
- A thrown string becomes an `Err` value naming the guard.
- A query that resolves to `false` becomes `None`.
- The id the database would assign to a new record is a parameter (`freshId`).

Modules:

- `Rows`: rows, `save`, bulk updates and counting.
- `Forest`: well-formedness and depth. `WellFormed` means positive widths, strict nesting,
  the bounds 1..2n each used exactly once, and a root row spanning [1, 2n].
  `LevelConsistent` means every row's level equals the number of rows enclosing it.
- `Relabel`: order-preserving relabellings of the bounds.
- `Shift`: the two shift primitives.
- `Predicates`: the interval predicates.
- `Reads`: fetchRoot, fetchTree, fetchRoots, the sibling and child probes, getParent,
  getChildren, getDescendants, getAncestors and the counts.
- `Inserts`: createRoot, insertNode and the five `insertAs*` operations.
- `Transfer`: moveBetweenTrees.
- `Moves`: updateNode and the four `moveAs*` operations.
- `Removal`: delete and makeRoot.
- `Levels`: `generateLevel` from the helpers file.

## Model

| member | source | states |
|---|---|---|
| Shift.ShiftRlValues | index.js:966-1000 | In tree R, every `lft` and every `rgt` that is at least `first` moves by `delta`. The two bounds are compared with `first` independently. Rows of other trees, and every id, level and rootId, are untouched, and the table keeps its length. |
| Shift.ShiftRlRange | index.js:1011-1045 | The same, for bounds in the closed range [first, last] of tree R. |
| Shift.ShiftRowIsBothIncrements | index.js:966-1000 | One shifted row equals the lft increment followed by the rgt increment. |
| Shift.IncrementsCommute | index.js:968-998 | The two `increment` calls of a shift can run in either order with the same table as result. |
| Shift.ShiftRoundTrip | index.js:966-1000 | Opening a gap of d ≥ 0 at p and then shifting everything from p+d back by −d restores the table exactly. |
| Shift.ShiftOpeningKeepsShape | index.js:966-1000 | A positive shift keeps the bounds of tree R in strict order, so every width stays positive and the intervals stay laminar, wherever the gap opens. |
| Shift.ShiftClosingKeepsShape | index.js:966-1000 | A negative shift whose skipped range holds no bound of tree R keeps every width positive and keeps the intervals laminar. |
| Predicates.Detach | index.js:860-863 | A detached node is not a valid node, and it keeps its id, level and rootId. |
| Predicates.NumberDescendantsCounts | index.js:382-384 | In a well-formed tree, `(rgt − lft − 1)/2` is exactly the number of rows strictly inside the node. |
| Predicates.AncestorDescendantDual | index.js:822-842 | n is an ancestor of m exactly when m is a descendant of n. |
| Predicates.DescendantOrEqualWidens | index.js:822-833 | In a well-formed tree, "descendant or equal" is "descendant" or "the same row". |
| Predicates.LeafHasNoDescendants | index.js:795-797 | In a well-formed tree, `rgt − lft == 1` holds exactly when no row lies strictly inside the node. |
| Predicates.RootHasDepthZero | index.js:803-805 | In a well-formed tree, `lft == 1` holds exactly when no row encloses the node. |
| Reads.FindOne | index.js:165-174 | Some exactly when a row matches. The result is the first matching row in table order. |
| Reads.FindOneByRgt | index.js:303-319 | Some exactly when a row matches; the result matches and has the least `rgt` among all matches. |
| Reads.FetchRoot | index.js:75-84 | The result, when present, is a row of the node's tree with `lft == 1`. |
| Reads.FetchRootIsTheRoot | index.js:75-84 | In a well-formed tree, fetchRoot finds nothing exactly when the tree is empty. Otherwise it finds the row spanning [1, 2n]. |
| Reads.SortByLft | index.js:92-111 | The listing is a permutation of its input, sorted by `lft`. |
| Reads.FetchTree | index.js:92-111 | The listing is a permutation of the rows the query selects, sorted by `lft`. |
| Reads.FetchTreeWholeTree | index.js:92-111 | In a well-formed tree, `fetchTree(0)` holds exactly the rows of the tree, one entry per row, and starts with the root at lft 1. |
| Reads.FetchRoots | index.js:119-127 | The listing holds exactly the rows with `lft == 1`, each once: its length is the number of such rows. |
| Reads.FetchRootsOnePerTree | index.js:119-127 | For a well-formed non-empty tree, exactly one listed row belongs to it, and that row is the one fetchRoot finds. |
| Reads.FirstChildProbe | index.js:219-228 | In a well-formed tree, getFirstChild finds a row exactly when the node is not a leaf. That row starts at `lft + 1` and ends before the node's `rgt`. |
| Reads.LastChildProbe | index.js:234-243 | The mirror image: a row is found exactly for a non-leaf, ending at `rgt − 1` and starting after the node's `lft`. |
| Reads.NextSiblingProbe | index.js:180-189 | A found row starts at `rgt + 1`, and it has exactly the same enclosing rows as the node. |
| Reads.PrevSiblingProbe | index.js:165-174 | A found row ends at `lft − 1`, and it has exactly the same enclosing rows as the node. |
| Reads.NextSiblingAbsent | index.js:180-189 | In a well-formed tree, getNextSibling finds nothing exactly when the node is the root or its innermost enclosing row (its parent) ends at `rgt + 1`. |
| Reads.PrevSiblingAbsent | index.js:165-174 | In a well-formed tree, getPrevSibling finds nothing exactly when the node is the root or its innermost enclosing row starts at `lft − 1`. |
| Reads.GetParent | index.js:299-322 | None for a root. A found row encloses the node, has level ≥ level − 1 and the least `rgt` of all such rows. None for a non-root only when no row qualifies. |
| Reads.GetParentFindsParent | index.js:299-322 | With consistent levels, a non-root node always has a parent one level up, and every row enclosing the node is the parent or encloses it. |
| Reads.GetDescendants | index.js:258-293 | x is listed exactly when it lies strictly inside the node and is deeper. With depth d ≠ 0, x is also at most d levels below the node. |
| Reads.GetDescendantsAll | index.js:258-293 | With consistent levels, `getDescendants(0)` is exactly the rows strictly inside the node, and there are `getNumberDescendants()` of them. |
| Reads.GetChildren | index.js:249-251 | x is a child exactly when it lies strictly inside the node and is one level deeper. |
| Reads.ChildrenInvertParent | index.js:249-251 | With consistent levels, x is among n's children exactly when getParent of x returns n. |
| Reads.GetNumberChildren | index.js:373-376 | The count is the number of rows strictly inside the node and one level deeper, so it is zero exactly when no row qualifies. |
| Reads.ChildrenCountParents | index.js:373-376 | With consistent levels, the count equals the number of rows whose getParent answers the node. |
| Reads.NoChildrenIffLeaf | index.js:373-376 | With consistent levels, a node has zero children exactly when it is a leaf. |
| Reads.GetAncestorsAsWritten | index.js:329-367 | The code as written: None exactly for a root. With depth ≠ 0, the listed rows enclose the node and have a level in the reversed BETWEEN range. |
| Reads.GetAncestorsAsWrittenEmpty | index.js:356-364 | As written, any non-root node with depth ≥ 2 gets an empty list. |
| Reads.GetAncestorsCounterexample | index.js:356-364 | In R ⊃ A ⊃ B, `B.getAncestors(2)` is empty as written and is [R, A] once the bounds are in order. |
| Reads.GetAncestors | index.js:329-367 | None exactly for a root. Listed rows enclose the node, lie above it and are at most `depth` levels up. The result agrees with the code for depth 0 and 1. |
| Reads.GetAncestorsFindsAncestors | index.js:329-367 | With consistent levels, x is listed exactly when it encloses the node within `depth` levels. Depth 0 lists `level` rows. Depth 1 lists exactly the parent. |
| Inserts.InsertNode | index.js:901-908 | The node is saved with the given bounds and rootId. A new id is appended; a known id keeps the table's length. |
| Inserts.InsertAt | index.js:448-472 | Errors come in guard order: AlreadyAttached for a valid node, then SelfReference. Otherwise the row is placed in the slot after a gap of 2 is opened at the slot's `lft`. |
| Inserts.InsertAsPrevSiblingOf | index.js:448-472 | The guards hold. On success the node sits at [dest.lft, dest.lft+1] with level dest.level+1, as written. |
| Inserts.InsertAsNextSiblingOf | index.js:480-504 | The guards hold. On success the node sits at [dest.rgt+1, dest.rgt+2] with level dest.level+1, as written. |
| Inserts.InsertAsFirstChildOf | index.js:512-536 | The guards hold. On success the node sits at [dest.lft+1, dest.lft+2] with level dest.level+1. |
| Inserts.InsertAsLastChildOf | index.js:544-568 | As written, the node gets `rgt = dest.lft + 1`. For any valid destination this leaves a row whose width is not positive. |
| Inserts.InsertAsPrevSiblingOfCorrected | index.js:448-472 | The same insert with the sibling's level `dest.level`. |
| Inserts.InsertAsNextSiblingOfCorrected | index.js:480-504 | The same insert with the sibling's level `dest.level`. |
| Inserts.InsertAsLastChildOfCorrected | index.js:544-568 | The node sits at [dest.rgt, dest.rgt+1] with level dest.level+1. |
| Inserts.InsertAtWellFormed | index.js:456-463 | A new row inserted at any position 2..2n of a well-formed tree keeps it well-formed. The tree grows by one row and no other tree changes. |
| Inserts.InsertAtKeepsLevels | index.js:456-463 | Levels stay consistent when the slot's level equals the number of rows straddling the insert position. |
| Inserts.InsertAtBreaksLevels | index.js:456-463 | Levels become inconsistent when the slot's level is any other value. |
| Inserts.InsertsKeepWellFormed | index.js:448-568 | First-child, corrected last-child, and both sibling inserts (for a non-root destination) keep the tree well-formed. |
| Inserts.FirstChildKeepsLevels | index.js:512-536 | insertAsFirstChildOf keeps levels equal to depths. |
| Inserts.LastChildCorrectedKeepsLevels | index.js:544-568 | The corrected insertAsLastChildOf keeps levels equal to depths. |
| Inserts.PrevSiblingCorrectedKeepsLevels | index.js:448-472 | The corrected prev-sibling insert keeps levels equal to depths. |
| Inserts.NextSiblingCorrectedKeepsLevels | index.js:480-504 | The corrected next-sibling insert keeps levels equal to depths. |
| Inserts.PrevSiblingLevelIsWrong | index.js:462 | With consistent levels before, insertAsPrevSiblingOf as written always leaves levels inconsistent. |
| Inserts.NextSiblingLevelIsWrong | index.js:494 | With consistent levels before, insertAsNextSiblingOf as written always leaves levels inconsistent. |
| Inserts.InsertAsParentOf | index.js:392-440 | Guard order: AlreadyAttached, then RootOperationInvalid when the new node itself counts as a root, then SelfReference. On success the node wraps dest at [dest.lft, dest.rgt+2] with dest's level. |
| Inserts.InsertAsParentOfCorrected | index.js:392-440 | RootOperationInvalid is raised exactly when the destination is a root. |
| Inserts.ParentGuardChecksWrongNode | index.js:393-401 | Concrete tables where the written guard rejects a legal wrap of a child and accepts wrapping the root. The corrected guard does the opposite in both cases. |
| Inserts.ParentInsertShape | index.js:403-431 | On success the table is the shifted table plus the wrapping row. |
| Inserts.ParentInsertWellFormed | index.js:392-440 | Wrapping a node of a well-formed tree keeps it well-formed, adds one row and leaves other trees unchanged. |
| Inserts.ParentDepthOld | index.js:410-428 | After the wrap, each row of the destination's subtree is one deeper, and every other row keeps its depth. |
| Inserts.ParentDepthNew | index.js:403-431 | The wrapping row has the destination's old depth. |
| Inserts.ParentInsertKeepsLevels | index.js:392-440 | Wrapping keeps levels equal to depths. |
| Inserts.CreateRoot | index.js:44-68 | The saved root sits at [1, 2] with level 0. Its id is the record's id or a fresh one. Its rootId follows the hasManyRoots rules, defaulting to its own id. |
| Inserts.CreateRootWellFormed | index.js:44-68 | Creating a root for an empty tree yields a well-formed one-row tree with consistent levels. |
| Transfer.MoveSlot | index.js:594-609 | A slot exists exactly for the four known move types, and it lies in the destination's tree. |
| Transfer.MoveBetweenTrees | index.js:578-645 | An unknown move type gives UnknownMoveType. Otherwise the move succeeds exactly when the detached node is not the destination. |
| Transfer.MoveBetweenTreesAsWritten | index.js:587-606 | As written, a known move type with a valid node always ends in AlreadyAttached. |
| Transfer.MoveBetweenTreesIsMap | index.js:578-645 | A successful move relabels every row independently. The moved node and its subtree go to the slot in the destination tree, the destination tree opens a gap, and the source tree closes its gap. |
| Removal.MoveBetweenTreesKeepsSource | index.js:620-643 | After a move between trees, the source tree is exactly what delete would leave. It is well-formed and shrinks by the subtree's width. |
| Moves.UpdateNodeClosedForm | index.js:917-955 | The four bulk updates of updateNode compose into one per-row relabelling. |
| Moves.BlockMoveFacts | index.js:917-955 | The relabelling translates the block rigidly and keeps every other bound in order. Moved bounds never land inside the block's target. The relabelling is invertible. |
| Moves.UpdateNodeMovesBlock | index.js:917-955 | Every row of the subtree keeps its offset from the node's new `lft`. The node gets its new level, rows strictly inside change level by `levelDiff`, and every other level stays put. |
| Moves.UpdateNodeKeepsWellFormed | index.js:917-955 | Moving a subtree of a well-formed tree to any position 2..2n outside itself keeps the tree well-formed. |
| Moves.MoveAsPrevSiblingOf | index.js:652-666 | Rejected moves give SelfReference. Across trees the call delegates to moveBetweenTrees at `dest.lft`. Within a tree it succeeds. |
| Moves.MoveAsNextSiblingOf | index.js:673-687 | The same, delegating at `dest.rgt + 1`. |
| Moves.MoveAsFirstChildOf | index.js:694-708 | The same, delegating at `dest.lft + 1`. |
| Moves.MoveAsLastChildOf | index.js:715-729 | The same, delegating at `dest.rgt`. |
| Moves.DestOutside | index.js:652-666 | In a well-formed tree, a move that passes the guard has a destination that is disjoint from the node or encloses it, and that lies inside the tree. |
| Moves.MovePrevSiblingPlaces | index.js:652-666 | The node ends immediately before dest and takes dest's level. |
| Moves.MoveNextSiblingPlaces | index.js:673-687 | The node starts immediately after dest and takes dest's level. |
| Moves.MoveFirstChildPlaces | index.js:694-708 | The node starts immediately after dest's `lft` and is one level deeper. |
| Moves.MoveLastChildPlaces | index.js:715-729 | The node ends immediately before dest's `rgt` and is one level deeper. |
| Moves.MovePrevSiblingKeepsWellFormed | index.js:652-666 | Moving next to a non-root destination in the same tree keeps the tree well-formed. |
| Moves.MoveNextSiblingKeepsWellFormed | index.js:673-687 | Moving next to a non-root destination in the same tree keeps the tree well-formed. |
| Moves.MoveFirstChildKeepsWellFormed | index.js:694-708 | Moving under any destination in the same tree keeps the tree well-formed. |
| Moves.MoveLastChildKeepsWellFormed | index.js:715-729 | Moving under any destination in the same tree keeps the tree well-formed. |
| Removal.Delete | index.js:869-890 | The table loses exactly the rows of the node's subtree. |
| Removal.Kept | index.js:873-884 | A row survives the destroy exactly when it lies outside [lft, rgt] of the node's tree. |
| Removal.DeleteIsClosing | index.js:869-890 | The result is the surviving rows with the gap closed by `lft − rgt − 1`. |
| Removal.DeleteRows | index.js:869-890 | Every surviving row appears closed-up, and nothing else appears. |
| Removal.DeleteRemovesSubtree | index.js:873-884 | An id is still present exactly when its row lay outside the subtree. |
| Removal.DeleteKeepsWellFormed | index.js:869-890 | Deleting a node of a well-formed tree keeps it well-formed, shrinks 2n by the subtree's width and leaves other trees unchanged. |
| Removal.DeleteOtherTrees | index.js:869-890 | No other tree changes. |
| Removal.MakeRoot | index.js:736-780 | RootOperationInvalid exactly for a root or without hasManyRoots. Otherwise the node becomes the root [1, width] at level 0 of the new tree, and the hole is closed in the old tree as the comment at index.js:771 intends (see "## Left out"). |
| Removal.MakeRootIsMap | index.js:736-780 | makeRoot relabels every row independently. |
| Removal.MakeRootRowFate | index.js:747-770 | A row moves to the new tree exactly when it lay in the subtree, translated by `1 − lft`. Rows after the subtree close the gap. Other trees are untouched. |
| Removal.MakeRootOldTreeRows | index.js:747-770 | The old tree is left exactly as delete would leave it. |
| Removal.MakeRootKeepsOldTree | index.js:736-780 | The old tree stays well-formed and shrinks by the subtree's width. |
| Removal.MakeRootOtherTrees | index.js:736-780 | No third tree changes. |
| Removal.MakeRootBuildsNewTree | index.js:736-780 | When the new rootId is unused, the new tree is well-formed with 2n equal to the subtree's width. |
| Levels.StepAsWritten | helpers.js:34-41 | After a valid node, the level goes up by one exactly for a first child, and it stays the same for a next sibling. |
| Levels.Walk | helpers.js:33-47 | The walk keeps the listing's length and changes only levels. The first level is one step from the starting state. |
| Levels.GenerateLevelAsWritten | helpers.js:27-50 | The code as written keeps the listing and changes only levels. A listing starting at lft 1 starts at level 0. |
| Levels.GenerateLevel | helpers.js:27-50 | The corrected walk, with the same shape guarantees. |
| Levels.WalkRecurrence | helpers.js:33-47 | Each output level is the step from the previous output level. |
| Levels.LevelStep | helpers.js:34-41 | Between two adjacent rows of a well-formed tree, the corrected step turns the first row's depth into the second's. |
| Levels.GenerateLevelGivesDepth | helpers.js:27-50 | On the fetchTree listing of any well-formed tree, the corrected walk sets every level to the row's depth. |
| Levels.GenerateLevelCounterexample | helpers.js:38-40 | In R(1,10) ⊃ A(2,5) ⊃ C(3,4), B(6,9), the code puts B at level 0 where the corrected walk puts it at 1. |
| Levels.AsWrittenAgreesWithoutClimb | helpers.js:38-40 | On a listing that starts at lft 1 and never climbs, the written and corrected walks agree at every position. |
| Levels.AsWrittenGivesDepthWithoutClimb | helpers.js:27-50 | On a well-formed tree whose listing never climbs, the code as written also gives depths. |

## Left out

- getSiblings (index.js:196-213): its query is not modelled. Its `!parent` branch reads a variable that the branch has just found to be false.
- hasPrevSibling, hasNextSibling, hasChildren and hasParent (index.js:133-159): they only wrap the probes and counts above.
- addChild (index.js:787-789): it is a one-line wrapper of insertAsLastChildOf.
- The model definition, its options and defaults (index.js:3-37) are not modelled. The rootId column is always kept, and hasManyRoots is a parameter.
- Transactions, `Promise.all` and concurrency are not modelled. Each operation is one atomic transition.
- `save()` writes the whole in-memory row over the stored row with the same id. Tracking of changed fields is not modelled, except in updateNode, whose save writes only the level.
- `parseInt` and JavaScript's loose `==` on ids are not modelled. Ids and bounds are integers.
- Deep cloning and deprecation warnings are left out because they are logging only.
- generateLevel writes `node.level = level` (helpers.js:46) into the caller's own node objects and pushes those same objects, so the input listing's levels change too. The model returns a fresh sequence and leaves its input as it was; the returned listing is what Walk describes.
- generateLevel's `limit` argument and its unused right-value list (helpers.js:27-50) are left out. The model walks the whole listing.
- Database id generation is a parameter of CreateRoot.
- The interval predicates and `detach` (index.js:794-863) are arrow functions, so `this` inside them is the enclosing module function's `this`, not the node; the inner callback of insertAsParentOf (index.js:408) is a plain `function` and loses `this` too. The model reads every predicate with the node as receiver and the callback as acting on the node. A consequence: a fresh instance carries the schema defaults lft 1, rgt 2 (index.js:11-21), so under this reading it is a valid node and every insertAs* of a fresh instance gives AlreadyAttached; the model's inserts only succeed for a node whose interval is not valid (detached, or built with lft ≥ rgt).
- The writes are instance calls with a `where` option: `this.increment` (index.js:413, 933, 968, 978, 1013, 1023), `this.update` (index.js:622, 749) and `this.destroy` (index.js:873). An instance call is scoped to the instance's own row by its primary key, so taken literally each of them touches at most the node's row. The model reads each as the table-wide UPDATE or DELETE over the rows its `where` selects, which is what the comments and the doc comments of shiftRlValues and shiftRlRange describe. Delete, MakeRoot, UpdateNode, Graft, ParentGap, ShiftRlValues and ShiftRlRange all rest on this reading.
- The reads getPrevSibling, getNextSibling, getFirstChild, getLastChild and getParent call `this.findOne` (index.js:166, 181, 220, 235, 303), and getDescendants (so getChildren) and getAncestors call `this.findAll` (index.js:262, 277, 336, 351). `findOne` and `findAll` are static methods of the model class, so taken literally these calls throw a TypeError on the instance before any query runs. The model reads them as `Model.findOne` and `Model.findAll`, as fetchRoot, fetchTree and fetchRoots call them (index.js:76, 105, 120). Reads.FindOne, Reads.FindOneByRgt, the sibling and child probes, GetParent, GetDescendants, GetChildren and GetAncestors, GetAncestorsAsWritten and the lemmas about them rest on this reading.
- Removal.MakeRoot: the closing shift at index.js:773 passes `this.rootId`, which the preceding `this.update({… rootId: newRootId})` has already set to the new id in memory, so as written the gap would be closed in the new tree. The model closes it in the old tree, as the comment "fix gap in the old tree" at index.js:771 intends.
- Sequelize's `findAll` returns an array, never `false`. The listings are sequences.
- MoveBetweenTreesKeepsSource: only the source tree is proved well-formed. For the destination tree, MoveBetweenTreesIsMap gives the closed form of every row but no well-formedness proof.
- MakeRootBuildsNewTree: the new tree is proved well-formed, but its levels are not proved equal to depths.
- UpdateNodeKeepsWellFormed: level consistency after a move within a tree is not proved. UpdateNodeMovesBlock states the level arithmetic.
- InsertsKeepWellFormed: sibling inserts next to a root are excluded, because they give the tree a second top-level row. The code does not prevent this.
- MovePrevSiblingKeepsWellFormed: a root destination is excluded for the same reason.
- MoveNextSiblingKeepsWellFormed: a root destination is excluded for the same reason.

## Findings

| source | as written | input that shows it | evidently intended | confidence | as-written member | corrected member |
|---|---|---|---|---|---|---|
| index.js:553 | insertAsLastChildOf sets `rgt = dest.lft + 1` | dest is the root [1, 2]. The node lands at [2, 2] and the root becomes [1, 4]. | the node at [dest.rgt, dest.rgt + 1] | not executed | Inserts.InsertAsLastChildOf | Inserts.LastChildCorrectedKeepsLevels |
| index.js:462, index.js:494 | sibling inserts give the node level `dest.level + 1` | R [1,4] ⊃ A [2,3] at level 1. A next sibling of A gets level 2 but has depth 1. | the sibling at `dest.level` | not executed | Inserts.NextSiblingLevelIsWrong | Inserts.NextSiblingCorrectedKeepsLevels |
| index.js:396 | insertAsParentOf checks `this.isRoot()` (the new node) instead of the destination | any detached node whose lft is not 1 (e.g. [0,0]) is accepted as the parent of the root [1,4], which the guard's message forbids; and a detached node whose lft is 1 (e.g. [1,1]) is rejected as parent of the child [2,3] | reject when the destination is a root | not executed | Inserts.ParentGuardChecksWrongNode | Inserts.InsertAsParentOfCorrected |
| index.js:360 | getAncestors uses `BETWEEN level − 1 AND level − depth`, with the bounds reversed | R [1,6] ⊃ A [2,5] ⊃ B [3,4]: `B.getAncestors(2)` is empty | the ancestors within `depth` levels | not executed | Reads.GetAncestorsCounterexample | Reads.GetAncestorsFindsAncestors |
| index.js:589-606 | moveBetweenTrees calls `insertAs*` on the still-attached node; under the receiver reading of the predicates (see "## Left out"), insertAs* throws for that still-valid node. Read literally, the arrow-function `isValidNode()` never sees the node, so the throw does not happen and the move goes ahead with the node still holding its old interval: the arrow-function slip masks this one | any node with lft ≥ 1 moved to another tree | detach the node first, then insert it | not executed | Transfer.MoveBetweenTreesAsWritten | Removal.MoveBetweenTreesKeepsSource |
| helpers.js:38-40 | generateLevel climbs by `lft − prevRgt` | R(1,10), A(2,5), C(3,4), B(6,9): B gets level 0 | climb by `lft − prevRgt − 1` | not executed | Levels.GenerateLevelCounterexample | Levels.GenerateLevelGivesDepth |

=== FILE: forest.dfy ===
/** The nested-set invariant of one tree of the forest, and the counting
    facts it implies. A tree is the set of rows sharing one `rootId`. */
module Forest {
  import opened Rows

  // Row selectors used with CountWhere and Filter.

  function InTree(R: int): Row -> bool {
    (r: Row) => r.rootId == R
  }

  function LftAt(R: int, k: int): Row -> bool {
    (r: Row) => r.rootId == R && r.lft == k
  }

  function RgtAt(R: int, k: int): Row -> bool {
    (r: Row) => r.rootId == R && r.rgt == k
  }

  /** Rows of tree R whose lft lies in the half-open range [lo, hi). */
  function LftIn(R: int, lo: int, hi: int): Row -> bool {
    (r: Row) => r.rootId == R && lo <= r.lft < hi
  }

  function RgtIn(R: int, lo: int, hi: int): Row -> bool {
    (r: Row) => r.rootId == R && lo <= r.rgt < hi
  }

  /** Rows of tree R whose interval lies strictly inside (a, b). */
  function StrictlyInside(R: int, a: int, b: int): Row -> bool {
    (r: Row) => r.rootId == R && a < r.lft && r.rgt < b
  }

  /** Rows of tree R whose interval lies inside [a, b]. */
  function Within(R: int, a: int, b: int): Row -> bool {
    (r: Row) => r.rootId == R && a <= r.lft && r.rgt <= b
  }

  /** Rows of tree R whose interval strictly encloses [a, b]. */
  function Enclosing(R: int, a: int, b: int): Row -> bool {
    (r: Row) => r.rootId == R && r.lft < a && b < r.rgt
  }

  /** Number of rows of tree R. */
  function Size(t: Table, R: int): nat {
    CountWhere(t, InTree(R))
  }

  /** How many endpoints of tree R equal k. */
  function Occ(t: Table, R: int, k: int): nat {
    CountWhere(t, LftAt(R, k)) + CountWhere(t, RgtAt(R, k))
  }

  /** How many endpoints of tree R lie in [lo, hi). */
  function EndpointsIn(t: Table, R: int, lo: int, hi: int): nat {
    CountWhere(t, LftIn(R, lo, hi)) + CountWhere(t, RgtIn(R, lo, hi))
  }

  /** Number of strict ancestors of the interval of `r`: its depth. */
  function Depth(t: Table, R: int, r: Row): nat {
    CountWhere(t, Enclosing(R, r.lft, r.rgt))
  }

  /** Two intervals are disjoint or one strictly contains the other. */
  predicate NestedOrDisjoint(a: Row, b: Row) {
    || a.rgt < b.lft
    || b.rgt < a.lft
    || (a.lft < b.lft && b.rgt < a.rgt)
    || (b.lft < a.lft && a.rgt < b.rgt)
  }

  predicate PositiveWidth(t: Table, R: int) {
    forall r :: r in t && r.rootId == R ==> r.lft < r.rgt
  }

  /** No two rows of the tree partially overlap or share an endpoint. */
  predicate Laminar(t: Table, R: int) {
    forall a, b :: a in t && b in t && a.rootId == R && b.rootId == R && a != b ==> NestedOrDisjoint(a, b)
  }

  predicate InRange(t: Table, R: int) {
    forall r :: r in t && r.rootId == R ==> 1 <= r.lft <= 2 * Size(t, R) && 1 <= r.rgt <= 2 * Size(t, R)
  }

  /** The endpoints of a tree of n rows are exactly 1..2n, each used once. */
  predicate Dense(t: Table, R: int) {
    && InRange(t, R)
    && forall k :: 1 <= k <= 2 * Size(t, R) ==> Occ(t, R, k) == 1
  }

  /** A non-empty tree has a root row [1, 2n] that encloses every other row. */
  predicate Rooted(t: Table, R: int) {
    Size(t, R) == 0 || exists r :: r in t && r.rootId == R && r.lft == 1 && r.rgt == 2 * Size(t, R)
  }

  /** The nested-set invariant of tree R. */
  predicate WellFormed(t: Table, R: int) {
    PositiveWidth(t, R) && Laminar(t, R) && Dense(t, R) && Rooted(t, R)
  }

  /** Every row of tree R stores its depth as its level. */
  predicate LevelConsistent(t: Table, R: int) {
    forall r :: r in t && r.rootId == R ==> r.level == Depth(t, R, r)
  }

  /** Every tree other than R has the same rows, in the same order. */
  ghost predicate OnlyTreeChanged(t: Table, u: Table, R: int) {
    forall R' :: R' != R ==> Filter(u, InTree(R')) == Filter(t, InTree(R'))
  }

  /** Sum of Occ over [lo, hi). */
  function SumOcc(t: Table, R: int, lo: int, hi: int): nat
    decreases hi - lo
  {
    if hi <= lo then 0 else SumOcc(t, R, lo, hi - 1) + Occ(t, R, hi - 1)
  }

  /** Summing the occurrences of every value of a range counts the endpoints
      that fall in it. */
  lemma {:induction false} SumOccIsEndpointsIn(t: Table, R: int, lo: int, hi: int)
    requires lo <= hi
    ensures SumOcc(t, R, lo, hi) == EndpointsIn(t, R, lo, hi)
    decreases hi - lo
  {
    if hi == lo {
      CountZero(t, LftIn(R, lo, hi));
      CountZero(t, RgtIn(R, lo, hi));
    } else {
      SumOccIsEndpointsIn(t, R, lo, hi - 1);
      CountSplit(t, LftIn(R, lo, hi), LftIn(R, lo, hi - 1), LftAt(R, hi - 1));
      CountSplit(t, RgtIn(R, lo, hi), RgtIn(R, lo, hi - 1), RgtAt(R, hi - 1));
    }
  }

  lemma {:induction false} DenseSumOcc(t: Table, R: int, lo: int, hi: int)
    requires Dense(t, R)
    requires 1 <= lo <= hi <= 2 * Size(t, R) + 1
    ensures SumOcc(t, R, lo, hi) == hi - lo
    decreases hi - lo
  {
    if hi > lo {
      DenseSumOcc(t, R, lo, hi - 1);
    }
  }

  /** In a dense tree every range of positions inside 1..2n holds exactly as
      many endpoints as it has positions. */
  lemma DenseEndpoints(t: Table, R: int, lo: int, hi: int)
    requires Dense(t, R)
    requires 1 <= lo <= hi <= 2 * Size(t, R) + 1
    ensures EndpointsIn(t, R, lo, hi) == hi - lo
  {
    DenseSumOcc(t, R, lo, hi);
    SumOccIsEndpointsIn(t, R, lo, hi);
  }

  /** A row of a well-formed tree: its interval [a, b] strictly encloses
      exactly (b - a - 1) / 2 rows, and contains (b - a + 1) / 2 rows
      counting itself. */
  lemma SubtreeCounts(t: Table, R: int, x: Row)
    requires WellFormed(t, R)
    requires x in t && x.rootId == R
    ensures 2 * CountWhere(t, StrictlyInside(R, x.lft, x.rgt)) == x.rgt - x.lft - 1
    ensures 2 * CountWhere(t, Within(R, x.lft, x.rgt)) == x.rgt - x.lft + 1
  {
    var a, b := x.lft, x.rgt;
    DenseEndpoints(t, R, a + 1, b);
    forall i | 0 <= i < |t|
      ensures LftIn(R, a + 1, b)(t[i]) == StrictlyInside(R, a, b)(t[i])
      ensures RgtIn(R, a + 1, b)(t[i]) == StrictlyInside(R, a, b)(t[i])
      ensures Within(R, a, b)(t[i]) == (StrictlyInside(R, a, b)(t[i]) || LftAt(R, a)(t[i]))
      ensures !(StrictlyInside(R, a, b)(t[i]) && LftAt(R, a)(t[i]))
    {
      assert t[i] in t;
      if t[i] != x && t[i].rootId == R {
        assert NestedOrDisjoint(t[i], x);
      }
    }
    CountCorrespond(t, LftIn(R, a + 1, b), t, StrictlyInside(R, a, b));
    CountCorrespond(t, RgtIn(R, a + 1, b), t, StrictlyInside(R, a, b));
    CountSplit(t, Within(R, a, b), StrictlyInside(R, a, b), LftAt(R, a));
    // exactly one endpoint equals a, and x's lft is one
    assert Occ(t, R, a) == 1;
    var ix :| 0 <= ix < |t| && t[ix] == x;
    CountZero(t, LftAt(R, a));
  }

  /** In a well-formed tree the root row [1, 2n] is the only row with lft 1
      and encloses every other row of the tree. */
  lemma RootEnclosesAll(t: Table, R: int, root: Row, r: Row)
    requires WellFormed(t, R)
    requires root in t && root.rootId == R && root.lft == 1 && root.rgt == 2 * Size(t, R)
    requires r in t && r.rootId == R
    ensures r == root || (root.lft < r.lft && r.rgt < root.rgt)
  {
    if r != root {
      assert NestedOrDisjoint(r, root);
    }
  }

  /** Size and endpoint occurrences of tree R read only the rows of R. */
  lemma TreeCounts(t: Table, R: int)
    ensures Size(t, R) == |Filter(t, InTree(R))|
    ensures forall k :: Occ(t, R, k) == Occ(Filter(t, InTree(R)), R, k)
  {
    var f := Filter(t, InTree(R));
    FilterLength(t, InTree(R));
    forall k ensures Occ(t, R, k) == Occ(f, R, k) {
      CountFilter(t, InTree(R), LftAt(R, k), LftAt(R, k));
      CountFilter(t, InTree(R), RgtAt(R, k), RgtAt(R, k));
    }
  }

  /** Whether tree R is well formed depends only on its own rows: two
      tables holding the same rows of R, in the same order, agree. */
  lemma WellFormedOfTreeRows(t: Table, u: Table, R: int)
    requires Filter(t, InTree(R)) == Filter(u, InTree(R))
    ensures Size(t, R) == Size(u, R)
    ensures WellFormed(t, R) <==> WellFormed(u, R)
  {
    TreeCounts(t, R);
    TreeCounts(u, R);
    assert forall x :: x in t && x.rootId == R <==> x in u && x.rootId == R by {
      forall x ensures x in t && x.rootId == R <==> x in u && x.rootId == R {
        assert x in Filter(t, InTree(R)) <==> x in t && InTree(R)(x);
        assert x in Filter(u, InTree(R)) <==> x in u && InTree(R)(x);
      }
    }
  }
}

=== FILE: inserts.dfy ===
/** Placing a detached node into a tree: `createRoot`, `insertNode` and the
    `insertAs*` family. Each insert checks its guards before any write, opens
    a gap with `shiftRlValues` and saves the node into it. */
module Inserts {
  import opened Rows
  import opened Forest
  import opened Relabel
  import opened Shift
  import opened Predicates

  /** Where an insert puts the node: interval, level and tree. */
  datatype Slot = Slot(lft: int, rgt: int, level: int, rootId: int)

  /** The in-memory node once its level is set and `insertNode` has run. */
  function Placed(n: Row, s: Slot): Row {
    n.(lft := s.lft, rgt := s.rgt, level := s.level, rootId := s.rootId)
  }

  // The slots the four sibling and child inserts compute from the
  // destination node, as written.

  function PrevSiblingSlot(dest: Row): Slot {
    Slot(dest.lft, dest.lft + 1, dest.level + 1, dest.rootId)
  }

  function NextSiblingSlot(dest: Row): Slot {
    Slot(dest.rgt + 1, dest.rgt + 2, dest.level + 1, dest.rootId)
  }

  function FirstChildSlot(dest: Row): Slot {
    Slot(dest.lft + 1, dest.lft + 2, dest.level + 1, dest.rootId)
  }

  function LastChildSlot(dest: Row): Slot {
    Slot(dest.rgt, dest.lft + 1, dest.level + 1, dest.rootId)
  }

  // The slots the same inserts evidently intend: a sibling shares the
  // destination's level, and a last child is [dest.rgt, dest.rgt + 1].

  function PrevSiblingSlotCorrected(dest: Row): Slot {
    Slot(dest.lft, dest.lft + 1, dest.level, dest.rootId)
  }

  function NextSiblingSlotCorrected(dest: Row): Slot {
    Slot(dest.rgt + 1, dest.rgt + 2, dest.level, dest.rootId)
  }

  function LastChildSlotCorrected(dest: Row): Slot {
    Slot(dest.rgt, dest.rgt + 1, dest.level + 1, dest.rootId)
  }

  /** `insertNode(destLeft, destRight, destRoot)`: set the node's place and
      tree, then save it (replacing its stored row, or adding it). */
  function InsertNode(t: Table, n: Row, lft: int, rgt: int, root: int): (r: Table)
    ensures n.(lft := lft, rgt := rgt, rootId := root) in r
    ensures !HasId(t, n.id) ==> r == t + [n.(lft := lft, rgt := rgt, rootId := root)]
    ensures HasId(t, n.id) ==> |r| == |t|
  {
    Save(t, n.(lft := lft, rgt := rgt, rootId := root))
  }

  /** The common body of the sibling and child inserts: guards, then a gap
      of two at the slot's lft, then the node saved into the slot. */
  function InsertAt(t: Table, n: Row, dest: Row, s: Slot): (r: Result<Table>)
    ensures IsValidNode(n) ==> r == Err(AlreadyAttached)
    ensures !IsValidNode(n) && IsEqualTo(n, dest) ==> r == Err(SelfReference)
    ensures r.Ok? <==> !IsValidNode(n) && !IsEqualTo(n, dest)
    ensures r.Ok? ==> Placed(n, s) in r.value
    ensures r.Ok? && !HasId(t, n.id) ==> r.value == ShiftRlValues(t, s.lft, 2, s.rootId) + [Placed(n, s)]
  {
    if IsValidNode(n) then Err(AlreadyAttached)
    else if IsEqualTo(n, dest) then Err(SelfReference)
    else Ok(InsertNode(ShiftRlValues(t, s.lft, 2, s.rootId), n.(level := s.level), s.lft, s.rgt, s.rootId))
  }

  /** `insertAsPrevSiblingOf(dest)`: the node takes [dest.lft, dest.lft + 1]
      and, as written, level dest.level + 1. */
  function InsertAsPrevSiblingOf(t: Table, n: Row, dest: Row): (r: Result<Table>)
    ensures IsValidNode(n) ==> r == Err(AlreadyAttached)
    ensures !IsValidNode(n) && IsEqualTo(n, dest) ==> r == Err(SelfReference)
    ensures r.Ok? <==> !IsValidNode(n) && !IsEqualTo(n, dest)
    ensures r.Ok? ==> n.(lft := dest.lft, rgt := dest.lft + 1, level := dest.level + 1, rootId := dest.rootId) in r.value
  {
    InsertAt(t, n, dest, PrevSiblingSlot(dest))
  }

  /** `insertAsNextSiblingOf(dest)`: [dest.rgt + 1, dest.rgt + 2], level
      dest.level + 1 as written. */
  function InsertAsNextSiblingOf(t: Table, n: Row, dest: Row): (r: Result<Table>)
    ensures IsValidNode(n) ==> r == Err(AlreadyAttached)
    ensures !IsValidNode(n) && IsEqualTo(n, dest) ==> r == Err(SelfReference)
    ensures r.Ok? <==> !IsValidNode(n) && !IsEqualTo(n, dest)
    ensures r.Ok? ==> n.(lft := dest.rgt + 1, rgt := dest.rgt + 2, level := dest.level + 1, rootId := dest.rootId) in r.value
  {
    InsertAt(t, n, dest, NextSiblingSlot(dest))
  }

  /** `insertAsFirstChildOf(dest)`: [dest.lft + 1, dest.lft + 2], level
      dest.level + 1. */
  function InsertAsFirstChildOf(t: Table, n: Row, dest: Row): (r: Result<Table>)
    ensures IsValidNode(n) ==> r == Err(AlreadyAttached)
    ensures !IsValidNode(n) && IsEqualTo(n, dest) ==> r == Err(SelfReference)
    ensures r.Ok? <==> !IsValidNode(n) && !IsEqualTo(n, dest)
    ensures r.Ok? ==> n.(lft := dest.lft + 1, rgt := dest.lft + 2, level := dest.level + 1, rootId := dest.rootId) in r.value
  {
    InsertAt(t, n, dest, FirstChildSlot(dest))
  }

  /** `insertAsLastChildOf(dest)`: the gap opens at dest.rgt, but the node
      is saved as [dest.rgt, dest.lft + 1], an empty interval whenever the
      destination is a valid node. */
  function InsertAsLastChildOf(t: Table, n: Row, dest: Row): (r: Result<Table>)
    ensures IsValidNode(n) ==> r == Err(AlreadyAttached)
    ensures !IsValidNode(n) && IsEqualTo(n, dest) ==> r == Err(SelfReference)
    ensures r.Ok? <==> !IsValidNode(n) && !IsEqualTo(n, dest)
    ensures r.Ok? ==> n.(lft := dest.rgt, rgt := dest.lft + 1, level := dest.level + 1, rootId := dest.rootId) in r.value
    ensures r.Ok? && IsValidNode(dest) ==> !PositiveWidth(r.value, dest.rootId)
  {
    InsertAt(t, n, dest, LastChildSlot(dest))
  }

  function InsertAsPrevSiblingOfCorrected(t: Table, n: Row, dest: Row): (r: Result<Table>)
    ensures r.Ok? <==> !IsValidNode(n) && !IsEqualTo(n, dest)
    ensures r.Ok? ==> n.(lft := dest.lft, rgt := dest.lft + 1, level := dest.level, rootId := dest.rootId) in r.value
  {
    InsertAt(t, n, dest, PrevSiblingSlotCorrected(dest))
  }

  function InsertAsNextSiblingOfCorrected(t: Table, n: Row, dest: Row): (r: Result<Table>)
    ensures r.Ok? <==> !IsValidNode(n) && !IsEqualTo(n, dest)
    ensures r.Ok? ==> n.(lft := dest.rgt + 1, rgt := dest.rgt + 2, level := dest.level, rootId := dest.rootId) in r.value
  {
    InsertAt(t, n, dest, NextSiblingSlotCorrected(dest))
  }

  function InsertAsLastChildOfCorrected(t: Table, n: Row, dest: Row): (r: Result<Table>)
    ensures r.Ok? <==> !IsValidNode(n) && !IsEqualTo(n, dest)
    ensures r.Ok? ==> n.(lft := dest.rgt, rgt := dest.rgt + 1, level := dest.level + 1, rootId := dest.rootId) in r.value
  {
    InsertAt(t, n, dest, LastChildSlotCorrected(dest))
  }

  /** The effect of a shift by two at p on one value. */
  lemma ShiftUpInjective(p: int)
    ensures Injective(Moved(AtLeast(p), 2))
  {
  }

  /** Opening a gap of two at p (2 <= p <= 2n) and appending a row [p, p+1]
      keeps a well-formed tree well formed. */
  lemma GapInsertWellFormed(t: Table, R: int, p: int, x: Row)
    requires WellFormed(t, R)
    requires 2 <= p <= 2 * Size(t, R)
    requires x.rootId == R && x.lft == p && x.rgt == p + 1
    ensures WellFormed(ShiftRlValues(t, p, 2, R) + [x], R)
    ensures Size(ShiftRlValues(t, p, 2, R) + [x], R) == Size(t, R) + 1
  {
    assert ShiftRlValues(t, p, 2, R) == MapRows(t, ShiftRow(AtLeast(p), 2, R));
    GapRowsShape(t, R, p, x);
    GapRowsDense(t, R, p, x);
    GapRowsRooted(t, R, p, x);
  }

  /** The shape half of GapInsertWellFormed. */
  lemma GapRowsShape(t: Table, R: int, p: int, x: Row)
    requires PositiveWidth(t, R) && Laminar(t, R)
    requires x.rootId == R && x.lft == p && x.rgt == p + 1
    ensures var u := MapRows(t, ShiftRow(AtLeast(p), 2, R)) + [x];
            PositiveWidth(u, R) && Laminar(u, R)
  {
    var f := ShiftRow(AtLeast(p), 2, R);
    var s := MapRows(t, f);
    ShiftRelabels(t, AtLeast(p), 2, R);
    ShapeRelabel(t, f, R, Moved(AtLeast(p), 2));
    forall y | y in s && y.rootId == R && y != x ensures NestedOrDisjoint(x, y) {
      var i :| 0 <= i < |s| && s[i] == y;
      AtLeastShiftRow(p, 2, R, t[i]);
    }
    AddRowShape(s, R, x);
  }

  /** The counting half of GapInsertWellFormed. */
  lemma GapRowsDense(t: Table, R: int, p: int, x: Row)
    requires Dense(t, R)
    requires 2 <= p <= 2 * Size(t, R)
    requires x.rootId == R && x.lft == p && x.rgt == p + 1
    ensures var u := MapRows(t, ShiftRow(AtLeast(p), 2, R)) + [x];
            Dense(u, R) && Size(u, R) == Size(t, R) + 1
  {
    var h := Moved(AtLeast(p), 2);
    ShiftRelabels(t, AtLeast(p), 2, R);
    ShiftUpInjective(p);
    var g := (k: int) => if k < p then k else k - 2;
    AddRowDense(t, ShiftRow(AtLeast(p), 2, R), R, h, g, x);
  }

  /** The root [1, 2n] becomes [1, 2n + 2]. */
  lemma GapRowsRooted(t: Table, R: int, p: int, x: Row)
    requires Rooted(t, R) && Size(t, R) > 0
    requires 2 <= p <= 2 * Size(t, R)
    requires x.rootId == R
    requires Size(MapRows(t, ShiftRow(AtLeast(p), 2, R)) + [x], R) == Size(t, R) + 1
    ensures Rooted(MapRows(t, ShiftRow(AtLeast(p), 2, R)) + [x], R)
  {
    var s := MapRows(t, ShiftRow(AtLeast(p), 2, R));
    var root :| root in t && root.rootId == R && root.lft == 1 && root.rgt == 2 * Size(t, R);
    var j :| 0 <= j < |t| && t[j] == root;
    AtLeastShiftRow(p, 2, R, root);
    assert s[j] in s + [x];
  }

  /** A new instance inserted into a free slot [p, p + 1] (2 <= p <= 2n) of a
      well-formed tree leaves it well formed, one row larger, and leaves
      every other tree as it was. */
  lemma InsertAtWellFormed(t: Table, R: int, n: Row, dest: Row, s: Slot)
    requires WellFormed(t, R)
    requires !HasId(t, n.id) && !IsValidNode(n) && !IsEqualTo(n, dest)
    requires s.rootId == R && s.rgt == s.lft + 1 && 2 <= s.lft <= 2 * Size(t, R)
    ensures InsertAt(t, n, dest, s).Ok?
    ensures WellFormed(InsertAt(t, n, dest, s).value, R)
    ensures Size(InsertAt(t, n, dest, s).value, R) == Size(t, R) + 1
    ensures OnlyTreeChanged(t, InsertAt(t, n, dest, s).value, R)
  {
    GapInsertWellFormed(t, R, s.lft, Placed(n, s));
    var sh := ShiftRlValues(t, s.lft, 2, R);
    var u := InsertAt(t, n, dest, s).value;
    forall R' | R' != R ensures Filter(u, InTree(R')) == Filter(t, InTree(R')) {
      FilterAppendRejected(sh, Placed(n, s), InTree(R'));
      FilterMapRows(t, ShiftRow(AtLeast(s.lft), 2, R), InTree(R'));
    }
  }

  /** Rows of tree R that begin before p and end at or after it. */
  function Straddles(R: int, p: int): Row -> bool {
    (r: Row) => r.rootId == R && r.lft < p && p <= r.rgt
  }

  /** After a gap insert at p, every old row keeps its depth and the new row
      [p, p + 1] is enclosed by exactly the rows that straddled p. */
  lemma GapInsertDepth(t: Table, R: int, p: int, x: Row)
    requires PositiveWidth(t, R)
    requires x.rootId == R && x.lft == p && x.rgt == p + 1
    ensures forall i :: 0 <= i < |t| && t[i].rootId == R ==>
      Depth(ShiftRlValues(t, p, 2, R) + [x], R, ShiftRlValues(t, p, 2, R)[i]) == Depth(t, R, t[i])
    ensures Depth(ShiftRlValues(t, p, 2, R) + [x], R, x) == CountWhere(t, Straddles(R, p))
  {
    assert ShiftRlValues(t, p, 2, R) == MapRows(t, ShiftRow(AtLeast(p), 2, R));
    GapRowsDepth(t, R, p, x);
  }

  /** The gap shift keeps which rows enclose which, and the rows enclosing
      the new [p, p + 1] are those that straddled p. */
  lemma GapShiftEncloses(R: int, p: int, y: Row, z: Row)
    requires y.rootId == R
    ensures Enclosing(R, ShiftRow(AtLeast(p), 2, R)(y).lft, ShiftRow(AtLeast(p), 2, R)(y).rgt)(ShiftRow(AtLeast(p), 2, R)(z))
         == Enclosing(R, y.lft, y.rgt)(z)
    ensures Enclosing(R, p, p + 1)(ShiftRow(AtLeast(p), 2, R)(z)) == Straddles(R, p)(z)
  {
    AtLeastShiftRow(p, 2, R, y);
    AtLeastShiftRow(p, 2, R, z);
  }

  lemma GapRowsDepth(t: Table, R: int, p: int, x: Row)
    requires PositiveWidth(t, R)
    requires x.rootId == R && x.lft == p && x.rgt == p + 1
    ensures forall i :: 0 <= i < |t| && t[i].rootId == R ==>
      Depth(MapRows(t, ShiftRow(AtLeast(p), 2, R)) + [x], R, MapRows(t, ShiftRow(AtLeast(p), 2, R))[i]) == Depth(t, R, t[i])
    ensures Depth(MapRows(t, ShiftRow(AtLeast(p), 2, R)) + [x], R, x) == CountWhere(t, Straddles(R, p))
  {
    var f := ShiftRow(AtLeast(p), 2, R);
    var s := MapRows(t, f);
    var u := s + [x];
    forall i | 0 <= i < |t| && t[i].rootId == R ensures Depth(u, R, s[i]) == Depth(t, R, t[i]) {
      var y := t[i];
      assert y in t;
      AtLeastShiftRow(p, 2, R, y);
      CountAppend(s, x, Enclosing(R, s[i].lft, s[i].rgt));
      forall k | 0 <= k < |t| ensures Enclosing(R, s[i].lft, s[i].rgt)(s[k]) == Enclosing(R, y.lft, y.rgt)(t[k]) {
        GapShiftEncloses(R, p, y, t[k]);
      }
      CountCorrespond(s, Enclosing(R, s[i].lft, s[i].rgt), t, Enclosing(R, y.lft, y.rgt));
    }
    CountAppend(s, x, Enclosing(R, p, p + 1));
    forall k | 0 <= k < |t| ensures Enclosing(R, p, p + 1)(s[k]) == Straddles(R, p)(t[k]) {
      GapShiftEncloses(R, p, x, t[k]);
    }
    CountCorrespond(s, Enclosing(R, p, p + 1), t, Straddles(R, p));
  }

  /** In a well-formed tree the rows straddling dest.lft, and those
      straddling dest.rgt + 1, are exactly dest's strict ancestors. */
  lemma StraddleOutside(t: Table, R: int, dest: Row)
    requires WellFormed(t, R)
    requires dest in t && dest.rootId == R
    ensures CountWhere(t, Straddles(R, dest.lft)) == Depth(t, R, dest)
    ensures CountWhere(t, Straddles(R, dest.rgt + 1)) == Depth(t, R, dest)
  {
    forall i | 0 <= i < |t|
      ensures Straddles(R, dest.lft)(t[i]) == Enclosing(R, dest.lft, dest.rgt)(t[i])
      ensures Straddles(R, dest.rgt + 1)(t[i]) == Enclosing(R, dest.lft, dest.rgt)(t[i])
    {
      assert t[i] in t;
      if t[i] != dest && t[i].rootId == R {
        assert NestedOrDisjoint(t[i], dest);
      }
    }
    CountCorrespond(t, Straddles(R, dest.lft), t, Enclosing(R, dest.lft, dest.rgt));
    CountCorrespond(t, Straddles(R, dest.rgt + 1), t, Enclosing(R, dest.lft, dest.rgt));
  }

  /** In a well-formed tree a row's own lft is the lft of no other row. */
  lemma LftUnique(t: Table, R: int, dest: Row)
    requires WellFormed(t, R)
    requires dest in t && dest.rootId == R
    ensures CountWhere(t, LftAt(R, dest.lft)) == 1
    ensures CountWhere(t, RgtAt(R, dest.rgt)) == 1
  {
    assert Occ(t, R, dest.lft) == 1 && Occ(t, R, dest.rgt) == 1;
    CountZero(t, LftAt(R, dest.lft));
    CountZero(t, RgtAt(R, dest.rgt));
    var j :| 0 <= j < |t| && t[j] == dest;
  }

  /** The rows straddling dest.lft + 1, and those straddling dest.rgt, are
      dest and its strict ancestors. */
  lemma StraddleInside(t: Table, R: int, dest: Row)
    requires WellFormed(t, R)
    requires dest in t && dest.rootId == R
    ensures CountWhere(t, Straddles(R, dest.lft + 1)) == Depth(t, R, dest) + 1
    ensures CountWhere(t, Straddles(R, dest.rgt)) == Depth(t, R, dest) + 1
  {
    var enc := Enclosing(R, dest.lft, dest.rgt);
    forall i | 0 <= i < |t|
      ensures Straddles(R, dest.lft + 1)(t[i]) == (enc(t[i]) || LftAt(R, dest.lft)(t[i]))
      ensures !(enc(t[i]) && LftAt(R, dest.lft)(t[i]))
      ensures Straddles(R, dest.rgt)(t[i]) == (enc(t[i]) || RgtAt(R, dest.rgt)(t[i]))
      ensures !(enc(t[i]) && RgtAt(R, dest.rgt)(t[i]))
    {
      assert t[i] in t;
      if t[i] != dest && t[i].rootId == R {
        assert NestedOrDisjoint(t[i], dest);
      }
    }
    CountSplit(t, Straddles(R, dest.lft + 1), enc, LftAt(R, dest.lft));
    CountSplit(t, Straddles(R, dest.rgt), enc, RgtAt(R, dest.rgt));
    LftUnique(t, R, dest);
  }

  /** A gap insert whose level is the number of rows straddling p keeps
      every stored level equal to the depth. */
  lemma GapInsertLevels(t: Table, R: int, p: int, x: Row)
    requires PositiveWidth(t, R) && LevelConsistent(t, R)
    requires x.rootId == R && x.lft == p && x.rgt == p + 1
    requires x.level == CountWhere(t, Straddles(R, p))
    ensures LevelConsistent(ShiftRlValues(t, p, 2, R) + [x], R)
  {
    GapInsertDepth(t, R, p, x);
    var s := ShiftRlValues(t, p, 2, R);
    var u := s + [x];
    forall y | y in u && y.rootId == R ensures y.level == Depth(u, R, y) {
      if y != x {
        var i :| 0 <= i < |s| && s[i] == y;
        assert t[i] in t;
      }
    }
  }

  /** An insert into the free slot [p, p + 1] whose level counts the rows
      straddling p keeps the levels equal to the depths. */
  lemma InsertAtKeepsLevels(t: Table, R: int, n: Row, dest: Row, s: Slot)
    requires PositiveWidth(t, R) && LevelConsistent(t, R)
    requires !HasId(t, n.id) && !IsValidNode(n) && !IsEqualTo(n, dest)
    requires s.rootId == R && s.rgt == s.lft + 1
    requires s.level == CountWhere(t, Straddles(R, s.lft))
    ensures LevelConsistent(InsertAt(t, n, dest, s).value, R)
  {
    GapInsertLevels(t, R, s.lft, Placed(n, s));
  }

  /** With any other level, the inserted row's level is not its depth. */
  lemma InsertAtBreaksLevels(t: Table, R: int, n: Row, dest: Row, s: Slot)
    requires PositiveWidth(t, R)
    requires !HasId(t, n.id) && !IsValidNode(n) && !IsEqualTo(n, dest)
    requires s.rootId == R && s.rgt == s.lft + 1
    requires s.level != CountWhere(t, Straddles(R, s.lft))
    ensures !LevelConsistent(InsertAt(t, n, dest, s).value, R)
  {
    var x := Placed(n, s);
    GapInsertDepth(t, R, s.lft, x);
    assert x in InsertAt(t, n, dest, s).value;
  }

  // In a well-formed tree whose levels are the depths, the corrected
  // sibling inserts and both child inserts (the last-child one corrected)
  // keep every level equal to the depth.

  lemma PrevSiblingCorrectedKeepsLevels(t: Table, R: int, n: Row, dest: Row)
    requires WellFormed(t, R) && LevelConsistent(t, R)
    requires dest in t && dest.rootId == R
    requires !HasId(t, n.id) && !IsValidNode(n) && !IsEqualTo(n, dest)
    ensures LevelConsistent(InsertAsPrevSiblingOfCorrected(t, n, dest).value, R)
  {
    assert dest.level == Depth(t, R, dest);
    var s := PrevSiblingSlotCorrected(dest);
    StraddleOutside(t, R, dest);
    StraddleInside(t, R, dest);
    assert s.level == CountWhere(t, Straddles(R, s.lft));
    InsertAtKeepsLevels(t, R, n, dest, s);
  }

  lemma NextSiblingCorrectedKeepsLevels(t: Table, R: int, n: Row, dest: Row)
    requires WellFormed(t, R) && LevelConsistent(t, R)
    requires dest in t && dest.rootId == R
    requires !HasId(t, n.id) && !IsValidNode(n) && !IsEqualTo(n, dest)
    ensures LevelConsistent(InsertAsNextSiblingOfCorrected(t, n, dest).value, R)
  {
    assert dest.level == Depth(t, R, dest);
    var s := NextSiblingSlotCorrected(dest);
    StraddleOutside(t, R, dest);
    StraddleInside(t, R, dest);
    assert s.level == CountWhere(t, Straddles(R, s.lft));
    InsertAtKeepsLevels(t, R, n, dest, s);
  }

  lemma FirstChildKeepsLevels(t: Table, R: int, n: Row, dest: Row)
    requires WellFormed(t, R) && LevelConsistent(t, R)
    requires dest in t && dest.rootId == R
    requires !HasId(t, n.id) && !IsValidNode(n) && !IsEqualTo(n, dest)
    ensures LevelConsistent(InsertAsFirstChildOf(t, n, dest).value, R)
  {
    assert dest.level == Depth(t, R, dest);
    var s := FirstChildSlot(dest);
    StraddleOutside(t, R, dest);
    StraddleInside(t, R, dest);
    assert s.level == CountWhere(t, Straddles(R, s.lft));
    InsertAtKeepsLevels(t, R, n, dest, s);
  }

  lemma LastChildCorrectedKeepsLevels(t: Table, R: int, n: Row, dest: Row)
    requires WellFormed(t, R) && LevelConsistent(t, R)
    requires dest in t && dest.rootId == R
    requires !HasId(t, n.id) && !IsValidNode(n) && !IsEqualTo(n, dest)
    ensures LevelConsistent(InsertAsLastChildOfCorrected(t, n, dest).value, R)
  {
    assert dest.level == Depth(t, R, dest);
    var s := LastChildSlotCorrected(dest);
    StraddleOutside(t, R, dest);
    StraddleInside(t, R, dest);
    assert s.level == CountWhere(t, Straddles(R, s.lft));
    InsertAtKeepsLevels(t, R, n, dest, s);
  }

  // As written, a node inserted as a sibling of any row of such a tree is
  // stored one level deeper than it is.

  lemma PrevSiblingLevelIsWrong(t: Table, R: int, n: Row, dest: Row)
    requires WellFormed(t, R) && LevelConsistent(t, R)
    requires dest in t && dest.rootId == R
    requires !HasId(t, n.id) && !IsValidNode(n) && !IsEqualTo(n, dest)
    ensures !LevelConsistent(InsertAsPrevSiblingOf(t, n, dest).value, R)
  {
    assert dest.level == Depth(t, R, dest);
    var s := PrevSiblingSlot(dest);
    StraddleOutside(t, R, dest);
    assert s.level != CountWhere(t, Straddles(R, s.lft));
    InsertAtBreaksLevels(t, R, n, dest, s);
  }

  lemma NextSiblingLevelIsWrong(t: Table, R: int, n: Row, dest: Row)
    requires WellFormed(t, R) && LevelConsistent(t, R)
    requires dest in t && dest.rootId == R
    requires !HasId(t, n.id) && !IsValidNode(n) && !IsEqualTo(n, dest)
    ensures !LevelConsistent(InsertAsNextSiblingOf(t, n, dest).value, R)
  {
    assert dest.level == Depth(t, R, dest);
    var s := NextSiblingSlot(dest);
    StraddleOutside(t, R, dest);
    assert s.level != CountWhere(t, Straddles(R, s.lft));
    InsertAtBreaksLevels(t, R, n, dest, s);
  }

  /** The four inserts with a destination row keep the tree well formed:
      sibling inserts need a destination that is not the root, since a
      second top-level interval has no place in a rooted tree. */
  lemma InsertsKeepWellFormed(t: Table, R: int, n: Row, dest: Row)
    requires WellFormed(t, R)
    requires dest in t && dest.rootId == R
    requires !HasId(t, n.id) && !IsValidNode(n) && !IsEqualTo(n, dest)
    ensures WellFormed(InsertAsFirstChildOf(t, n, dest).value, R)
    ensures WellFormed(InsertAsLastChildOfCorrected(t, n, dest).value, R)
    ensures !IsRoot(dest) ==> WellFormed(InsertAsPrevSiblingOf(t, n, dest).value, R)
    ensures !IsRoot(dest) ==> WellFormed(InsertAsNextSiblingOf(t, n, dest).value, R)
  {
    var j :| 0 <= j < |t| && t[j] == dest;
    var root :| root in t && root.rootId == R && root.lft == 1 && root.rgt == 2 * Size(t, R);
    RootEnclosesAll(t, R, root, dest);
    InsertAtWellFormed(t, R, n, dest, FirstChildSlot(dest));
    InsertAtWellFormed(t, R, n, dest, LastChildSlotCorrected(dest));
    if !IsRoot(dest) {
      InsertAtWellFormed(t, R, n, dest, PrevSiblingSlot(dest));
      InsertAtWellFormed(t, R, n, dest, NextSiblingSlot(dest));
    }
  }

  /** The `increment({lft: 1, rgt: 1, level: 1})` of insertAsParentOf: rows
      of tree R inside [a, b] move one place right and one level down. */
  function WrapSubtree(a: int, b: int, R: int): Row -> Row {
    (x: Row) =>
      if x.rootId == R && x.lft >= a && x.rgt <= b then x.(lft := x.lft + 1, rgt := x.rgt + 1, level := x.level + 1)
      else x
  }

  /** The table after the two bulk updates of insertAsParentOf, before the
      node is saved. */
  function ParentGap(t: Table, dest: Row): (r: Table)
    ensures |r| == |t|
    ensures forall i :: 0 <= i < |t| && t[i].rootId != dest.rootId ==> r[i] == t[i]
    ensures forall i :: 0 <= i < |t| ==> r[i].id == t[i].id && r[i].rootId == t[i].rootId
  {
    MapRows(ShiftRlValues(t, dest.rgt + 1, 2, dest.rootId), WrapSubtree(dest.lft, dest.rgt + 2, dest.rootId))
  }

  /** `insertAsParentOf(dest)`, as written: the root guard looks at the node
      being inserted, not at the destination. The node takes
      [dest.lft, dest.rgt + 2] at dest's level; dest's subtree moves one
      place right and one level down. */
  function InsertAsParentOf(t: Table, n: Row, dest: Row): (r: Result<Table>)
    ensures IsValidNode(n) ==> r == Err(AlreadyAttached)
    ensures !IsValidNode(n) && IsRoot(n) ==> r == Err(RootOperationInvalid)
    ensures !IsValidNode(n) && !IsRoot(n) && IsEqualTo(n, dest) ==> r == Err(SelfReference)
    ensures r.Ok? <==> !IsValidNode(n) && !IsRoot(n) && !IsEqualTo(n, dest)
    ensures r.Ok? ==> n.(lft := dest.lft, rgt := dest.rgt + 2, level := dest.level, rootId := dest.rootId) in r.value
    ensures r.Ok? && !HasId(t, n.id) ==> |r.value| == |t| + 1 && r.value[|t|].id == n.id
  {
    if IsValidNode(n) then Err(AlreadyAttached)
    else if IsRoot(n) then Err(RootOperationInvalid)
    else if IsEqualTo(n, dest) then Err(SelfReference)
    else Ok(InsertNode(ParentGap(t, dest), n.(level := dest.level), dest.lft, dest.rgt + 2, dest.rootId))
  }

  /** The evident intent of the root guard: refuse to insert above a root. */
  function InsertAsParentOfCorrected(t: Table, n: Row, dest: Row): (r: Result<Table>)
    ensures r == Err(RootOperationInvalid) <==> !IsValidNode(n) && IsRoot(dest)
    ensures r.Ok? ==> !IsRoot(dest)
    ensures r.Ok? <==> !IsValidNode(n) && !IsRoot(dest) && !IsEqualTo(n, dest)
  {
    if IsValidNode(n) then Err(AlreadyAttached)
    else if IsRoot(dest) then Err(RootOperationInvalid)
    else if IsEqualTo(n, dest) then Err(SelfReference)
    else Ok(InsertNode(ParentGap(t, dest), n.(level := dest.level), dest.lft, dest.rgt + 2, dest.rootId))
  }

  /** The renaming insertAsParentOf makes of the endpoints of tree R, with
      [a, b] the destination's interval: the subtree moves one place, what
      follows it two. */
  function ParentShiftValue(a: int, b: int, v: int): int {
    if v < a then v else if v <= b then v + 1 else v + 2
  }

  function ParentShift(a: int, b: int): int -> int {
    v => ParentShiftValue(a, b, v)
  }

  /** The row ParentGap makes of a row of a laminar tree: endpoints renamed,
      and one level down inside dest's subtree. */
  function ParentRowOf(dest: Row, z: Row): Row {
    if z.rootId != dest.rootId then z
    else
      z.(lft := ParentShiftValue(dest.lft, dest.rgt, z.lft),
         rgt := ParentShiftValue(dest.lft, dest.rgt, z.rgt),
         level := z.level + (if dest.lft <= z.lft && z.rgt <= dest.rgt then 1 else 0))
  }

  function ParentRow(dest: Row): Row -> Row {
    (z: Row) => ParentRowOf(dest, z)
  }

  /** One row of a laminar tree through the two bulk updates of
      insertAsParentOf. */
  lemma ParentRowTrace(dest: Row, z: Row)
    requires z.rootId == dest.rootId ==> dest.lft < dest.rgt && z.lft < z.rgt && (z == dest || NestedOrDisjoint(z, dest))
    ensures WrapSubtree(dest.lft, dest.rgt + 2, dest.rootId)(ShiftRow(AtLeast(dest.rgt + 1), 2, dest.rootId)(z))
         == ParentRowOf(dest, z)
  {
    var a, b, R := dest.lft, dest.rgt, dest.rootId;
    AtLeastShiftRow(b + 1, 2, R, z);
    var y := ShiftRow(AtLeast(b + 1), 2, R)(z);
    assert WrapSubtree(a, b + 2, R)(y) ==
      if y.rootId == R && y.lft >= a && y.rgt <= b + 2 then y.(lft := y.lft + 1, rgt := y.rgt + 1, level := y.level + 1)
      else y;
    if z.rootId == R {
      assert y.lft == (if z.lft >= b + 1 then z.lft + 2 else z.lft);
      assert y.rgt == (if z.rgt >= b + 1 then z.rgt + 2 else z.rgt);
      assert (y.lft >= a && y.rgt <= b + 2) == (a <= z.lft && z.rgt <= b);
    }
  }

  /** In a laminar tree the two bulk updates of insertAsParentOf are one
      renaming by ParentShift that also moves dest's subtree one level
      down. */
  lemma ParentGapRows(t: Table, R: int, dest: Row)
    requires PositiveWidth(t, R) && Laminar(t, R)
    requires dest in t && dest.rootId == R
    ensures ParentGap(t, dest) == MapRows(t, ParentRow(dest))
  {
    var sh := MapRows(t, ShiftRow(AtLeast(dest.rgt + 1), 2, R));
    assert ShiftRlValues(t, dest.rgt + 1, 2, R) == sh;
    var s := ParentGap(t, dest);
    forall i | 0 <= i < |t| ensures s[i] == ParentRowOf(dest, t[i]) {
      assert t[i] in t;
      assert s[i] == WrapSubtree(dest.lft, dest.rgt + 2, R)(sh[i]);
      ParentRowTrace(dest, t[i]);
    }
  }

  lemma ParentRelabels(t: Table, dest: Row)
    ensures RelabelsOn(t, ParentRow(dest), dest.rootId, ParentShift(dest.lft, dest.rgt))
  {
  }

  /** The renaming of insertAsParentOf keeps the order of all values and
      frees exactly dest.lft and dest.rgt + 2. */
  lemma ParentShiftFacts(a: int, b: int)
    requires a <= b
    ensures Injective(ParentShift(a, b))
    ensures forall u, v :: u < v ==> ParentShiftValue(a, b, u) < ParentShiftValue(a, b, v)
    ensures forall v :: ParentShiftValue(a, b, v) != a && ParentShiftValue(a, b, v) != b + 2
    ensures forall v :: (a < ParentShiftValue(a, b, v) <==> a <= v) && (ParentShiftValue(a, b, v) < b + 2 <==> v <= b)
  {
  }

  /** The row insertAsParentOf saves. */
  function ParentPlaced(n: Row, dest: Row): Row {
    n.(lft := dest.lft, rgt := dest.rgt + 2, level := dest.level, rootId := dest.rootId)
  }

  /** A new instance inserted as parent: the result is ParentGap with the
      node appended. */
  lemma ParentInsertShape(t: Table, n: Row, dest: Row)
    requires !HasId(t, n.id) && !IsValidNode(n) && !IsRoot(n) && !IsEqualTo(n, dest)
    ensures InsertAsParentOf(t, n, dest) == Ok(ParentGap(t, dest) + [ParentPlaced(n, dest)])
  {
  }

  /** Every row of dest's tree, once renamed, is nested in or disjoint
      from the new parent [dest.lft, dest.rgt + 2]. */
  lemma ParentRowNests(z: Row, dest: Row, x: Row)
    requires z.rootId == dest.rootId && z.lft < z.rgt
    requires z == dest || NestedOrDisjoint(z, dest)
    requires x.lft == dest.lft && x.rgt == dest.rgt + 2
    ensures NestedOrDisjoint(x, ParentRowOf(dest, z))
  {
  }

  lemma ParentInsertShapeKept(t: Table, R: int, dest: Row, x: Row)
    requires PositiveWidth(t, R) && Laminar(t, R)
    requires dest in t && dest.rootId == R
    requires x.rootId == R && x.lft == dest.lft && x.rgt == dest.rgt + 2
    ensures PositiveWidth(MapRows(t, ParentRow(dest)) + [x], R) && Laminar(MapRows(t, ParentRow(dest)) + [x], R)
  {
    var s := MapRows(t, ParentRow(dest));
    var h := ParentShift(dest.lft, dest.rgt);
    assert MonotoneOn(h, Endpoints(t, R)) by {
      ParentShiftFacts(dest.lft, dest.rgt);
    }
    ParentRelabels(t, dest);
    ShapeRelabel(t, ParentRow(dest), R, h);
    forall y | y in s && y.rootId == R && y != x ensures NestedOrDisjoint(x, y) {
      var i :| 0 <= i < |s| && s[i] == y;
      var z := t[i];
      assert z in t;
      ParentRowNests(z, dest, x);
    }
    AddRowShape(s, R, x);
  }

  lemma ParentInsertDense(t: Table, R: int, dest: Row, x: Row)
    requires WellFormed(t, R)
    requires dest in t && dest.rootId == R
    requires x.rootId == R && x.lft == dest.lft && x.rgt == dest.rgt + 2
    ensures Dense(MapRows(t, ParentRow(dest)) + [x], R)
    ensures Size(MapRows(t, ParentRow(dest)) + [x], R) == Size(t, R) + 1
  {
    var a, b := dest.lft, dest.rgt;
    ParentRelabels(t, dest);
    ParentShiftFacts(a, b);
    var g := (k: int) => if k < a then k else if k <= b + 1 then k - 1 else k - 2;
    AddRowDense(t, ParentRow(dest), R, ParentShift(a, b), g, x);
  }

  lemma ParentInsertRooted(t: Table, R: int, dest: Row, x: Row)
    requires WellFormed(t, R)
    requires dest in t && dest.rootId == R
    requires x.rootId == R && x.lft == dest.lft && x.rgt == dest.rgt + 2
    requires Size(MapRows(t, ParentRow(dest)) + [x], R) == Size(t, R) + 1
    ensures Rooted(MapRows(t, ParentRow(dest)) + [x], R)
  {
    var s := MapRows(t, ParentRow(dest));
    var sz := Size(t, R);
    var root :| root in t && root.rootId == R && root.lft == 1 && root.rgt == 2 * sz;
    RootEnclosesAll(t, R, root, dest);
    if root != dest {
      // an ancestor of dest: [1, 2n] becomes [1, 2n + 2]
      var j :| 0 <= j < |t| && t[j] == root;
      assert s[j] == ParentRowOf(dest, root);
      assert s[j] in s + [x];
    }
  }

  /** A node inserted as parent of any row of a well-formed tree (the root
      included) leaves it well formed, one row larger, with every other tree
      as it was. */
  lemma ParentInsertWellFormed(t: Table, R: int, n: Row, dest: Row)
    requires WellFormed(t, R)
    requires dest in t && dest.rootId == R
    requires !HasId(t, n.id) && !IsValidNode(n) && !IsRoot(n) && !IsEqualTo(n, dest)
    ensures InsertAsParentOf(t, n, dest).Ok?
    ensures WellFormed(InsertAsParentOf(t, n, dest).value, R)
    ensures Size(InsertAsParentOf(t, n, dest).value, R) == Size(t, R) + 1
    ensures OnlyTreeChanged(t, InsertAsParentOf(t, n, dest).value, R)
  {
    var s := ParentGap(t, dest);
    var x := ParentPlaced(n, dest);
    ParentInsertShape(t, n, dest);
    ParentGapRows(t, R, dest);
    ParentInsertShapeKept(t, R, dest, x);
    ParentInsertDense(t, R, dest, x);
    ParentInsertRooted(t, R, dest, x);
    forall R' | R' != R ensures Filter(s + [x], InTree(R')) == Filter(t, InTree(R')) {
      FilterMapRows(t, ParentRow(dest), InTree(R'));
      FilterAppendRejected(s, x, InTree(R'));
    }
  }

  /** After insertAsParentOf, an old row is enclosed by the rows that
      enclosed it before, plus the new parent when it lies in dest's
      subtree. */
  lemma ParentDepthOld(t: Table, R: int, dest: Row, x: Row, i: int)
    requires dest.rootId == R && dest.lft <= dest.rgt
    requires x.rootId == R && x.lft == dest.lft && x.rgt == dest.rgt + 2
    requires 0 <= i < |t| && t[i].rootId == R
    ensures Depth(MapRows(t, ParentRow(dest)) + [x], R, MapRows(t, ParentRow(dest))[i])
      == Depth(t, R, t[i]) + (if dest.lft <= t[i].lft && t[i].rgt <= dest.rgt then 1 else 0)
  {
    var s := MapRows(t, ParentRow(dest));
    var y, z := s[i], t[i];
    ParentShiftFacts(dest.lft, dest.rgt);
    CountAppend(s, x, Enclosing(R, y.lft, y.rgt));
    CountCorrespond(s, Enclosing(R, y.lft, y.rgt), t, Enclosing(R, z.lft, z.rgt));
  }

  /** The new parent is enclosed by exactly dest's old ancestors. */
  lemma ParentDepthNew(t: Table, R: int, dest: Row, x: Row)
    requires dest.rootId == R && dest.lft <= dest.rgt
    requires x.rootId == R && x.lft == dest.lft && x.rgt == dest.rgt + 2
    ensures Depth(MapRows(t, ParentRow(dest)) + [x], R, x) == Depth(t, R, dest)
  {
    var s := MapRows(t, ParentRow(dest));
    ParentShiftFacts(dest.lft, dest.rgt);
    CountAppend(s, x, Enclosing(R, x.lft, x.rgt));
    CountCorrespond(s, Enclosing(R, x.lft, x.rgt), t, Enclosing(R, dest.lft, dest.rgt));
  }

  lemma ParentRenameKeepsLevels(t: Table, R: int, dest: Row, x: Row)
    requires LevelConsistent(t, R)
    requires dest.rootId == R && dest.lft <= dest.rgt && dest.level == Depth(t, R, dest)
    requires x.rootId == R && x.lft == dest.lft && x.rgt == dest.rgt + 2 && x.level == dest.level
    ensures LevelConsistent(MapRows(t, ParentRow(dest)) + [x], R)
  {
    var s := MapRows(t, ParentRow(dest));
    var u := s + [x];
    forall y | y in u && y.rootId == R ensures y.level == Depth(u, R, y) {
      if y == x {
        ParentDepthNew(t, R, dest, x);
      } else {
        var i :| 0 <= i < |s| && s[i] == y;
        assert t[i] in t;
        assert t[i].rootId == R;
        ParentDepthOld(t, R, dest, x, i);
      }
    }
  }

  /** insertAsParentOf keeps every level equal to the depth: dest's subtree
      goes one level down and the node takes dest's old level. */
  lemma ParentInsertKeepsLevels(t: Table, R: int, n: Row, dest: Row)
    requires WellFormed(t, R) && LevelConsistent(t, R)
    requires dest in t && dest.rootId == R
    requires !HasId(t, n.id) && !IsValidNode(n) && !IsRoot(n) && !IsEqualTo(n, dest)
    ensures LevelConsistent(InsertAsParentOf(t, n, dest).value, R)
  {
    ParentInsertShape(t, n, dest);
    ParentGapRows(t, R, dest);
    ParentRenameKeepsLevels(t, R, dest, ParentPlaced(n, dest));
  }

  /** As written, the root guard of insertAsParentOf tests the node being
      inserted: a detached node whose lft is 1 is refused above a child,
      and a node is accepted above a root. The corrected guard does the
      opposite in both cases. */
  lemma ParentGuardChecksWrongNode()
    ensures InsertAsParentOf([Row(1, 1, 4, 0, 1), Row(2, 2, 3, 1, 1)], Row(3, 1, 1, 0, 1), Row(2, 2, 3, 1, 1))
      == Err(RootOperationInvalid)
    ensures InsertAsParentOfCorrected([Row(1, 1, 4, 0, 1), Row(2, 2, 3, 1, 1)], Row(3, 1, 1, 0, 1), Row(2, 2, 3, 1, 1)).Ok?
    ensures InsertAsParentOf([Row(1, 1, 4, 0, 1)], Row(3, 0, 0, 0, 1), Row(1, 1, 4, 0, 1)).Ok?
    ensures InsertAsParentOfCorrected([Row(1, 1, 4, 0, 1)], Row(3, 0, 0, 0, 1), Row(1, 1, 4, 0, 1))
      == Err(RootOperationInvalid)
  {
  }

  /** A fresh instance, `new Model()`, before its first save: no key yet
      (0), the column defaults [1, 2], and in a forest no tree (0); with a
      single tree every row belongs to tree 1. */
  function NewRecord(hasManyRoots: bool): Row {
    Row(0, 1, 2, 0, if hasManyRoots then 0 else 1)
  }

  /** `createRoot(record)`: the record (or a fresh instance) becomes [1, 2]
      at level 0 and is saved; in a forest, a record without a tree is
      made the root of the tree named by its own key. `freshId` is the key
      the store assigns on the first save of an instance without one. */
  function CreateRoot(t: Table, hasManyRoots: bool, record: Option<Row>, freshId: int): (r: (Table, Row))
    ensures r.1 in r.0
    ensures r.1.lft == 1 && r.1.rgt == 2 && r.1.level == 0
    ensures r.1.id == (if record.Some? && record.value.id != 0 then record.value.id else freshId)
    ensures r.1.rootId == (if record.Some? then record.value.rootId else NewRecord(hasManyRoots).rootId)
      || (hasManyRoots && r.1.rootId == r.1.id)
    ensures hasManyRoots && record.Some? && record.value.rootId != 0 ==> r.1.rootId == record.value.rootId
    ensures hasManyRoots && (record.None? || record.value.rootId == 0) ==> r.1.rootId == r.1.id
    ensures !hasManyRoots ==> r.1.rootId == (if record.Some? then record.value.rootId else 1)
  {
    var rec0 := if record.None? then NewRecord(hasManyRoots) else record.value;
    var rec1 := if hasManyRoots && rec0.id != 0 && rec0.rootId == 0 then rec0.(rootId := rec0.id) else rec0;
    var rec2 := rec1.(lft := 1, rgt := 2, level := 0);
    var rec3 := if rec2.id == 0 then rec2.(id := freshId) else rec2;
    var t1 := Save(t, rec3);
    if hasManyRoots && rec3.rootId == 0 then
      var rec4 := rec3.(rootId := rec3.id);
      (Save(t1, rec4), rec4)
    else
      (t1, rec3)
  }

  /** Saving twice under a key the table did not hold leaves only the
      second version, appended. */
  lemma SaveTwiceFresh(t: Table, a: Row, b: Row)
    requires !HasId(t, a.id) && b.id == a.id
    ensures Save(Save(t, a), b) == t + [b]
  {
    var t1 := Save(t, a);
    assert t1 == t + [a];
    assert HasId(t1, a.id) by {
      assert t1[|t|].id == a.id;
    }
    var u := Save(t1, b);
    forall i | 0 <= i < |t1| ensures u[i] == (t + [b])[i] {
      if i < |t| {
        assert t[i].id != a.id;
      }
    }
  }

  /** A root created under a new key, for a tree that holds no row yet,
      forms a well-formed one-row tree whose level is its depth, and no
      other tree changes. */
  lemma CreateRootWellFormed(t: Table, hasManyRoots: bool, record: Option<Row>, freshId: int)
    requires !HasId(t, CreateRoot(t, hasManyRoots, record, freshId).1.id)
    requires Size(t, CreateRoot(t, hasManyRoots, record, freshId).1.rootId) == 0
    ensures WellFormed(CreateRoot(t, hasManyRoots, record, freshId).0, CreateRoot(t, hasManyRoots, record, freshId).1.rootId)
    ensures LevelConsistent(CreateRoot(t, hasManyRoots, record, freshId).0, CreateRoot(t, hasManyRoots, record, freshId).1.rootId)
    ensures Size(CreateRoot(t, hasManyRoots, record, freshId).0, CreateRoot(t, hasManyRoots, record, freshId).1.rootId) == 1
  {
    var (u, x) := CreateRoot(t, hasManyRoots, record, freshId);
    var R := x.rootId;
    var rec0 := if record.None? then NewRecord(hasManyRoots) else record.value;
    var rec1 := if hasManyRoots && rec0.id != 0 && rec0.rootId == 0 then rec0.(rootId := rec0.id) else rec0;
    var rec2 := rec1.(lft := 1, rgt := 2, level := 0);
    var rec3 := if rec2.id == 0 then rec2.(id := freshId) else rec2;
    if hasManyRoots && rec3.rootId == 0 {
      SaveTwiceFresh(t, rec3, x);
    }
    assert u == t + [x];
    CountZero(t, InTree(R));
    forall i | 0 <= i < |t| ensures t[i].rootId != R {
    }
    CountAppend(t, x, InTree(R));
    forall k | 1 <= k <= 2 ensures Occ(u, R, k) == 1 {
      OccAppend(t, x, R, k);
      CountZero(t, LftAt(R, k));
      CountZero(t, RgtAt(R, k));
    }
    CountAppend(t, x, Enclosing(R, 1, 2));
    CountZero(t, Enclosing(R, 1, 2));
  }
}

=== FILE: levels.dfy ===
/** `generateLevel(tree)` of the helpers: recompute the level of every node
    of a listing in lft order from how each interval starts relative to the
    one before it. */
module Levels {
  import opened Rows
  import opened Forest
  import opened Predicates
  import opened Reads

  /** A node starting right after its predecessor's lft is its first child:
      one level deeper. */
  function Descend(prevLft: int, level: int, x: Row): int {
    if prevLft == x.lft - 1 then level + 1 else level
  }

  /** A gap after the predecessor's rgt means the walk climbed: `closed` levels
      up. */
  function Climb(prevRgt: int, level: int, x: Row, closed: int): int {
    if prevRgt < x.lft - 1 then level - closed else level
  }

  /** One step of the walk as written: a climb subtracts the whole
      distance lft - prevRgt, one more than the number of intervals closed
      in between. */
  function StepAsWritten(prevLft: int, prevRgt: int, level: int, x: Row): (l: int)
    // after a valid node the two branches exclude each other: one level
    // down exactly for a first child, the same level for a next sibling
    ensures prevLft < prevRgt ==> (l == level + 1 <==> prevLft == x.lft - 1)
    ensures prevLft < prevRgt && prevRgt == x.lft - 1 ==> l == level
  {
    Climb(prevRgt, Descend(prevLft, level, x), x, x.lft - prevRgt)
  }

  /** One step of the walk corrected: a climb subtracts the number of
      intervals closed between the two nodes, lft - prevRgt - 1. */
  function StepCorrected(prevLft: int, prevRgt: int, level: int, x: Row): int {
    Climb(prevRgt, Descend(prevLft, level, x), x, x.lft - prevRgt - 1)
  }

  function Step(prevLft: int, prevRgt: int, level: int, x: Row, corrected: bool): int {
    if corrected then StepCorrected(prevLft, prevRgt, level, x) else StepAsWritten(prevLft, prevRgt, level, x)
  }

  /** The forEach of generateLevel from a given walk state: every node gets
      the level of its step and keeps every other field. */
  function Walk(tree: seq<Row>, prevLft: int, prevRgt: int, level: int, corrected: bool): (r: seq<Row>)
    ensures |r| == |tree|
    ensures forall i :: 0 <= i < |tree| ==> r[i] == tree[i].(level := r[i].level)
    ensures |tree| > 0 ==> r[0].level == Step(prevLft, prevRgt, level, tree[0], corrected)
    decreases |tree|
  {
    if |tree| == 0 then []
    else
      [tree[0].(level := Step(prevLft, prevRgt, level, tree[0], corrected))]
      + Walk(tree[1..], tree[0].lft, tree[0].rgt, Step(prevLft, prevRgt, level, tree[0], corrected), corrected)
  }

  /** `generateLevel(tree)` as written, starting from lft 0, rgt 0, level
      -1: same nodes in the same order, a node with lft 1 first at level 0. */
  function GenerateLevelAsWritten(tree: seq<Row>): (r: seq<Row>)
    ensures |r| == |tree|
    ensures forall i :: 0 <= i < |tree| ==> r[i] == tree[i].(level := r[i].level)
    ensures |tree| > 0 && tree[0].lft == 1 ==> r[0].level == 0
  {
    Walk(tree, 0, 0, -1, false)
  }

  /** `generateLevel(tree)` with the climb corrected. */
  function GenerateLevel(tree: seq<Row>): (r: seq<Row>)
    ensures |r| == |tree|
    ensures forall i :: 0 <= i < |tree| ==> r[i] == tree[i].(level := r[i].level)
    ensures |tree| > 0 && tree[0].lft == 1 ==> r[0].level == 0
  {
    Walk(tree, 0, 0, -1, true)
  }

  /** The tree R [1, 10] with children A [2, 5] and B [6, 9], A holding
      C [3, 4]: as written B, a sibling of A, comes out at level 0, beside
      the root; corrected it is at level 1, as A is. */
  lemma GenerateLevelCounterexample()
    ensures
      var tree := [Row(1, 1, 10, 0, 1), Row(2, 2, 5, 1, 1), Row(3, 3, 4, 2, 1), Row(4, 6, 9, 1, 1)];
      && GenerateLevelAsWritten(tree)[1].level == 1 && GenerateLevelAsWritten(tree)[3].level == 0
      && GenerateLevel(tree)[1].level == 1 && GenerateLevel(tree)[3].level == 1
  {
    var tree := [Row(1, 1, 10, 0, 1), Row(2, 2, 5, 1, 1), Row(3, 3, 4, 2, 1), Row(4, 6, 9, 1, 1)];
    WalkRecurrence(tree, 0, 0, -1, false, 0);
    WalkRecurrence(tree, 0, 0, -1, false, 1);
    WalkRecurrence(tree, 0, 0, -1, false, 2);
    WalkRecurrence(tree, 0, 0, -1, true, 0);
    WalkRecurrence(tree, 0, 0, -1, true, 1);
    WalkRecurrence(tree, 0, 0, -1, true, 2);
  }

  // Why the corrected walk computes depths

  /** c follows p in a lft-ordered listing of tree R: no row of the tree
      starts in between. */
  predicate Adjacent(t: Table, R: int, p: Row, c: Row) {
    p.lft <= c.lft && forall x :: x in t && x.rootId == R ==> !(p.lft < x.lft < c.lft)
  }

  /** Two adjacent rows with the same lft are the same row. */
  lemma SameStartStep(t: Table, R: int, p: Row, c: Row)
    requires WellFormed(t, R)
    requires p in t && p.rootId == R && c in t && c.rootId == R
    requires c.lft == p.lft
    ensures Depth(t, R, c) == StepCorrected(p.lft, p.rgt, Depth(t, R, p), c)
  {
    assert c != p ==> NestedOrDisjoint(c, p);
  }

  /** A row starting right after p's lft is a child of p, one deeper. */
  lemma FirstChildStep(t: Table, R: int, p: Row, c: Row)
    requires WellFormed(t, R)
    requires p in t && p.rootId == R && c in t && c.rootId == R
    requires c.lft == p.lft + 1
    ensures Depth(t, R, c) == StepCorrected(p.lft, p.rgt, Depth(t, R, p), c)
  {
    var ci :| 0 <= ci < |t| && t[ci] == c;
    var pi :| 0 <= pi < |t| && t[pi] == p;
    assert Occ(t, R, c.lft) == 1;
    CountZero(t, LftAt(R, c.lft));
    CountZero(t, RgtAt(R, c.lft));
    assert p.rgt != c.lft;
    assert NestedOrDisjoint(c, p);
    forall q | q in t && Enclosing(R, c.lft, c.rgt)(q) ensures p.rgt <= q.rgt {
      assert q != p ==> NestedOrDisjoint(q, p);
    }
    TightestEncloser(t, R, c, p);
  }

  /** A row starting further on than p.lft + 1 means p is a leaf: the
      position after p.lft is no lft, so it is a rgt, and only p's own
      fits. */
  lemma ClimbLeavesLeaf(t: Table, R: int, p: Row, c: Row)
    requires WellFormed(t, R)
    requires p in t && p.rootId == R && c in t && c.rootId == R
    requires Adjacent(t, R, p, c) && c.lft > p.lft + 1
    ensures p.rgt == p.lft + 1
  {
    var k := p.lft + 1;
    assert Occ(t, R, k) == 1;
    forall i | 0 <= i < |t| ensures !LftAt(R, k)(t[i]) {
      assert t[i] in t;
    }
    CountZero(t, LftAt(R, k));
    CountZero(t, RgtAt(R, k));
    var qi :| 0 <= qi < |t| && RgtAt(R, k)(t[qi]);
    var q := t[qi];
    assert q in t;
    assert q != p ==> NestedOrDisjoint(q, p);
  }

  /** After a leaf p, the ancestors of p are those of the next row c and
      the rows whose rgt lies between the two. */
  lemma ClimbAncestors(t: Table, R: int, p: Row, c: Row)
    requires WellFormed(t, R)
    requires p in t && p.rootId == R && c in t && c.rootId == R
    requires Adjacent(t, R, p, c) && p.rgt < c.lft
    ensures Depth(t, R, p) == Depth(t, R, c) + CountWhere(t, RgtIn(R, p.rgt + 1, c.lft))
  {
    var between := RgtIn(R, p.rgt + 1, c.lft);
    forall i | 0 <= i < |t|
      ensures Enclosing(R, p.lft, p.rgt)(t[i]) == (Enclosing(R, c.lft, c.rgt)(t[i]) || between(t[i]))
    {
      assert t[i] in t;
      assert t[i] != p && t[i].rootId == R ==> NestedOrDisjoint(t[i], p);
      assert t[i] != c && t[i].rootId == R ==> NestedOrDisjoint(t[i], c);
    }
    CountSplit(t, Enclosing(R, p.lft, p.rgt), Enclosing(R, c.lft, c.rgt), between);
  }

  /** Every position between a leaf p and the next row c is a rgt. */
  lemma ClimbGap(t: Table, R: int, p: Row, c: Row)
    requires WellFormed(t, R)
    requires p in t && p.rootId == R && c in t && c.rootId == R
    requires Adjacent(t, R, p, c) && p.lft < p.rgt < c.lft
    ensures CountWhere(t, RgtIn(R, p.rgt + 1, c.lft)) == c.lft - p.rgt - 1
  {
    forall i | 0 <= i < |t| ensures !LftIn(R, p.rgt + 1, c.lft)(t[i]) {
      assert t[i] in t;
    }
    DenseEndpoints(t, R, p.rgt + 1, c.lft);
    CountZero(t, LftIn(R, p.rgt + 1, c.lft));
  }

  /** A row starting further on closes p, a leaf, and c.lft - p.rgt - 1 of
      its ancestors. */
  lemma ClimbStep(t: Table, R: int, p: Row, c: Row)
    requires WellFormed(t, R)
    requires p in t && p.rootId == R && c in t && c.rootId == R
    requires Adjacent(t, R, p, c) && c.lft > p.lft + 1
    ensures Depth(t, R, c) == StepCorrected(p.lft, p.rgt, Depth(t, R, p), c)
  {
    ClimbLeavesLeaf(t, R, p, c);
    ClimbAncestors(t, R, p, c);
    ClimbGap(t, R, p, c);
  }

  /** Each step of the corrected walk turns the depth of a row into the
      depth of the next. */
  lemma LevelStep(t: Table, R: int, p: Row, c: Row)
    requires WellFormed(t, R)
    requires p in t && p.rootId == R && c in t && c.rootId == R
    requires Adjacent(t, R, p, c)
    ensures Depth(t, R, c) == StepCorrected(p.lft, p.rgt, Depth(t, R, p), c)
  {
    if c.lft == p.lft {
      SameStartStep(t, R, p, c);
    } else if c.lft == p.lft + 1 {
      FirstChildStep(t, R, p, c);
    } else {
      ClimbStep(t, R, p, c);
    }
  }

  /** The walk's recurrence: each node's level is the step from the level
      of the node before it. */
  lemma {:induction false} WalkRecurrence(s: seq<Row>, prevLft: int, prevRgt: int, level: int, corrected: bool, i: nat)
    requires i + 1 < |s|
    ensures Walk(s, prevLft, prevRgt, level, corrected)[i + 1].level
         == Step(s[i].lft, s[i].rgt, Walk(s, prevLft, prevRgt, level, corrected)[i].level, s[i + 1], corrected)
    decreases i
  {
    var w := Walk(s, prevLft, prevRgt, level, corrected);
    var l0 := Step(prevLft, prevRgt, level, s[0], corrected);
    var rest := Walk(s[1..], s[0].lft, s[0].rgt, l0, corrected);
    assert w == [s[0].(level := l0)] + rest;
    if i > 0 {
      WalkRecurrence(s[1..], s[0].lft, s[0].rgt, l0, corrected, i - 1);
      assert w[i] == rest[i - 1] && w[i + 1] == rest[i];
    }
  }

  /** A lft-ordered listing of tree R that holds every row of the tree
      lists each row right after the one before it. */
  lemma ListingAdjacent(t: Table, R: int, s: seq<Row>, i: nat)
    requires SortedByLft(s)
    requires forall x :: x in t && x.rootId == R ==> x in s
    requires 0 < i < |s|
    ensures Adjacent(t, R, s[i - 1], s[i])
  {
    forall x | x in t && x.rootId == R ensures !(s[i - 1].lft < x.lft < s[i].lft) {
      var j :| 0 <= j < |s| && s[j] == x;
      assert j <= i - 1 || i <= j;
    }
  }

  /** The corrected walk over a listing of tree R that starts at the root
      and lists each row right after the one before it gives the i-th row
      its depth. */
  lemma {:induction false} GenerateLevelDepthAt(t: Table, R: int, s: seq<Row>, i: nat)
    requires WellFormed(t, R)
    requires forall j :: 0 <= j < |s| ==> s[j] in t && s[j].rootId == R
    requires |s| > 0 && s[0].lft == 1
    requires forall j :: 0 < j < |s| ==> Adjacent(t, R, s[j - 1], s[j])
    requires i < |s|
    ensures GenerateLevel(s)[i].level == Depth(t, R, s[i])
    decreases i
  {
    if i == 0 {
      RootHasDepthZero(t, R, s[0]);
    } else {
      GenerateLevelDepthAt(t, R, s, i - 1);
      WalkRecurrence(s, 0, 0, -1, true, i - 1);
      LevelStep(t, R, s[i - 1], s[i]);
    }
  }

  /** The corrected generateLevel over fetchTree's listing of a well-formed
      tree sets every node's level to its depth, the number of rows
      enclosing it, and changes nothing else. */
  lemma GenerateLevelGivesDepth(t: Table, R: int)
    requires WellFormed(t, R)
    ensures forall i :: 0 <= i < |FetchTree(t, 0, R)| ==>
      GenerateLevel(FetchTree(t, 0, R))[i] == FetchTree(t, 0, R)[i].(level := Depth(t, R, FetchTree(t, 0, R)[i]))
  {
    var s := FetchTree(t, 0, R);
    FetchTreeWholeTree(t, 0, R);
    forall j | 0 <= j < |s| ensures s[j] in t && s[j].rootId == R {
      assert s[j] in s;
    }
    forall j | 0 < j < |s| ensures Adjacent(t, R, s[j - 1], s[j]) {
      ListingAdjacent(t, R, s, j);
    }
    forall i | 0 <= i < |s| ensures GenerateLevel(s)[i].level == Depth(t, R, s[i]) {
      GenerateLevelDepthAt(t, R, s, i);
    }
  }

  /** Without climbs (every node starting at most one past the rgt before
      it) the walk as written and the corrected walk agree. */
  lemma {:induction false} AsWrittenAgreesWithoutClimb(s: seq<Row>, i: nat)
    requires |s| > 0 && s[0].lft == 1
    requires forall j :: 0 < j < |s| ==> s[j].lft <= s[j - 1].rgt + 1
    requires i < |s|
    ensures GenerateLevelAsWritten(s)[i] == GenerateLevel(s)[i]
    decreases i
  {
    if i > 0 {
      AsWrittenAgreesWithoutClimb(s, i - 1);
      WalkRecurrence(s, 0, 0, -1, false, i - 1);
      WalkRecurrence(s, 0, 0, -1, true, i - 1);
    }
  }

  /** Hence generateLevel as written gives every node its depth on
      fetchTree's listing of a well-formed tree without climbs. */
  lemma AsWrittenGivesDepthWithoutClimb(t: Table, R: int)
    requires WellFormed(t, R)
    requires forall j :: 0 < j < |FetchTree(t, 0, R)| ==> FetchTree(t, 0, R)[j].lft <= FetchTree(t, 0, R)[j - 1].rgt + 1
    ensures forall i :: 0 <= i < |FetchTree(t, 0, R)| ==>
      GenerateLevelAsWritten(FetchTree(t, 0, R))[i].level == Depth(t, R, FetchTree(t, 0, R)[i])
  {
    var s := FetchTree(t, 0, R);
    GenerateLevelGivesDepth(t, R);
    FetchTreeWholeTree(t, 0, R);
    forall i | 0 <= i < |s| ensures GenerateLevelAsWritten(s)[i].level == Depth(t, R, s[i]) {
      AsWrittenAgreesWithoutClimb(s, i);
    }
  }
}


=== FILE: moves.dfy ===
/** Relocating a subtree inside its own tree: `updateNode` and the four
    `moveAs*` operations built on it. `updateNode(destLeft, levelDiff)` opens
    a gap of the subtree's width at destLeft, adjusts the levels strictly
    inside the subtree, slides the subtree into the gap and closes the hole
    it left. */
module Moves {
  import opened Rows
  import opened Forest
  import opened Relabel
  import opened Shift
  import opened Predicates
  import opened Transfer

  /** `increment('level', {by: d, where: {lft > a, rgt < b, rootId: R}})`,
      one row. */
  function IncLevelRow(a: int, b: int, d: int, R: int, x: Row): Row {
    if x.rootId == R && x.lft > a && x.rgt < b then x.(level := x.level + d) else x
  }

  function IncLevelFn(a: int, b: int, d: int, R: int): Row -> Row {
    (x: Row) => IncLevelRow(a, b, d, R, x)
  }

  /** The closing `save()` of updateNode, one row. Only the level of the
      in-memory node differs from what was loaded, so only the level is
      written; the interval of the stored row is the one the bulk shifts
      produced. */
  function SaveLevelRow(n: Row, x: Row): Row {
    if x.id == n.id then x.(level := n.level) else x
  }

  function SaveLevelFn(n: Row): Row -> Row {
    (x: Row) => SaveLevelRow(n, x)
  }

  /** `updateNode(destLeft, levelDiff)` on the in-memory node n, whose level
      the caller has already set to the new one. Each bulk update is the
      row map that `ShiftRlValues`, `ShiftRlRange` and `increment('level')`
      apply (`ShiftBy` states the equivalence for the shifts). */
  function UpdateNode(t: Table, n: Row, destLeft: int, levelDiff: int): Table {
    var left, right, R := n.lft, n.rgt, n.rootId;
    var w := right - left + 1;
    var t1 := MapRows(t, ShiftRow(AtLeast(destLeft), w, R));
    var l2 := if left >= destLeft then left + w else left;
    var r2 := if left >= destLeft then right + w else right;
    var t2 := MapRows(t1, IncLevelFn(l2, r2, levelDiff, R));
    var t3 := MapRows(t2, ShiftRow(Between(l2, r2), destLeft - l2, R));
    var t4 := MapRows(t3, ShiftRow(AtLeast(r2 + 1), -w, R));
    MapRows(t4, SaveLevelFn(n))
  }

  /** Where the subtree's lft lands: at destLeft when the gap opens before
      the subtree, at destLeft minus its width when it opens after it. */
  function BlockTarget(left: int, right: int, destLeft: int): int {
    if destLeft <= left then destLeft else destLeft - (right - left + 1)
  }

  /** The net effect of updateNode's three shifts on one value of the tree,
      for destLeft outside (left, right]: the block [left, right] is
      translated to start at its target, and the values it jumps over close
      up behind it. */
  function BlockMove(left: int, right: int, destLeft: int, v: int): int {
    var w := right - left + 1;
    if left <= v <= right then v - left + BlockTarget(left, right, destLeft)
    else if destLeft <= left && destLeft <= v < left then v + w
    else if right < destLeft && right < v < destLeft then v - w
    else v
  }

  /** The inverse of BlockMove. */
  function BlockMoveBack(left: int, right: int, destLeft: int, k: int): int {
    var w := right - left + 1;
    var target := BlockTarget(left, right, destLeft);
    if target <= k < target + w then k - target + left
    else if destLeft <= left && destLeft + w <= k <= right then k - w
    else if right < destLeft && left <= k < destLeft - w then k + w
    else k
  }

  /** updateNode's effect on one row, in closed form. */
  function UpdateRowOf(n: Row, destLeft: int, levelDiff: int, z: Row): Row {
    var y :=
      if z.rootId == n.rootId then
        z.(lft := BlockMove(n.lft, n.rgt, destLeft, z.lft),
           rgt := BlockMove(n.lft, n.rgt, destLeft, z.rgt),
           level := if n.lft < z.lft && z.rgt < n.rgt then z.level + levelDiff else z.level)
      else z;
    if z.id == n.id then y.(level := n.level) else y
  }

  function UpdateRowFn(n: Row, destLeft: int, levelDiff: int): Row -> Row {
    (z: Row) => UpdateRowOf(n, destLeft, levelDiff, z)
  }

  /** One value through the three shifts of updateNode. */
  lemma ValueTrace(left: int, right: int, destLeft: int, v: int)
    requires left <= right
    requires !(left < destLeft <= right)
    ensures var w := right - left + 1;
            var l2 := if left >= destLeft then left + w else left;
            var r2 := if left >= destLeft then right + w else right;
            var v1 := if v >= destLeft then v + w else v;
            var v3 := if l2 <= v1 <= r2 then v1 + (destLeft - l2) else v1;
            (if v3 >= r2 + 1 then v3 - w else v3) == BlockMove(left, right, destLeft, v)
  {
  }

  /** The level update of step two, which selects by the shifted values,
      picks exactly the rows strictly inside the original subtree. */
  lemma LevelTrace(left: int, right: int, destLeft: int, a: int, b: int)
    requires left <= right
    requires !(left < destLeft <= right)
    ensures var w := right - left + 1;
            var l2 := if left >= destLeft then left + w else left;
            var r2 := if left >= destLeft then right + w else right;
            var a1 := if a >= destLeft then a + w else a;
            var b1 := if b >= destLeft then b + w else b;
            (a1 > l2 && b1 < r2) == (left < a && b < right)
  {
  }

  /** One row of the tree through the five writes of updateNode, on plain
      values. */
  lemma RowTracePlain(n: Row, destLeft: int, levelDiff: int, w: int, l2: int, r2: int, z: Row)
    requires n.lft <= n.rgt
    requires !(n.lft < destLeft <= n.rgt)
    requires w == n.rgt - n.lft + 1
    requires l2 == (if n.lft >= destLeft then n.lft + w else n.lft)
    requires r2 == (if n.lft >= destLeft then n.rgt + w else n.rgt)
    requires z.rootId == n.rootId
    ensures var z1 := z.(lft := if z.lft >= destLeft then z.lft + w else z.lft,
                         rgt := if z.rgt >= destLeft then z.rgt + w else z.rgt);
            var z2 := IncLevelRow(l2, r2, levelDiff, n.rootId, z1);
            var z3 := z2.(lft := if l2 <= z2.lft <= r2 then z2.lft + (destLeft - l2) else z2.lft,
                          rgt := if l2 <= z2.rgt <= r2 then z2.rgt + (destLeft - l2) else z2.rgt);
            var z4 := z3.(lft := if z3.lft >= r2 + 1 then z3.lft - w else z3.lft,
                          rgt := if z3.rgt >= r2 + 1 then z3.rgt - w else z3.rgt);
            SaveLevelRow(n, z4) == UpdateRowOf(n, destLeft, levelDiff, z)
  {
    ValueTrace(n.lft, n.rgt, destLeft, z.lft);
    ValueTrace(n.lft, n.rgt, destLeft, z.rgt);
    LevelTrace(n.lft, n.rgt, destLeft, z.lft, z.rgt);
  }

  /** One row through the five writes of updateNode. */
  lemma RowTrace(n: Row, destLeft: int, levelDiff: int, w: int, l2: int, r2: int, z: Row)
    requires n.lft <= n.rgt
    requires !(n.lft < destLeft <= n.rgt)
    requires w == n.rgt - n.lft + 1
    requires l2 == (if n.lft >= destLeft then n.lft + w else n.lft)
    requires r2 == (if n.lft >= destLeft then n.rgt + w else n.rgt)
    ensures var R := n.rootId;
            var z1 := ShiftRow(AtLeast(destLeft), w, R)(z);
            var z2 := IncLevelRow(l2, r2, levelDiff, R, z1);
            var z3 := ShiftRow(Between(l2, r2), destLeft - l2, R)(z2);
            var z4 := ShiftRow(AtLeast(r2 + 1), -w, R)(z3);
            SaveLevelRow(n, z4) == UpdateRowOf(n, destLeft, levelDiff, z)
  {
    var R := n.rootId;
    var z1 := ShiftRow(AtLeast(destLeft), w, R)(z);
    var z2 := IncLevelRow(l2, r2, levelDiff, R, z1);
    var z3 := ShiftRow(Between(l2, r2), destLeft - l2, R)(z2);
    AtLeastShiftRow(destLeft, w, R, z);
    BetweenShiftRow(l2, r2, destLeft - l2, R, z2);
    AtLeastShiftRow(r2 + 1, -w, R, z3);
    if z.rootId == R {
      RowTracePlain(n, destLeft, levelDiff, w, l2, r2, z);
    }
  }

  /** The five row maps of updateNode, composed. */
  lemma ComposeUpdate(t: Table, t1: Table, t2: Table, t3: Table, t4: Table, r: Table,
                      n: Row, destLeft: int, levelDiff: int, w: int, l2: int, r2: int)
    requires n.lft <= n.rgt
    requires !(n.lft < destLeft <= n.rgt)
    requires w == n.rgt - n.lft + 1
    requires l2 == (if n.lft >= destLeft then n.lft + w else n.lft)
    requires r2 == (if n.lft >= destLeft then n.rgt + w else n.rgt)
    requires t1 == MapRows(t, ShiftRow(AtLeast(destLeft), w, n.rootId))
    requires t2 == MapRows(t1, IncLevelFn(l2, r2, levelDiff, n.rootId))
    requires t3 == MapRows(t2, ShiftRow(Between(l2, r2), destLeft - l2, n.rootId))
    requires t4 == MapRows(t3, ShiftRow(AtLeast(r2 + 1), -w, n.rootId))
    requires r == MapRows(t4, SaveLevelFn(n))
    ensures r == MapRows(t, UpdateRowFn(n, destLeft, levelDiff))
  {
    var R := n.rootId;
    var m := MapRows(t, UpdateRowFn(n, destLeft, levelDiff));
    forall i | 0 <= i < |t| ensures r[i] == m[i] {
      assert t1[i] == ShiftRow(AtLeast(destLeft), w, R)(t[i]);
      assert t2[i] == IncLevelRow(l2, r2, levelDiff, R, t1[i]);
      assert t3[i] == ShiftRow(Between(l2, r2), destLeft - l2, R)(t2[i]);
      assert t4[i] == ShiftRow(AtLeast(r2 + 1), -w, R)(t3[i]);
      assert r[i] == SaveLevelRow(n, t4[i]);
      RowTrace(n, destLeft, levelDiff, w, l2, r2, t[i]);
    }
  }

  /** For a target outside the subtree, the four bulk updates and the save
      of updateNode amount to one renaming of the tree's values by
      BlockMove, plus the level changes: levelDiff for the rows strictly
      inside the subtree and the new level for the node itself. */
  lemma UpdateNodeClosedForm(t: Table, n: Row, destLeft: int, levelDiff: int)
    requires n.lft <= n.rgt
    requires !(n.lft < destLeft <= n.rgt)
    ensures UpdateNode(t, n, destLeft, levelDiff) == MapRows(t, UpdateRowFn(n, destLeft, levelDiff))
  {
    var left, right, R := n.lft, n.rgt, n.rootId;
    var w := right - left + 1;
    var l2 := if left >= destLeft then left + w else left;
    var r2 := if left >= destLeft then right + w else right;
    var t1 := MapRows(t, ShiftRow(AtLeast(destLeft), w, R));
    var t2 := MapRows(t1, IncLevelFn(l2, r2, levelDiff, R));
    var t3 := MapRows(t2, ShiftRow(Between(l2, r2), destLeft - l2, R));
    var t4 := MapRows(t3, ShiftRow(AtLeast(r2 + 1), -w, R));
    ComposeUpdate(t, t1, t2, t3, t4, MapRows(t4, SaveLevelFn(n)), n, destLeft, levelDiff, w, l2, r2);
  }

  /** The closed form, one row at a time. */
  lemma UpdateNodeRowAt(t: Table, n: Row, destLeft: int, levelDiff: int, i: int)
    requires n.lft <= n.rgt
    requires !(n.lft < destLeft <= n.rgt)
    requires 0 <= i < |t|
    ensures UpdateNode(t, n, destLeft, levelDiff)[i] == UpdateRowOf(n, destLeft, levelDiff, t[i])
  {
    UpdateNodeClosedForm(t, n, destLeft, levelDiff);
  }

  /** Where the within-tree move puts the node's own row, for every
      target outside the subtree. */
  lemma NodeRowAt(t: Table, n: Row, i: int)
    requires n.lft <= n.rgt
    requires 0 <= i < |t| && t[i] == n
    ensures forall newLevel, destLeft :: !(n.lft < destLeft <= n.rgt) ==>
              var u := MoveWithin(t, n, newLevel, destLeft);
              && u[i].lft == BlockTarget(n.lft, n.rgt, destLeft)
              && u[i].rgt == BlockTarget(n.lft, n.rgt, destLeft) + (n.rgt - n.lft)
              && u[i].level == newLevel
  {
    forall newLevel, destLeft | !(n.lft < destLeft <= n.rgt)
      ensures var u := MoveWithin(t, n, newLevel, destLeft);
              && u[i].lft == BlockTarget(n.lft, n.rgt, destLeft)
              && u[i].rgt == BlockTarget(n.lft, n.rgt, destLeft) + (n.rgt - n.lft)
              && u[i].level == newLevel
    {
      UpdateNodeRowAt(t, n.(level := newLevel), destLeft, newLevel - n.level, i);
    }
  }

  /** Where the within-tree move puts the values of another row of the
      tree, for every target outside the subtree. */
  lemma OtherRowAt(t: Table, n: Row, j: int)
    requires n.lft <= n.rgt
    requires 0 <= j < |t| && t[j].rootId == n.rootId
    ensures forall newLevel, destLeft :: !(n.lft < destLeft <= n.rgt) ==>
              var u := MoveWithin(t, n, newLevel, destLeft);
              && u[j].lft == BlockMove(n.lft, n.rgt, destLeft, t[j].lft)
              && u[j].rgt == BlockMove(n.lft, n.rgt, destLeft, t[j].rgt)
  {
    forall newLevel, destLeft | !(n.lft < destLeft <= n.rgt)
      ensures var u := MoveWithin(t, n, newLevel, destLeft);
              && u[j].lft == BlockMove(n.lft, n.rgt, destLeft, t[j].lft)
              && u[j].rgt == BlockMove(n.lft, n.rgt, destLeft, t[j].rgt)
    {
      UpdateNodeRowAt(t, n.(level := newLevel), destLeft, newLevel - n.level, j);
    }
  }

  /** Where the four anchors of a destination [c, d] outside the block
      [a, b] end up, relative to the moved block. */
  lemma AnchorValues(a: int, b: int, c: int, d: int)
    requires a < b && c < d
    requires d < a || b < c || (c < a && b < d)
    ensures BlockTarget(a, b, c) + (b - a) + 1 == BlockMove(a, b, c, c)
    ensures BlockMove(a, b, d + 1, d) + 1 == BlockTarget(a, b, d + 1)
    ensures BlockMove(a, b, c + 1, c) + 1 == BlockTarget(a, b, c + 1)
    ensures BlockTarget(a, b, d) + (b - a) + 1 == BlockMove(a, b, d, d)
  {
  }

  /** BlockMove translates the block, keeps the order of the values outside
      it, keeps those values out of the translated block, and is undone by
      BlockMoveBack. */
  lemma BlockMoveFacts(left: int, right: int, destLeft: int)
    requires left <= right
    requires !(left < destLeft <= right)
    ensures forall v :: left <= v <= right ==>
      BlockMove(left, right, destLeft, v) == v + (BlockTarget(left, right, destLeft) - left)
    ensures forall u, v :: u < v && !(left <= u <= right) && !(left <= v <= right) ==>
      BlockMove(left, right, destLeft, u) < BlockMove(left, right, destLeft, v)
    ensures forall v :: !(left <= v <= right) ==>
      var k := BlockMove(left, right, destLeft, v);
      !(BlockTarget(left, right, destLeft) <= k <= BlockTarget(left, right, destLeft) + (right - left))
    ensures forall k :: BlockMove(left, right, destLeft, BlockMoveBack(left, right, destLeft, k)) == k
    ensures forall u, v :: BlockMove(left, right, destLeft, u) == BlockMove(left, right, destLeft, v) ==> u == v
  {
  }

  /** With every value of the tree in 1..2n and the target gap inside
      1..2n+1, BlockMove and its inverse keep 1..2n in place. */
  lemma BlockMoveRange(left: int, right: int, destLeft: int, top: int)
    requires 1 <= left <= right <= top
    requires !(left < destLeft <= right)
    requires 1 <= destLeft <= top + 1
    ensures forall v :: 1 <= v <= top ==> 1 <= BlockMove(left, right, destLeft, v) <= top
    ensures forall k :: 1 <= k <= top ==> 1 <= BlockMoveBack(left, right, destLeft, k) <= top
  {
  }

  /** In a laminar tree a row's interval is a closed block: every other
      row has both endpoints in it or neither. */
  lemma SubtreeIsClosed(t: Table, n: Row)
    requires PositiveWidth(t, n.rootId) && Laminar(t, n.rootId)
    requires n in t
    ensures forall x :: x in t && x.rootId == n.rootId ==> (n.lft <= x.lft <= n.rgt <==> n.lft <= x.rgt <= n.rgt)
  {
    forall x | x in t && x.rootId == n.rootId ensures (n.lft <= x.lft <= n.rgt <==> n.lft <= x.rgt <= n.rgt) {
      if x != n {
        assert NestedOrDisjoint(x, n);
      }
    }
  }

  /** The renaming of updateNode's closed form keeps the shape. */
  lemma UpdateRowsShape(t: Table, n: Row, m: Row, destLeft: int, levelDiff: int)
    requires PositiveWidth(t, n.rootId) && Laminar(t, n.rootId)
    requires n in t
    requires m.lft == n.lft && m.rgt == n.rgt && m.rootId == n.rootId
    requires !(n.lft < destLeft <= n.rgt)
    ensures var u := MapRows(t, UpdateRowFn(m, destLeft, levelDiff));
            PositiveWidth(u, n.rootId) && Laminar(u, n.rootId)
  {
    var R, left, right := n.rootId, n.lft, n.rgt;
    var f := UpdateRowFn(m, destLeft, levelDiff);
    var h := (v: int) => BlockMove(left, right, destLeft, v);
    assert RelabelsOn(t, f, R, h);
    BlockMoveFacts(left, right, destLeft);
    SubtreeIsClosed(t, n);
    BlockMoveShape(t, f, R, h, left, right, BlockTarget(left, right, destLeft) - left);
  }

  /** The renaming of updateNode's closed form keeps the tree dense. */
  lemma UpdateRowsDense(t: Table, n: Row, m: Row, destLeft: int, levelDiff: int)
    requires Dense(t, n.rootId)
    requires n in t && n.lft < n.rgt
    requires m.lft == n.lft && m.rgt == n.rgt && m.rootId == n.rootId
    requires !(n.lft < destLeft <= n.rgt)
    requires 1 <= destLeft <= 2 * Size(t, n.rootId) + 1
    ensures var u := MapRows(t, UpdateRowFn(m, destLeft, levelDiff));
            Dense(u, n.rootId) && Size(u, n.rootId) == Size(t, n.rootId)
  {
    var R, left, right := n.rootId, n.lft, n.rgt;
    var f := UpdateRowFn(m, destLeft, levelDiff);
    var h := (v: int) => BlockMove(left, right, destLeft, v);
    var g := (k: int) => BlockMoveBack(left, right, destLeft, k);
    assert RelabelsOn(t, f, R, h);
    BlockMoveFacts(left, right, destLeft);
    assert Injective(h);
    BlockMoveRange(left, right, destLeft, 2 * Size(t, R));
    DenseRelabel(t, f, R, h, g);
    SizeRelabel(t, f, R, h);
  }

  /** The root row [1, 2n] stays in place when the target is inside it. */
  lemma UpdateRowsRooted(t: Table, n: Row, m: Row, destLeft: int, levelDiff: int)
    requires WellFormed(t, n.rootId)
    requires n in t
    requires m.lft == n.lft && m.rgt == n.rgt && m.rootId == n.rootId
    requires !(n.lft < destLeft <= n.rgt)
    requires 2 <= destLeft <= 2 * Size(t, n.rootId)
    ensures var u := MapRows(t, UpdateRowFn(m, destLeft, levelDiff));
            exists r :: r in u && r.rootId == n.rootId && r.lft == 1 && r.rgt == 2 * Size(t, n.rootId)
  {
    var R := n.rootId;
    var f := UpdateRowFn(m, destLeft, levelDiff);
    var u := MapRows(t, f);
    var root :| root in t && root.rootId == R && root.lft == 1 && root.rgt == 2 * Size(t, R);
    RootEnclosesAll(t, R, root, n);
    assert f(root).lft == 1 && f(root).rgt == 2 * Size(t, R);
    assert f(root) in u;
  }

  /** updateNode with a target outside the moved subtree, inside the tree
      and not at the root's own ends, keeps the nested-set invariant. */
  lemma UpdateNodeKeepsWellFormed(t: Table, n: Row, newLevel: int, destLeft: int)
    requires WellFormed(t, n.rootId)
    requires n in t
    requires !(n.lft < destLeft <= n.rgt)
    requires 2 <= destLeft <= 2 * Size(t, n.rootId)
    ensures forall levelDiff :: WellFormed(UpdateNode(t, n.(level := newLevel), destLeft, levelDiff), n.rootId)
  {
    forall levelDiff ensures WellFormed(UpdateNode(t, n.(level := newLevel), destLeft, levelDiff), n.rootId) {
      UpdateNodeKeepsWellFormedAt(t, n, newLevel, destLeft, levelDiff);
    }
  }

  lemma UpdateNodeKeepsWellFormedAt(t: Table, n: Row, newLevel: int, destLeft: int, levelDiff: int)
    requires WellFormed(t, n.rootId)
    requires n in t
    requires !(n.lft < destLeft <= n.rgt)
    requires 2 <= destLeft <= 2 * Size(t, n.rootId)
    ensures WellFormed(UpdateNode(t, n.(level := newLevel), destLeft, levelDiff), n.rootId)
  {
    var R := n.rootId;
    var m := n.(level := newLevel);
    UpdateNodeClosedForm(t, m, destLeft, levelDiff);
    UpdateRowsShape(t, n, m, destLeft, levelDiff);
    UpdateRowsDense(t, n, m, destLeft, levelDiff);
    UpdateRowsRooted(t, n, m, destLeft, levelDiff);
  }

  /** updateNode lands the subtree at its target with every offset from
      the node's lft unchanged; the rows strictly inside change level by
      levelDiff, the node takes its new level, and no other level changes. */
  lemma UpdateNodeMovesBlock(t: Table, n: Row, destLeft: int, levelDiff: int)
    requires n.lft <= n.rgt
    requires PositiveWidth(t, n.rootId)
    requires !(n.lft < destLeft <= n.rgt)
    ensures var r := UpdateNode(t, n, destLeft, levelDiff);
            forall i :: 0 <= i < |t| && t[i].rootId == n.rootId && n.lft <= t[i].lft && t[i].rgt <= n.rgt ==>
              && r[i].lft - BlockTarget(n.lft, n.rgt, destLeft) == t[i].lft - n.lft
              && r[i].rgt - BlockTarget(n.lft, n.rgt, destLeft) == t[i].rgt - n.lft
    ensures var r := UpdateNode(t, n, destLeft, levelDiff);
            forall i :: 0 <= i < |t| ==>
              r[i].level == (if t[i].id == n.id then n.level
                             else if StrictlyInside(n.rootId, n.lft, n.rgt)(t[i]) then t[i].level + levelDiff
                             else t[i].level)
  {
    var r := UpdateNode(t, n, destLeft, levelDiff);
    UpdateNodeClosedForm(t, n, destLeft, levelDiff);
    BlockMoveFacts(n.lft, n.rgt, destLeft);
    forall i | 0 <= i < |t| && t[i].rootId == n.rootId && n.lft <= t[i].lft && t[i].rgt <= n.rgt
      ensures r[i].lft - BlockTarget(n.lft, n.rgt, destLeft) == t[i].lft - n.lft
      ensures r[i].rgt - BlockTarget(n.lft, n.rgt, destLeft) == t[i].rgt - n.lft
    {
      assert r[i] == UpdateRowOf(n, destLeft, levelDiff, t[i]);
      assert t[i] in t;
    }
  }

  /** The within-tree branch of the four moves: the node's new level is set
      in memory, then updateNode runs with the level change it implies. */
  function MoveWithin(t: Table, n: Row, newLevel: int, destLeft: int): (r: Table)
    ensures |r| == |t|
  {
    UpdateNode(t, n.(level := newLevel), destLeft, newLevel - n.level)
  }

  /** The within-tree move keeps the invariant for every new level and
      every target outside the subtree that is not an end of the root. */
  lemma MoveWithinKeepsWellFormed(t: Table, n: Row)
    requires WellFormed(t, n.rootId)
    requires n in t
    ensures forall newLevel, destLeft :: !(n.lft < destLeft <= n.rgt) && 2 <= destLeft <= 2 * Size(t, n.rootId) ==>
              WellFormed(MoveWithin(t, n, newLevel, destLeft), n.rootId)
  {
    forall newLevel, destLeft | !(n.lft < destLeft <= n.rgt) && 2 <= destLeft <= 2 * Size(t, n.rootId)
      ensures WellFormed(MoveWithin(t, n, newLevel, destLeft), n.rootId)
    {
      UpdateNodeKeepsWellFormed(t, n, newLevel, destLeft);
    }
  }

  /** The guard shared by the four moves: the destination is the node
      itself or lies inside it. */
  predicate MoveRejected(n: Row, dest: Row) {
    IsEqualTo(n, dest) || IsAncestorOf(n, dest)
  }

  /** `moveAsPrevSiblingOf(dest)`: within a tree, the node takes
      dest.level and the subtree moves to dest.lft. */
  function MoveAsPrevSiblingOf(t: Table, n: Row, dest: Row): (r: Result<Table>)
    ensures MoveRejected(n, dest) ==> r == Err(SelfReference)
    ensures !MoveRejected(n, dest) && dest.rootId != n.rootId ==>
      r == MoveBetweenTrees(t, n, dest, dest.lft, "moveAsPrevSiblingOf")
    ensures !MoveRejected(n, dest) && dest.rootId == n.rootId ==> r.Ok? && |r.value| == |t|
  {
    if MoveRejected(n, dest) then Err(SelfReference)
    else if dest.rootId != n.rootId then MoveBetweenTrees(t, n, dest, dest.lft, "moveAsPrevSiblingOf")
    else Ok(MoveWithin(t, n, dest.level, dest.lft))
  }

  /** `moveAsNextSiblingOf(dest)`: level dest.level, target dest.rgt + 1. */
  function MoveAsNextSiblingOf(t: Table, n: Row, dest: Row): (r: Result<Table>)
    ensures MoveRejected(n, dest) ==> r == Err(SelfReference)
    ensures !MoveRejected(n, dest) && dest.rootId != n.rootId ==>
      r == MoveBetweenTrees(t, n, dest, dest.rgt + 1, "moveAsNextSiblingOf")
    ensures !MoveRejected(n, dest) && dest.rootId == n.rootId ==> r.Ok? && |r.value| == |t|
  {
    if MoveRejected(n, dest) then Err(SelfReference)
    else if dest.rootId != n.rootId then MoveBetweenTrees(t, n, dest, dest.rgt + 1, "moveAsNextSiblingOf")
    else Ok(MoveWithin(t, n, dest.level, dest.rgt + 1))
  }

  /** `moveAsFirstChildOf(dest)`: level dest.level + 1, target dest.lft + 1. */
  function MoveAsFirstChildOf(t: Table, n: Row, dest: Row): (r: Result<Table>)
    ensures MoveRejected(n, dest) ==> r == Err(SelfReference)
    ensures !MoveRejected(n, dest) && dest.rootId != n.rootId ==>
      r == MoveBetweenTrees(t, n, dest, dest.lft + 1, "moveAsFirstChildOf")
    ensures !MoveRejected(n, dest) && dest.rootId == n.rootId ==> r.Ok? && |r.value| == |t|
  {
    if MoveRejected(n, dest) then Err(SelfReference)
    else if dest.rootId != n.rootId then MoveBetweenTrees(t, n, dest, dest.lft + 1, "moveAsFirstChildOf")
    else Ok(MoveWithin(t, n, dest.level + 1, dest.lft + 1))
  }

  /** `moveAsLastChildOf(dest)`: level dest.level + 1, target dest.rgt. */
  function MoveAsLastChildOf(t: Table, n: Row, dest: Row): (r: Result<Table>)
    ensures MoveRejected(n, dest) ==> r == Err(SelfReference)
    ensures !MoveRejected(n, dest) && dest.rootId != n.rootId ==>
      r == MoveBetweenTrees(t, n, dest, dest.rgt, "moveAsLastChildOf")
    ensures !MoveRejected(n, dest) && dest.rootId == n.rootId ==> r.Ok? && |r.value| == |t|
  {
    if MoveRejected(n, dest) then Err(SelfReference)
    else if dest.rootId != n.rootId then MoveBetweenTrees(t, n, dest, dest.rgt, "moveAsLastChildOf")
    else Ok(MoveWithin(t, n, dest.level + 1, dest.rgt))
  }

  /** Two distinct rows of one laminar tree, neither inside the node: the
      destination encloses the node or lies wholly before or after it. */
  lemma DestOutside(t: Table, R: int, n: Row, dest: Row)
    requires WellFormed(t, R)
    requires n in t && dest in t && n.rootId == R && dest.rootId == R
    requires !MoveRejected(n, dest)
    ensures dest.lft < dest.rgt && n.lft < n.rgt
    ensures dest.rgt < n.lft || n.rgt < dest.lft || (dest.lft < n.lft && n.rgt < dest.rgt)
    ensures 1 <= dest.lft && dest.rgt <= 2 * Size(t, R)
    ensures !IsRoot(dest) ==> 2 <= dest.lft && dest.rgt < 2 * Size(t, R)
  {
    assert dest != n;
    assert NestedOrDisjoint(dest, n);
    if !IsRoot(dest) {
      var root :| root in t && root.rootId == R && root.lft == 1 && root.rgt == 2 * Size(t, R);
      RootEnclosesAll(t, R, root, dest);
    }
  }

  /** Within a tree, moveAsPrevSiblingOf a non-root destination keeps the invariant. */
  lemma MovePrevSiblingKeepsWellFormed(t: Table, R: int, n: Row, dest: Row)
    requires WellFormed(t, R)
    requires n in t && dest in t && n.rootId == R && dest.rootId == R
    requires !MoveRejected(n, dest)
    requires !IsRoot(dest)
    ensures var r := MoveAsPrevSiblingOf(t, n, dest);
            r.Ok? && WellFormed(r.value, R)
  {
    DestOutside(t, R, n, dest);
    MoveWithinKeepsWellFormed(t, n);
  }

  /** Within a tree, moveAsPrevSiblingOf leaves the node ending just before the destination, at its level. The
      requires hold for any two distinct rows of a well-formed tree neither
      of which lies inside the other's subtree (`DestOutside`). */
  lemma MovePrevSiblingPlaces(t: Table, n: Row, dest: Row)
    requires n.lft < n.rgt && dest.lft < dest.rgt && dest.rootId == n.rootId
    requires dest.rgt < n.lft || n.rgt < dest.lft || (dest.lft < n.lft && n.rgt < dest.rgt)
    ensures var r := MoveAsPrevSiblingOf(t, n, dest);
            r.Ok? && forall i, j :: 0 <= i < |t| && 0 <= j < |t| && t[i] == n && t[j] == dest ==>
              r.value[i].rgt + 1 == r.value[j].lft && r.value[i].level == dest.level
  {
    PrevSiblingRows(t, n, dest);
    assert MoveAsPrevSiblingOf(t, n, dest) == Ok(MoveWithin(t, n, dest.level, dest.lft));
  }

  lemma PrevSiblingRows(t: Table, n: Row, dest: Row)
    requires n.lft < n.rgt && dest.lft < dest.rgt && dest.rootId == n.rootId
    requires dest.rgt < n.lft || n.rgt < dest.lft || (dest.lft < n.lft && n.rgt < dest.rgt)
    ensures var u := MoveWithin(t, n, dest.level, dest.lft);
            forall i, j :: 0 <= i < |t| && 0 <= j < |t| && t[i] == n && t[j] == dest ==>
              u[i].rgt + 1 == u[j].lft && u[i].level == dest.level
  {
    var u := MoveWithin(t, n, dest.level, dest.lft);
    forall i, j | 0 <= i < |t| && 0 <= j < |t| && t[i] == n && t[j] == dest
      ensures u[i].rgt + 1 == u[j].lft && u[i].level == dest.level
    {
      assert u[i].lft == BlockTarget(n.lft, n.rgt, dest.lft) && u[i].level == dest.level
          && u[i].rgt == BlockTarget(n.lft, n.rgt, dest.lft) + (n.rgt - n.lft) by {
        NodeRowAt(t, n, i);
      }
      assert u[j].lft == BlockMove(n.lft, n.rgt, dest.lft, dest.lft)
          && u[j].rgt == BlockMove(n.lft, n.rgt, dest.lft, dest.rgt) by {
        OtherRowAt(t, n, j);
      }
      AnchorValues(n.lft, n.rgt, dest.lft, dest.rgt);
    }
  }

  /** Within a tree, moveAsNextSiblingOf a non-root destination keeps the invariant. */
  lemma MoveNextSiblingKeepsWellFormed(t: Table, R: int, n: Row, dest: Row)
    requires WellFormed(t, R)
    requires n in t && dest in t && n.rootId == R && dest.rootId == R
    requires !MoveRejected(n, dest)
    requires !IsRoot(dest)
    ensures var r := MoveAsNextSiblingOf(t, n, dest);
            r.Ok? && WellFormed(r.value, R)
  {
    DestOutside(t, R, n, dest);
    MoveWithinKeepsWellFormed(t, n);
  }

  /** Within a tree, moveAsNextSiblingOf leaves the node starting just after the destination, at its level. The
      requires hold for any two distinct rows of a well-formed tree neither
      of which lies inside the other's subtree (`DestOutside`). */
  lemma MoveNextSiblingPlaces(t: Table, n: Row, dest: Row)
    requires n.lft < n.rgt && dest.lft < dest.rgt && dest.rootId == n.rootId
    requires dest.rgt < n.lft || n.rgt < dest.lft || (dest.lft < n.lft && n.rgt < dest.rgt)
    ensures var r := MoveAsNextSiblingOf(t, n, dest);
            r.Ok? && forall i, j :: 0 <= i < |t| && 0 <= j < |t| && t[i] == n && t[j] == dest ==>
              r.value[j].rgt + 1 == r.value[i].lft && r.value[i].level == dest.level
  {
    NextSiblingRows(t, n, dest);
    assert MoveAsNextSiblingOf(t, n, dest) == Ok(MoveWithin(t, n, dest.level, dest.rgt + 1));
  }

  lemma NextSiblingRows(t: Table, n: Row, dest: Row)
    requires n.lft < n.rgt && dest.lft < dest.rgt && dest.rootId == n.rootId
    requires dest.rgt < n.lft || n.rgt < dest.lft || (dest.lft < n.lft && n.rgt < dest.rgt)
    ensures var u := MoveWithin(t, n, dest.level, dest.rgt + 1);
            forall i, j :: 0 <= i < |t| && 0 <= j < |t| && t[i] == n && t[j] == dest ==>
              u[j].rgt + 1 == u[i].lft && u[i].level == dest.level
  {
    var u := MoveWithin(t, n, dest.level, dest.rgt + 1);
    forall i, j | 0 <= i < |t| && 0 <= j < |t| && t[i] == n && t[j] == dest
      ensures u[j].rgt + 1 == u[i].lft && u[i].level == dest.level
    {
      assert u[i].lft == BlockTarget(n.lft, n.rgt, dest.rgt + 1) && u[i].level == dest.level
          && u[i].rgt == BlockTarget(n.lft, n.rgt, dest.rgt + 1) + (n.rgt - n.lft) by {
        NodeRowAt(t, n, i);
      }
      assert u[j].lft == BlockMove(n.lft, n.rgt, dest.rgt + 1, dest.lft)
          && u[j].rgt == BlockMove(n.lft, n.rgt, dest.rgt + 1, dest.rgt) by {
        OtherRowAt(t, n, j);
      }
      AnchorValues(n.lft, n.rgt, dest.lft, dest.rgt);
    }
  }

  /** Within a tree, moveAsFirstChildOf keeps the invariant. */
  lemma MoveFirstChildKeepsWellFormed(t: Table, R: int, n: Row, dest: Row)
    requires WellFormed(t, R)
    requires n in t && dest in t && n.rootId == R && dest.rootId == R
    requires !MoveRejected(n, dest)
    ensures var r := MoveAsFirstChildOf(t, n, dest);
            r.Ok? && WellFormed(r.value, R)
  {
    DestOutside(t, R, n, dest);
    MoveWithinKeepsWellFormed(t, n);
  }

  /** Within a tree, moveAsFirstChildOf leaves the node starting just inside the destination, one level below it. The
      requires hold for any two distinct rows of a well-formed tree neither
      of which lies inside the other's subtree (`DestOutside`). */
  lemma MoveFirstChildPlaces(t: Table, n: Row, dest: Row)
    requires n.lft < n.rgt && dest.lft < dest.rgt && dest.rootId == n.rootId
    requires dest.rgt < n.lft || n.rgt < dest.lft || (dest.lft < n.lft && n.rgt < dest.rgt)
    ensures var r := MoveAsFirstChildOf(t, n, dest);
            r.Ok? && forall i, j :: 0 <= i < |t| && 0 <= j < |t| && t[i] == n && t[j] == dest ==>
              r.value[j].lft + 1 == r.value[i].lft && r.value[i].level == dest.level + 1
  {
    FirstChildRows(t, n, dest);
    assert MoveAsFirstChildOf(t, n, dest) == Ok(MoveWithin(t, n, dest.level + 1, dest.lft + 1));
  }

  lemma FirstChildRows(t: Table, n: Row, dest: Row)
    requires n.lft < n.rgt && dest.lft < dest.rgt && dest.rootId == n.rootId
    requires dest.rgt < n.lft || n.rgt < dest.lft || (dest.lft < n.lft && n.rgt < dest.rgt)
    ensures var u := MoveWithin(t, n, dest.level + 1, dest.lft + 1);
            forall i, j :: 0 <= i < |t| && 0 <= j < |t| && t[i] == n && t[j] == dest ==>
              u[j].lft + 1 == u[i].lft && u[i].level == dest.level + 1
  {
    var u := MoveWithin(t, n, dest.level + 1, dest.lft + 1);
    forall i, j | 0 <= i < |t| && 0 <= j < |t| && t[i] == n && t[j] == dest
      ensures u[j].lft + 1 == u[i].lft && u[i].level == dest.level + 1
    {
      assert u[i].lft == BlockTarget(n.lft, n.rgt, dest.lft + 1) && u[i].level == dest.level + 1
          && u[i].rgt == BlockTarget(n.lft, n.rgt, dest.lft + 1) + (n.rgt - n.lft) by {
        NodeRowAt(t, n, i);
      }
      assert u[j].lft == BlockMove(n.lft, n.rgt, dest.lft + 1, dest.lft)
          && u[j].rgt == BlockMove(n.lft, n.rgt, dest.lft + 1, dest.rgt) by {
        OtherRowAt(t, n, j);
      }
      AnchorValues(n.lft, n.rgt, dest.lft, dest.rgt);
    }
  }

  /** Within a tree, moveAsLastChildOf keeps the invariant. */
  lemma MoveLastChildKeepsWellFormed(t: Table, R: int, n: Row, dest: Row)
    requires WellFormed(t, R)
    requires n in t && dest in t && n.rootId == R && dest.rootId == R
    requires !MoveRejected(n, dest)
    ensures var r := MoveAsLastChildOf(t, n, dest);
            r.Ok? && WellFormed(r.value, R)
  {
    DestOutside(t, R, n, dest);
    MoveWithinKeepsWellFormed(t, n);
  }

  /** Within a tree, moveAsLastChildOf leaves the node ending just inside the destination, one level below it. The
      requires hold for any two distinct rows of a well-formed tree neither
      of which lies inside the other's subtree (`DestOutside`). */
  lemma MoveLastChildPlaces(t: Table, n: Row, dest: Row)
    requires n.lft < n.rgt && dest.lft < dest.rgt && dest.rootId == n.rootId
    requires dest.rgt < n.lft || n.rgt < dest.lft || (dest.lft < n.lft && n.rgt < dest.rgt)
    ensures var r := MoveAsLastChildOf(t, n, dest);
            r.Ok? && forall i, j :: 0 <= i < |t| && 0 <= j < |t| && t[i] == n && t[j] == dest ==>
              r.value[i].rgt + 1 == r.value[j].rgt && r.value[i].level == dest.level + 1
  {
    LastChildRows(t, n, dest);
    assert MoveAsLastChildOf(t, n, dest) == Ok(MoveWithin(t, n, dest.level + 1, dest.rgt));
  }

  lemma LastChildRows(t: Table, n: Row, dest: Row)
    requires n.lft < n.rgt && dest.lft < dest.rgt && dest.rootId == n.rootId
    requires dest.rgt < n.lft || n.rgt < dest.lft || (dest.lft < n.lft && n.rgt < dest.rgt)
    ensures var u := MoveWithin(t, n, dest.level + 1, dest.rgt);
            forall i, j :: 0 <= i < |t| && 0 <= j < |t| && t[i] == n && t[j] == dest ==>
              u[i].rgt + 1 == u[j].rgt && u[i].level == dest.level + 1
  {
    var u := MoveWithin(t, n, dest.level + 1, dest.rgt);
    forall i, j | 0 <= i < |t| && 0 <= j < |t| && t[i] == n && t[j] == dest
      ensures u[i].rgt + 1 == u[j].rgt && u[i].level == dest.level + 1
    {
      assert u[i].lft == BlockTarget(n.lft, n.rgt, dest.rgt) && u[i].level == dest.level + 1
          && u[i].rgt == BlockTarget(n.lft, n.rgt, dest.rgt) + (n.rgt - n.lft) by {
        NodeRowAt(t, n, i);
      }
      assert u[j].lft == BlockMove(n.lft, n.rgt, dest.rgt, dest.lft)
          && u[j].rgt == BlockMove(n.lft, n.rgt, dest.rgt, dest.rgt) by {
        OtherRowAt(t, n, j);
      }
      AnchorValues(n.lft, n.rgt, dest.lft, dest.rgt);
    }
  }
}

=== FILE: predicates.dfy ===
/** The interval predicates of a node instance (`isLeaf`, `isRoot`,
    `isEqualTo`, `isDescendantOf`, ...). They read only the in-memory values
    of the two nodes; the lemmas relate them to the table they came from. */
module Predicates {
  import opened Rows
  import opened Forest

  predicate IsLeaf(n: Row) {
    n.rgt - n.lft == 1
  }

  predicate IsRoot(n: Row) {
    n.lft == 1
  }

  /** Same interval in the same tree. */
  predicate IsEqualTo(n: Row, m: Row) {
    m.lft == n.lft && m.rgt == n.rgt && m.rootId == n.rootId
  }

  /** `n.isDescendantOf(m)`: m strictly encloses n. */
  predicate IsDescendantOf(n: Row, m: Row) {
    m.lft < n.lft && m.rgt > n.rgt && m.rootId == n.rootId
  }

  predicate IsDescendantOfOrEqualTo(n: Row, m: Row) {
    m.lft <= n.lft && m.rgt >= n.rgt && m.rootId == n.rootId
  }

  /** `n.isAncestorOf(m)`: n strictly encloses m. */
  predicate IsAncestorOf(n: Row, m: Row) {
    m.lft > n.lft && m.rgt < n.rgt && m.rootId == n.rootId
  }

  /** A node has its place in a tree when its interval is non-empty. */
  predicate IsValidNode(n: Row) {
    n.rgt > n.lft
  }

  /** `detach()`: the in-memory node loses its place. */
  function Detach(n: Row): (d: Row)
    ensures !IsValidNode(d)
    ensures d.id == n.id && d.level == n.level && d.rootId == n.rootId
  {
    n.(lft := 0, rgt := 0)
  }

  /** `getNumberDescendants()`: (rgt - lft - 1) / 2 with JavaScript's
      division, which is exact on these values, so a real number. */
  function NumberDescendants(n: Row): (d: real)
    ensures IsValidNode(n) ==> d >= 0.0
    ensures 2.0 * d + 1.0 == (n.rgt - n.lft) as real
  {
    (n.rgt - n.lft - 1) as real / 2.0
  }

  /** Ancestor and descendant are the same relation read both ways. */
  lemma AncestorDescendantDual(n: Row, m: Row)
    ensures IsAncestorOf(n, m) <==> IsDescendantOf(m, n)
  {
  }

  /** Being a descendant or equal is being a descendant or the same node,
      once both nodes are rows of a well-formed tree. */
  lemma DescendantOrEqualWidens(t: Table, R: int, n: Row, m: Row)
    requires WellFormed(t, R)
    requires n in t && m in t && n.rootId == R && m.rootId == R
    ensures IsDescendantOfOrEqualTo(n, m) <==> IsDescendantOf(n, m) || n == m
  {
    if n != m {
      assert NestedOrDisjoint(n, m);
    }
  }

  /** In a well-formed tree a row is a leaf exactly when nothing lies
      inside it. */
  lemma LeafHasNoDescendants(t: Table, R: int, n: Row)
    requires WellFormed(t, R)
    requires n in t && n.rootId == R
    ensures IsLeaf(n) <==> CountWhere(t, StrictlyInside(R, n.lft, n.rgt)) == 0
  {
    SubtreeCounts(t, R, n);
  }

  /** In a well-formed tree the stored answer of getNumberDescendants is
      the number of rows the node strictly encloses. */
  lemma NumberDescendantsCounts(t: Table, R: int, n: Row)
    requires WellFormed(t, R)
    requires n in t && n.rootId == R
    ensures NumberDescendants(n) == CountWhere(t, StrictlyInside(R, n.lft, n.rgt)) as real
  {
    SubtreeCounts(t, R, n);
  }

  /** In a well-formed tree a row is the root (lft = 1) exactly when no
      row encloses it. */
  lemma RootHasDepthZero(t: Table, R: int, n: Row)
    requires WellFormed(t, R)
    requires n in t && n.rootId == R
    ensures IsRoot(n) <==> Depth(t, R, n) == 0
  {
    var k :| 0 <= k < |t| && t[k] == n;
    if IsRoot(n) {
      forall i | 0 <= i < |t| ensures !Enclosing(R, n.lft, n.rgt)(t[i]) {
        assert t[i] in t;
      }
      CountZero(t, Enclosing(R, n.lft, n.rgt));
    } else {
      var root :| root in t && root.rootId == R && root.lft == 1 && root.rgt == 2 * Size(t, R);
      RootEnclosesAll(t, R, root, n);
      var j :| 0 <= j < |t| && t[j] == root;
      CountZero(t, Enclosing(R, n.lft, n.rgt));
    }
  }
}

=== FILE: reads.dfy ===
/** The reads: `fetchRoot`, `fetchTree`, `fetchRoots`, the adjacency probes,
    `getParent`, `getDescendants`/`getChildren`, `getAncestors`. Each is a
    `where` clause over the table; `findOne` answers the first match (false
    when there is none) and `findAll` every match in table order. The
    instance-level finders of the probes, getParent, getDescendants and
    getAncestors are read as the model class's static finders. */
module Reads {
  import opened Rows
  import opened Forest
  import opened Predicates

  /** `findOne(where)` without an order: the first selected row in table
      order, None (the library's `false`) when no row is selected. */
  function FindOne(t: Table, p: Row -> bool): (r: Option<Row>)
    ensures r.None? <==> forall i :: 0 <= i < |t| ==> !p(t[i])
    ensures r.Some? ==> exists i :: 0 <= i < |t| && t[i] == r.value && p(r.value) && forall j :: 0 <= j < i ==> !p(t[j])
  {
    if |t| == 0 then None
    else if p(t[0]) then Some(t[0])
    else
      var rest := FindOne(t[1..], p);
      if rest.Some? then
        var i :| 0 <= i < |t[1..]| && t[1..][i] == rest.value && p(rest.value) && forall j :: 0 <= j < i ==> !p(t[1..][j]);
        assert t[i + 1] == rest.value;
        rest
      else rest
  }

  /** `findOne(where, order: ['rgt'])`: a selected row with the smallest
      rgt (the first such in table order), None when no row is selected. */
  function FindOneByRgt(t: Table, p: Row -> bool): (r: Option<Row>)
    ensures r.None? <==> forall i :: 0 <= i < |t| ==> !p(t[i])
    ensures r.Some? ==> r.value in t && p(r.value)
    ensures r.Some? ==> forall y :: y in t && p(y) ==> r.value.rgt <= y.rgt
  {
    if |t| == 0 then None
    else
      var rest := FindOneByRgt(t[1..], p);
      assert forall y :: y in t ==> y == t[0] || y in t[1..];
      if !p(t[0]) then rest
      else if rest.Some? && rest.value.rgt < t[0].rgt then rest
      else Some(t[0])
  }

  // fetchRoot, fetchTree, fetchRoots

  function RootOf(rootId: int): Row -> bool {
    (x: Row) => x.lft == 1 && x.rootId == rootId
  }

  /** `fetchRoot(rootId)`: the row of the tree with lft 1. */
  function FetchRoot(t: Table, rootId: int): (r: Option<Row>)
    ensures r.Some? ==> r.value in t && r.value.lft == 1 && r.value.rootId == rootId
    ensures r.None? <==> forall x :: x in t ==> !(x.lft == 1 && x.rootId == rootId)
  {
    var r := FindOne(t, RootOf(rootId));
    assert r.None? ==> forall x :: x in t ==> !RootOf(rootId)(x) by {
      if r.None? {
        forall x | x in t ensures !RootOf(rootId)(x) {
          var i :| 0 <= i < |t| && t[i] == x;
        }
      }
    }
    r
  }

  /** In a well-formed tree, fetchRoot answers the root [1, 2n], and false
      exactly when the tree is empty. */
  lemma FetchRootIsTheRoot(t: Table, R: int)
    requires WellFormed(t, R)
    ensures FetchRoot(t, R).None? <==> Size(t, R) == 0
    ensures FetchRoot(t, R).Some? ==> FetchRoot(t, R).value.rgt == 2 * Size(t, R)
  {
    var r := FetchRoot(t, R);
    if Size(t, R) == 0 {
      CountZero(t, InTree(R));
      forall x | x in t ensures !(x.lft == 1 && x.rootId == R) {
        var i :| 0 <= i < |t| && t[i] == x;
        assert !InTree(R)(t[i]);
      }
    } else {
      var root :| root in t && root.rootId == R && root.lft == 1 && root.rgt == 2 * Size(t, R);
      assert r.value == root;
    }
  }

  /** The where clause of `fetchTree(depth, rootId)`. */
  function TreeRows(depth: int, rootId: int): Row -> bool {
    (x: Row) => x.lft >= 1 && x.rootId == rootId && (depth > 0 ==> 0 <= x.level <= depth)
  }

  predicate SortedByLft(s: seq<Row>) {
    forall i, j :: 0 <= i < j < |s| ==> s[i].lft <= s[j].lft
  }

  /** Insertion of one row into a lft-ordered sequence. */
  function InsertByLft(x: Row, s: seq<Row>): (r: seq<Row>)
    requires SortedByLft(s)
    ensures multiset(r) == multiset(s) + multiset{x}
    ensures SortedByLft(r)
    ensures |r| > 0 && (r[0] == x || (|s| > 0 && r[0] == s[0]))
  {
    if |s| == 0 then [x]
    else if x.lft <= s[0].lft then [x] + s
    else
      assert s == [s[0]] + s[1..];
      [s[0]] + InsertByLft(x, s[1..])
  }

  /** `order: ['lft']`: the rows sorted by lft. */
  function SortByLft(s: seq<Row>): (r: seq<Row>)
    ensures multiset(r) == multiset(s)
    ensures SortedByLft(r)
  {
    if |s| == 0 then []
    else
      assert s == [s[0]] + s[1..];
      InsertByLft(s[0], SortByLft(s[1..]))
  }

  /** `fetchTree(depth, rootId)`: the rows of the tree with lft >= 1, only
      those of level 0..depth when depth > 0, in lft order. */
  function FetchTree(t: Table, depth: int, rootId: int): (r: Table)
    ensures SortedByLft(r)
    ensures multiset(r) == multiset(Filter(t, TreeRows(depth, rootId)))
  {
    SortByLft(Filter(t, TreeRows(depth, rootId)))
  }

  /** fetchTree with depth 0 on a well-formed tree answers exactly the rows
      of the tree, as many as the tree has, in lft order, the root first. */
  lemma FetchTreeWholeTree(t: Table, depth: int, R: int)
    requires WellFormed(t, R) && depth <= 0
    ensures forall x :: x in FetchTree(t, depth, R) <==> x in t && x.rootId == R
    ensures |FetchTree(t, depth, R)| == Size(t, R)
    ensures Size(t, R) > 0 ==> FetchTree(t, depth, R)[0].lft == 1
  {
    var r := FetchTree(t, depth, R);
    var f := Filter(t, TreeRows(depth, R));
    forall x ensures x in r <==> x in t && x.rootId == R {
      assert x in r <==> x in multiset(r);
    }
    assert |r| == |multiset(r)| == |multiset(f)| == |f|;
    FilterLength(t, TreeRows(depth, R));
    CountCorrespond(t, TreeRows(depth, R), t, InTree(R));
    if Size(t, R) > 0 {
      var root :| root in t && root.rootId == R && root.lft == 1 && root.rgt == 2 * Size(t, R);
      assert root in r;
      var k :| 0 <= k < |r| && r[k] == root;
      assert r[0].lft <= r[k].lft;
    }
  }

  /** The `where` of fetchRoots: rows with lft 1, of any tree. */
  function Roots(): Row -> bool {
    (x: Row) => IsRoot(x)
  }

  /** `fetchRoots()`: every row with lft 1, in table order. */
  function FetchRoots(t: Table): (r: Table)
    ensures forall x :: x in r <==> x in t && IsRoot(x)
    ensures |r| == CountWhere(t, Roots())
  {
    FilterLength(t, Roots());
    Filter(t, Roots())
  }

  /** In a well-formed non-empty tree, fetchRoots lists exactly one row of
      that tree, and it is the row fetchRoot finds. */
  lemma FetchRootsOnePerTree(t: Table, R: int)
    requires WellFormed(t, R) && Size(t, R) > 0
    ensures CountWhere(FetchRoots(t), InTree(R)) == 1
    ensures FetchRoot(t, R).Some? && FetchRoot(t, R).value in FetchRoots(t)
    ensures forall x :: x in FetchRoots(t) && x.rootId == R ==> x == FetchRoot(t, R).value
  {
    FetchRootIsTheRoot(t, R);
    var v := FetchRoot(t, R).value;
    forall x | x in FetchRoots(t) && x.rootId == R ensures x == v {
      assert x != v ==> NestedOrDisjoint(x, v);
    }
    CountFilter(t, Roots(), InTree(R), LftAt(R, 1));
    assert Occ(t, R, 1) == 1;
    forall i | 0 <= i < |t| ensures !RgtAt(R, 1)(t[i]) {
      assert t[i] in t;
    }
    CountZero(t, RgtAt(R, 1));
  }

  // The adjacency probes: one findOne each, on the node's tree.

  /** `getPrevSibling()`: the row ending just before the node starts. */
  function GetPrevSibling(t: Table, n: Row): Option<Row> {
    FindOne(t, RgtAt(n.rootId, n.lft - 1))
  }

  /** `getNextSibling()`: the row starting just after the node ends. */
  function GetNextSibling(t: Table, n: Row): Option<Row> {
    FindOne(t, LftAt(n.rootId, n.rgt + 1))
  }

  /** `getFirstChild()`: the row starting just after the node starts. */
  function GetFirstChild(t: Table, n: Row): Option<Row> {
    FindOne(t, LftAt(n.rootId, n.lft + 1))
  }

  /** `getLastChild()`: the row ending just before the node ends. */
  function GetLastChild(t: Table, n: Row): Option<Row> {
    FindOne(t, RgtAt(n.rootId, n.rgt - 1))
  }

  /** In a well-formed tree the first-child probe finds a row exactly when
      the node is not a leaf, and that row is a child starting right after
      the node. */
  lemma FirstChildProbe(t: Table, n: Row)
    requires WellFormed(t, n.rootId) && n in t
    ensures GetFirstChild(t, n).Some? <==> !IsLeaf(n)
    ensures GetFirstChild(t, n).Some? ==>
      && GetFirstChild(t, n).value in t && GetFirstChild(t, n).value.rootId == n.rootId
      && GetFirstChild(t, n).value.lft == n.lft + 1 && GetFirstChild(t, n).value.rgt < n.rgt
  {
    var R, k := n.rootId, n.lft + 1;
    var j :| 0 <= j < |t| && t[j] == n;
    assert Occ(t, R, k) == 1;
    if IsLeaf(n) {
      assert RgtAt(R, k)(t[j]);
      CountZero(t, RgtAt(R, k));
      CountZero(t, LftAt(R, k));
    } else {
      forall i | 0 <= i < |t| ensures !RgtAt(R, k)(t[i]) {
        assert t[i] in t;
        if t[i] != n && t[i].rootId == R {
          assert NestedOrDisjoint(t[i], n);
        }
      }
      CountZero(t, RgtAt(R, k));
      CountZero(t, LftAt(R, k));
      var c := GetFirstChild(t, n).value;
      assert c in t;
      assert NestedOrDisjoint(c, n);
    }
  }

  /** The same for the last-child probe: a child ending right before the
      node does. */
  lemma LastChildProbe(t: Table, n: Row)
    requires WellFormed(t, n.rootId) && n in t
    ensures GetLastChild(t, n).Some? <==> !IsLeaf(n)
    ensures GetLastChild(t, n).Some? ==>
      && GetLastChild(t, n).value in t && GetLastChild(t, n).value.rootId == n.rootId
      && GetLastChild(t, n).value.rgt == n.rgt - 1 && n.lft < GetLastChild(t, n).value.lft
  {
    var R, k := n.rootId, n.rgt - 1;
    var j :| 0 <= j < |t| && t[j] == n;
    assert Occ(t, R, k) == 1;
    if IsLeaf(n) {
      assert LftAt(R, k)(t[j]);
      CountZero(t, LftAt(R, k));
      CountZero(t, RgtAt(R, k));
    } else {
      forall i | 0 <= i < |t| ensures !LftAt(R, k)(t[i]) {
        assert t[i] in t;
        if t[i] != n && t[i].rootId == R {
          assert NestedOrDisjoint(t[i], n);
        }
      }
      CountZero(t, LftAt(R, k));
      CountZero(t, RgtAt(R, k));
      var c := GetLastChild(t, n).value;
      assert c in t;
      assert NestedOrDisjoint(c, n);
    }
  }

  /** A next sibling found by the probe has exactly the node's ancestors. */
  lemma NextSiblingProbe(t: Table, n: Row)
    requires PositiveWidth(t, n.rootId) && Laminar(t, n.rootId) && n in t
    ensures GetNextSibling(t, n).Some? ==>
      && GetNextSibling(t, n).value in t && GetNextSibling(t, n).value.rootId == n.rootId
      && GetNextSibling(t, n).value.lft == n.rgt + 1
      && forall p :: p in t && p.rootId == n.rootId ==>
           (Enclosing(n.rootId, n.lft, n.rgt)(p) <==>
            Enclosing(n.rootId, GetNextSibling(t, n).value.lft, GetNextSibling(t, n).value.rgt)(p))
  {
    if GetNextSibling(t, n).Some? {
      var s := GetNextSibling(t, n).value;
      assert s in t;
      forall p | p in t && p.rootId == n.rootId
        ensures Enclosing(n.rootId, n.lft, n.rgt)(p) <==> Enclosing(n.rootId, s.lft, s.rgt)(p)
      {
        if p != n && p != s {
          assert NestedOrDisjoint(p, n);
          assert NestedOrDisjoint(p, s);
        }
      }
    }
  }

  /** A previous sibling found by the probe has exactly the node's
      ancestors. */
  lemma PrevSiblingProbe(t: Table, n: Row)
    requires PositiveWidth(t, n.rootId) && Laminar(t, n.rootId) && n in t
    ensures GetPrevSibling(t, n).Some? ==>
      && GetPrevSibling(t, n).value in t && GetPrevSibling(t, n).value.rootId == n.rootId
      && GetPrevSibling(t, n).value.rgt == n.lft - 1
      && forall p :: p in t && p.rootId == n.rootId ==>
           (Enclosing(n.rootId, n.lft, n.rgt)(p) <==>
            Enclosing(n.rootId, GetPrevSibling(t, n).value.lft, GetPrevSibling(t, n).value.rgt)(p))
  {
    if GetPrevSibling(t, n).Some? {
      var s := GetPrevSibling(t, n).value;
      assert s in t;
      forall p | p in t && p.rootId == n.rootId
        ensures Enclosing(n.rootId, n.lft, n.rgt)(p) <==> Enclosing(n.rootId, s.lft, s.rgt)(p)
      {
        if p != n && p != s {
          assert NestedOrDisjoint(p, n);
          assert NestedOrDisjoint(p, s);
        }
      }
    }
  }

  /** p is the innermost row of tree R enclosing x: it encloses x, and no
      encloser of x ends before it does. */
  predicate InnermostEncloser(t: Table, R: int, x: Row, p: Row) {
    && p in t && Enclosing(R, x.lft, x.rgt)(p)
    && forall q :: q in t && Enclosing(R, x.lft, x.rgt)(q) ==> p.rgt <= q.rgt
  }

  /** In a well-formed tree the next-sibling probe finds nothing exactly
      when the node is the root or its innermost encloser (its parent)
      closes right after it. */
  lemma NextSiblingAbsent(t: Table, n: Row)
    requires WellFormed(t, n.rootId) && n in t
    ensures GetNextSibling(t, n).None? <==>
      IsRoot(n) || exists p :: InnermostEncloser(t, n.rootId, n, p) && p.rgt == n.rgt + 1
  {
    var R, k := n.rootId, n.rgt + 1;
    var j :| 0 <= j < |t| && t[j] == n;
    assert InTree(R)(t[j]);
    CountZero(t, InTree(R));
    var root :| root in t && root.rootId == R && root.lft == 1 && root.rgt == 2 * Size(t, R);
    assert root != n ==> NestedOrDisjoint(root, n);
    if IsRoot(n) {
      forall i | 0 <= i < |t| ensures !LftAt(R, k)(t[i]) {
        assert t[i] in t;
      }
      assert forall p :: p in t && p.rootId == R ==> 1 <= p.lft;
    } else {
      assert Occ(t, R, k) == 1;
      CountZero(t, LftAt(R, k));
      CountZero(t, RgtAt(R, k));
      if GetNextSibling(t, n).Some? {
        forall p | InnermostEncloser(t, R, n, p) ensures p.rgt != k {
          var i :| 0 <= i < |t| && t[i] == p;
        }
      } else {
        var i :| 0 <= i < |t| && RgtAt(R, k)(t[i]);
        var p := t[i];
        assert p in t;
        assert NestedOrDisjoint(p, n);
        assert InnermostEncloser(t, R, n, p);
      }
    }
  }

  /** The mirror image: the previous-sibling probe finds nothing exactly
      when the node is the root or its parent opens right before it. */
  lemma PrevSiblingAbsent(t: Table, n: Row)
    requires WellFormed(t, n.rootId) && n in t
    ensures GetPrevSibling(t, n).None? <==>
      IsRoot(n) || exists p :: InnermostEncloser(t, n.rootId, n, p) && p.lft == n.lft - 1
  {
    var R, k := n.rootId, n.lft - 1;
    var j :| 0 <= j < |t| && t[j] == n;
    assert InTree(R)(t[j]);
    CountZero(t, InTree(R));
    if IsRoot(n) {
      forall i | 0 <= i < |t| ensures !RgtAt(R, k)(t[i]) {
        assert t[i] in t;
      }
      assert forall p :: p in t && p.rootId == R ==> 1 <= p.lft;
    } else {
      assert Occ(t, R, k) == 1;
      CountZero(t, LftAt(R, k));
      CountZero(t, RgtAt(R, k));
      if GetPrevSibling(t, n).Some? {
        forall p | InnermostEncloser(t, R, n, p) ensures p.lft != k {
          var i :| 0 <= i < |t| && t[i] == p;
        }
      } else {
        var i :| 0 <= i < |t| && LftAt(R, k)(t[i]);
        var p := t[i];
        assert p in t;
        assert NestedOrDisjoint(p, n);
        forall q | q in t && Enclosing(R, n.lft, n.rgt)(q) ensures p.rgt <= q.rgt {
          assert q != p ==> NestedOrDisjoint(q, p);
        }
        assert InnermostEncloser(t, R, n, p);
      }
    }
  }

  // Depth: how ancestry relates to the count of enclosing rows

  /** Rows of tree R spanning exactly [a, b]. */
  function Spanning(R: int, a: int, b: int): Row -> bool {
    (r: Row) => r.rootId == R && r.lft == a && r.rgt == b
  }

  /** A row enclosing another has fewer ancestors: everything enclosing the
      outer row, and the outer row itself, encloses the inner one. */
  lemma DepthGrowsInside(t: Table, R: int, outer: Row, x: Row)
    requires outer in t && outer.rootId == R
    requires Enclosing(R, x.lft, x.rgt)(outer)
    ensures Depth(t, R, outer) < Depth(t, R, x)
  {
    var a, b := outer.lft, outer.rgt;
    var up := (r: Row) => Enclosing(R, a, b)(r) || Spanning(R, a, b)(r);
    CountSplit(t, up, Enclosing(R, a, b), Spanning(R, a, b));
    CountMono(t, up, Enclosing(R, x.lft, x.rgt));
    var i :| 0 <= i < |t| && t[i] == outer;
    CountZero(t, Spanning(R, a, b));
  }

  /** In a well-formed tree the tightest row p enclosing a row x is
      enclosed by every other row enclosing x, and x is one deeper. */
  lemma TightestEncloser(t: Table, R: int, x: Row, p: Row)
    requires WellFormed(t, R)
    requires x in t && x.rootId == R
    requires p in t && Enclosing(R, x.lft, x.rgt)(p)
    requires forall q :: q in t && Enclosing(R, x.lft, x.rgt)(q) ==> p.rgt <= q.rgt
    ensures forall q :: q in t && Enclosing(R, x.lft, x.rgt)(q) && q != p ==> Enclosing(R, p.lft, p.rgt)(q)
    ensures Depth(t, R, x) == Depth(t, R, p) + 1
  {
    forall q | q in t && Enclosing(R, x.lft, x.rgt)(q) && q != p
      ensures Enclosing(R, p.lft, p.rgt)(q)
    {
      assert NestedOrDisjoint(q, p);
    }
    forall i | 0 <= i < |t|
      ensures Enclosing(R, x.lft, x.rgt)(t[i])
        == (Enclosing(R, p.lft, p.rgt)(t[i]) || Spanning(R, p.lft, p.rgt)(t[i]))
    {
      assert t[i] in t;
    }
    CountSplit(t, Enclosing(R, x.lft, x.rgt), Enclosing(R, p.lft, p.rgt), Spanning(R, p.lft, p.rgt));
    // exactly one row spans p's interval: p, the only row with lft p.lft
    assert Occ(t, R, p.lft) == 1;
    CountMono(t, Spanning(R, p.lft, p.rgt), LftAt(R, p.lft));
    var i :| 0 <= i < |t| && t[i] == p;
    CountZero(t, Spanning(R, p.lft, p.rgt));
  }

  // getParent

  /** The `where` of getParent: rows of the node's tree enclosing it at a
      level at most one above its own. */
  function ParentFilter(n: Row): Row -> bool {
    (x: Row) => x.lft < n.lft && x.rgt > n.rgt && x.level >= n.level - 1 && x.rootId == n.rootId
  }

  /** `getParent()`: false (None) for a root, otherwise the matching row
      with the smallest rgt. */
  function GetParent(t: Table, n: Row): (r: Option<Row>)
    ensures IsRoot(n) ==> r.None?
    ensures r.Some? ==> r.value in t && Enclosing(n.rootId, n.lft, n.rgt)(r.value) && r.value.level >= n.level - 1
    ensures r.Some? ==> forall y :: y in t && ParentFilter(n)(y) ==> r.value.rgt <= y.rgt
    ensures !IsRoot(n) && r.None? ==> forall i :: 0 <= i < |t| ==> !ParentFilter(n)(t[i])
  {
    if IsRoot(n) then None else FindOneByRgt(t, ParentFilter(n))
  }

  /** In a well-formed tree whose levels are depths, getParent of a non-root
      row answers its parent: a row one level up that encloses it and is
      enclosed by every other row that does. */
  lemma GetParentFindsParent(t: Table, n: Row)
    requires WellFormed(t, n.rootId) && LevelConsistent(t, n.rootId)
    requires n in t && !IsRoot(n)
    ensures GetParent(t, n).Some?
    ensures GetParent(t, n).value.level == n.level - 1
    ensures Enclosing(n.rootId, n.lft, n.rgt)(GetParent(t, n).value)
    ensures forall q :: q in t && Enclosing(n.rootId, n.lft, n.rgt)(q) ==>
      q == GetParent(t, n).value || Enclosing(n.rootId, GetParent(t, n).value.lft, GetParent(t, n).value.rgt)(q)
  {
    var R := n.rootId;
    var ni :| 0 <= ni < |t| && t[ni] == n;
    CountZero(t, InTree(R));
    var root :| root in t && root.rootId == R && root.lft == 1 && root.rgt == 2 * Size(t, R);
    RootEnclosesAll(t, R, root, n);
    var ri :| 0 <= ri < |t| && t[ri] == root;
    assert Enclosing(R, n.lft, n.rgt)(t[ri]);
    var p := FindOneByRgt(t, Enclosing(R, n.lft, n.rgt)).value;
    TightestEncloser(t, R, n, p);
    forall y | y in t && ParentFilter(n)(y) ensures y == p {
      if y != p {
        DepthGrowsInside(t, R, y, p);
      }
    }
    var pi :| 0 <= pi < |t| && t[pi] == p;
    assert ParentFilter(n)(t[pi]);
  }

  // getDescendants, getChildren, getNumberChildren

  /** The `where` of getDescendants(0): rows of the tree strictly inside the
      node at a level below its own. */
  function DescendantsBelow(n: Row): Row -> bool {
    (x: Row) => x.lft > n.lft && x.rgt < n.rgt && x.level >= n.level + 1 && x.rootId == n.rootId
  }

  /** The `where` of getDescendants(depth) for depth other than 0: rows
      strictly inside the node with level BETWEEN lo AND hi. */
  function DescendantsBetween(n: Row, lo: int, hi: int): Row -> bool {
    (x: Row) => x.lft > n.lft && x.rgt < n.rgt && lo <= x.level <= hi && x.rootId == n.rootId
  }

  /** `getDescendants(depth)`: the rows of the node's tree strictly inside
      it, all of them below its level for depth 0, else those at most
      `depth` levels below it, in table order. */
  function GetDescendants(t: Table, n: Row, depth: int): (r: Table)
    ensures forall x :: x in r <==> x in t && StrictlyInside(n.rootId, n.lft, n.rgt)(x) && n.level < x.level
                                    && (depth != 0 ==> x.level <= n.level + depth)
  {
    if depth == 0 then Filter(t, DescendantsBelow(n))
    else Filter(t, DescendantsBetween(n, n.level + 1, n.level + depth))
  }

  /** In a well-formed tree whose levels are depths, getDescendants(0)
      answers every row the node strictly encloses, as many as
      getNumberDescendants says. */
  lemma GetDescendantsAll(t: Table, n: Row)
    requires WellFormed(t, n.rootId) && LevelConsistent(t, n.rootId) && n in t
    ensures forall x :: x in GetDescendants(t, n, 0) <==> x in t && StrictlyInside(n.rootId, n.lft, n.rgt)(x)
    ensures |GetDescendants(t, n, 0)| as real == NumberDescendants(n)
  {
    var R := n.rootId;
    forall i | 0 <= i < |t|
      ensures DescendantsBelow(n)(t[i]) == StrictlyInside(R, n.lft, n.rgt)(t[i])
    {
      assert t[i] in t;
      if StrictlyInside(R, n.lft, n.rgt)(t[i]) {
        DepthGrowsInside(t, R, n, t[i]);
      }
    }
    forall x | x in t && StrictlyInside(R, n.lft, n.rgt)(x) ensures x in GetDescendants(t, n, 0) {
      DepthGrowsInside(t, R, n, x);
    }
    FilterLength(t, DescendantsBelow(n));
    CountCorrespond(t, DescendantsBelow(n), t, StrictlyInside(R, n.lft, n.rgt));
    NumberDescendantsCounts(t, R, n);
  }

  /** `getChildren()`: getDescendants(1). */
  function GetChildren(t: Table, n: Row): (r: Table)
    ensures forall x :: x in r <==> x in t && StrictlyInside(n.rootId, n.lft, n.rgt)(x) && x.level == n.level + 1
  {
    GetDescendants(t, n, 1)
  }

  /** In a well-formed tree whose levels are depths, the children of a row
      are exactly the rows whose parent it is. */
  lemma ChildrenInvertParent(t: Table, n: Row, x: Row)
    requires WellFormed(t, n.rootId) && LevelConsistent(t, n.rootId) && n in t
    requires x in t && x.rootId == n.rootId
    ensures x in GetChildren(t, n) <==> !IsRoot(x) && GetParent(t, x) == Some(n)
  {
    var R := n.rootId;
    if x in GetChildren(t, n) {
      assert !IsRoot(x);
      GetParentFindsParent(t, x);
      var p := GetParent(t, x).value;
      if p != n {
        DepthGrowsInside(t, R, n, p);
      }
    }
    if !IsRoot(x) && GetParent(t, x) == Some(n) {
      GetParentFindsParent(t, x);
    }
  }

  /** Rows strictly inside n exactly one level below it. */
  function ChildOf(n: Row): Row -> bool {
    (x: Row) => StrictlyInside(n.rootId, n.lft, n.rgt)(x) && x.level == n.level + 1
  }

  /** `getNumberChildren()`: how many rows getChildren answers. */
  function GetNumberChildren(t: Table, n: Row): (c: nat)
    ensures c == CountWhere(t, ChildOf(n))
    ensures c == 0 <==> forall x :: x in t ==> !(StrictlyInside(n.rootId, n.lft, n.rgt)(x) && x.level == n.level + 1)
  {
    var r := GetChildren(t, n);
    assert r != [] ==> r[0] in r;
    FilterLength(t, DescendantsBetween(n, n.level + 1, n.level + 1));
    CountCorrespond(t, DescendantsBetween(n, n.level + 1, n.level + 1), t, ChildOf(n));
    |r|
  }

  /** In a well-formed tree whose levels are depths, a row has no children
      exactly when it is a leaf. */
  lemma NoChildrenIffLeaf(t: Table, n: Row)
    requires WellFormed(t, n.rootId) && LevelConsistent(t, n.rootId) && n in t
    ensures GetNumberChildren(t, n) == 0 <==> IsLeaf(n)
  {
    FirstChildProbe(t, n);
    if !IsLeaf(n) {
      var c := GetFirstChild(t, n).value;
      GetParentFindsParent(t, c);
      ChildrenInvertParent(t, n, c);
    }
  }

  /** Rows whose getParent answers n. */
  function ParentIs(t: Table, n: Row): Row -> bool {
    (x: Row) => GetParent(t, x) == Some(n)
  }

  /** In a well-formed tree whose levels are depths, getNumberChildren
      counts exactly the rows whose parent the node is. */
  lemma ChildrenCountParents(t: Table, n: Row)
    requires WellFormed(t, n.rootId) && LevelConsistent(t, n.rootId) && n in t
    ensures GetNumberChildren(t, n) == CountWhere(t, ParentIs(t, n))
  {
    forall i | 0 <= i < |t| ensures ChildOf(n)(t[i]) == ParentIs(t, n)(t[i]) {
      var x := t[i];
      assert x in t;
      if x.rootId == n.rootId {
        ChildrenInvertParent(t, n, x);
        assert ChildOf(n)(x) <==> x in GetChildren(t, n);
      } else {
        assert !StrictlyInside(n.rootId, n.lft, n.rgt)(x);
        assert GetParent(t, x) != Some(n);
      }
    }
    CountCorrespond(t, ChildOf(n), t, ParentIs(t, n));
  }

  // getAncestors

  /** The `where` of getAncestors(0): rows of the tree enclosing the node
      at a level above its own. */
  function AncestorsAbove(n: Row): Row -> bool {
    (x: Row) => x.lft < n.lft && x.rgt > n.rgt && x.level <= n.level - 1 && x.rootId == n.rootId
  }

  /** The `where` of getAncestors(depth) for depth other than 0: rows
      enclosing the node with level BETWEEN lo AND hi. */
  function AncestorsBetween(n: Row, lo: int, hi: int): Row -> bool {
    (x: Row) => x.lft < n.lft && x.rgt > n.rgt && lo <= x.level <= hi && x.rootId == n.rootId
  }

  /** `getAncestors(depth)` as written: the range is given high bound
      first, `BETWEEN level - 1 AND level - depth`, which SQL reads as an
      empty range once depth exceeds 1. */
  function GetAncestorsAsWritten(t: Table, n: Row, depth: int): (r: Option<Table>)
    ensures r.None? <==> IsRoot(n)
    ensures r.Some? ==> forall x :: x in r.value <==>
      x in t && Enclosing(n.rootId, n.lft, n.rgt)(x)
      && (depth == 0 ==> x.level <= n.level - 1)
      && (depth != 0 ==> n.level - 1 <= x.level <= n.level - depth)
  {
    if IsRoot(n) then None
    else if depth == 0 then Some(Filter(t, AncestorsAbove(n)))
    else Some(Filter(t, AncestorsBetween(n, n.level - 1, n.level - depth)))
  }

  /** As written, getAncestors answers no row at all for any depth of 2 or
      more. */
  lemma GetAncestorsAsWrittenEmpty(t: Table, n: Row, depth: int)
    requires !IsRoot(n) && depth >= 2
    ensures GetAncestorsAsWritten(t, n, depth) == Some([])
  {
    var between := AncestorsBetween(n, n.level - 1, n.level - depth);
    FilterLength(t, between);
    CountZero(t, between);
  }

  /** A three-row chain R [1, 6] > A [2, 5] > B [3, 4]: asked for two levels
      of ancestors, B gets none as written and both R and A corrected. */
  lemma GetAncestorsCounterexample()
    ensures
      var root, a, b := Row(1, 1, 6, 0, 1), Row(2, 2, 5, 1, 1), Row(3, 3, 4, 2, 1);
      && GetAncestorsAsWritten([root, a, b], b, 2) == Some([])
      && GetAncestors([root, a, b], b, 2) == Some([root, a])
  {
    var root, a, b := Row(1, 1, 6, 0, 1), Row(2, 2, 5, 1, 1), Row(3, 3, 4, 2, 1);
    var t := [root, a, b];
    GetAncestorsAsWrittenEmpty(t, b, 2);
    var between := AncestorsBetween(b, 0, 1);
    assert t[..2] == [root, a] && [root, a][..1] == [root] && [root][..0] == [];
    assert Filter([root], between) == [root];
    assert Filter([root, a], between) == [root, a];
    assert Filter(t, between) == [root, a];
  }

  /** `getAncestors(depth)` with the range in ascending order, as the
      method's documentation ("depth levels of ancestors") intends; the
      same as the code for depth 0 and 1. */
  function GetAncestors(t: Table, n: Row, depth: int): (r: Option<Table>)
    ensures r.None? <==> IsRoot(n)
    ensures r.Some? ==> forall x :: x in r.value <==>
      x in t && Enclosing(n.rootId, n.lft, n.rgt)(x) && x.level <= n.level - 1
      && (depth != 0 ==> n.level - depth <= x.level)
    ensures depth == 0 || depth == 1 ==> r == GetAncestorsAsWritten(t, n, depth)
  {
    if IsRoot(n) then None
    else if depth == 0 then Some(Filter(t, AncestorsAbove(n)))
    else Some(Filter(t, AncestorsBetween(n, n.level - depth, n.level - 1)))
  }

  /** In a well-formed tree whose levels are depths, getAncestors(depth) of
      a non-root row answers the rows enclosing it, all of them (as many as
      its level) for depth 0, else those at most `depth` levels up; with
      depth 1, just its parent. */
  lemma GetAncestorsFindsAncestors(t: Table, n: Row, depth: int)
    requires WellFormed(t, n.rootId) && LevelConsistent(t, n.rootId)
    requires n in t && !IsRoot(n)
    ensures forall x :: x in GetAncestors(t, n, depth).value <==>
      x in t && Enclosing(n.rootId, n.lft, n.rgt)(x) && (depth != 0 ==> Depth(t, n.rootId, x) >= n.level - depth)
    ensures depth == 0 ==> |GetAncestors(t, n, depth).value| == n.level
    ensures depth == 1 ==> forall x :: x in GetAncestors(t, n, depth).value <==> Some(x) == GetParent(t, n)
  {
    var R := n.rootId;
    forall x | x in t && Enclosing(R, n.lft, n.rgt)(x) ensures x.level <= n.level - 1 {
      DepthGrowsInside(t, R, x, n);
    }
    if depth == 0 {
      forall i | 0 <= i < |t|
        ensures AncestorsAbove(n)(t[i]) == Enclosing(R, n.lft, n.rgt)(t[i])
      {
        assert t[i] in t;
      }
      FilterLength(t, AncestorsAbove(n));
      CountCorrespond(t, AncestorsAbove(n), t, Enclosing(R, n.lft, n.rgt));
    }
    if depth == 1 {
      GetParentFindsParent(t, n);
      var p := GetParent(t, n).value;
      forall x | x in GetAncestors(t, n, depth).value ensures x == p {
        if x != p {
          DepthGrowsInside(t, R, x, p);
        }
      }
    }
  }
}


=== FILE: relabel.dfy ===
/** Bulk updates that rename the endpoints of one tree by a value map. Every
    shift of the library is such a renaming; these lemmas say when a renaming
    keeps the nested-set invariant. */
module Relabel {
  import opened Rows
  import opened Forest

  /** On the rows of `t`, the row function `f` keeps membership of tree R and
      renames each endpoint v of a row of R to h(v). */
  predicate RelabelsOn(t: Table, f: Row -> Row, R: int, h: int -> int) {
    forall x :: x in t ==>
      && (f(x).rootId == R <==> x.rootId == R)
      && (x.rootId == R ==> f(x).lft == h(x.lft) && f(x).rgt == h(x.rgt))
  }

  ghost predicate Injective(h: int -> int) {
    forall a, b :: h(a) == h(b) ==> a == b
  }

  /** All endpoint values of tree R. */
  ghost function Endpoints(t: Table, R: int): set<int> {
    (set x | x in t && x.rootId == R :: x.lft) + (set x | x in t && x.rootId == R :: x.rgt)
  }

  /** h keeps the strict order of the values in `vals`. */
  ghost predicate MonotoneOn(h: int -> int, vals: set<int>) {
    forall u, v :: u in vals && v in vals && u < v ==> h(u) < h(v)
  }

  lemma SizeRelabel(t: Table, f: Row -> Row, R: int, h: int -> int)
    requires RelabelsOn(t, f, R, h)
    ensures Size(MapRows(t, f), R) == Size(t, R)
  {
    var u := MapRows(t, f);
    forall i | 0 <= i < |t| ensures InTree(R)(u[i]) == InTree(R)(t[i]) {
      assert t[i] in t;
    }
    CountCorrespond(u, InTree(R), t, InTree(R));
  }

  /** An injective renaming moves the occurrences of v to h(v). */
  lemma OccRelabel(t: Table, f: Row -> Row, R: int, h: int -> int, v: int)
    requires RelabelsOn(t, f, R, h)
    requires Injective(h)
    ensures Occ(MapRows(t, f), R, h(v)) == Occ(t, R, v)
  {
    var u := MapRows(t, f);
    forall i | 0 <= i < |t|
      ensures LftAt(R, h(v))(u[i]) == LftAt(R, v)(t[i])
      ensures RgtAt(R, h(v))(u[i]) == RgtAt(R, v)(t[i])
    {
      assert t[i] in t;
    }
    CountCorrespond(u, LftAt(R, h(v)), t, LftAt(R, v));
    CountCorrespond(u, RgtAt(R, h(v)), t, RgtAt(R, v));
  }

  /** A value that no endpoint is renamed to does not occur afterwards. */
  lemma OccRelabelAbsent(t: Table, f: Row -> Row, R: int, h: int -> int, k: int)
    requires RelabelsOn(t, f, R, h)
    requires forall x :: x in t && x.rootId == R ==> h(x.lft) != k && h(x.rgt) != k
    ensures Occ(MapRows(t, f), R, k) == 0
  {
    var u := MapRows(t, f);
    forall i | 0 <= i < |u| ensures !LftAt(R, k)(u[i]) && !RgtAt(R, k)(u[i]) {
      assert t[i] in t;
    }
    CountZero(u, LftAt(R, k));
    CountZero(u, RgtAt(R, k));
  }

  /** Two intervals whose four endpoints keep their order stay nested or
      disjoint. */
  lemma PairRelabel(x: Row, y: Row, x': Row, y': Row, h: int -> int)
    requires NestedOrDisjoint(x, y)
    requires MonotoneOn(h, {x.lft, x.rgt, y.lft, y.rgt})
    requires x'.lft == h(x.lft) && x'.rgt == h(x.rgt) && y'.lft == h(y.lft) && y'.rgt == h(y.rgt)
    ensures NestedOrDisjoint(x', y')
  {
    var vals := {x.lft, x.rgt, y.lft, y.rgt};
    assert x.lft in vals && x.rgt in vals && y.lft in vals && y.rgt in vals;
  }

  /** A renaming that keeps the order of the endpoints keeps every interval
      non-empty and every pair nested or disjoint. */
  lemma ShapeRelabel(t: Table, f: Row -> Row, R: int, h: int -> int)
    requires RelabelsOn(t, f, R, h)
    requires MonotoneOn(h, Endpoints(t, R))
    requires PositiveWidth(t, R) && Laminar(t, R)
    ensures PositiveWidth(MapRows(t, f), R) && Laminar(MapRows(t, f), R)
  {
    var u := MapRows(t, f);
    forall a | a in u && a.rootId == R ensures a.lft < a.rgt {
      var i :| 0 <= i < |u| && u[i] == a;
      assert t[i] in t;
      assert t[i].lft in Endpoints(t, R) && t[i].rgt in Endpoints(t, R);
    }
    forall a, b | a in u && b in u && a.rootId == R && b.rootId == R && a != b
      ensures NestedOrDisjoint(a, b)
    {
      var i :| 0 <= i < |u| && u[i] == a;
      var j :| 0 <= j < |u| && u[j] == b;
      var x, y := t[i], t[j];
      assert x in t && y in t;
      assert x != y;
      assert {x.lft, x.rgt, y.lft, y.rgt} <= Endpoints(t, R);
      PairRelabel(x, y, a, b, h);
    }
  }

  /** A renaming that maps 1..2n onto 1..2n (with inverse g) keeps the tree
      dense. */
  lemma DenseRelabel(t: Table, f: Row -> Row, R: int, h: int -> int, g: int -> int)
    requires RelabelsOn(t, f, R, h)
    requires Injective(h)
    requires Dense(t, R)
    requires forall v :: 1 <= v <= 2 * Size(t, R) ==> 1 <= h(v) <= 2 * Size(t, R)
    requires forall k :: 1 <= k <= 2 * Size(t, R) ==> 1 <= g(k) <= 2 * Size(t, R) && h(g(k)) == k
    ensures Dense(MapRows(t, f), R)
  {
    var u := MapRows(t, f);
    SizeRelabel(t, f, R, h);
    forall a | a in u && a.rootId == R ensures 1 <= a.lft && a.rgt <= 2 * Size(u, R) {
      var i :| 0 <= i < |u| && u[i] == a;
      assert t[i] in t;
      assert 1 <= t[i].lft <= 2 * Size(t, R) && 1 <= t[i].rgt <= 2 * Size(t, R);
    }
    forall k | 1 <= k <= 2 * Size(u, R) ensures Occ(u, R, k) == 1 {
      OccRelabel(t, f, R, h, g(k));
    }
  }

  /** Occurrences after appending one row. */
  lemma OccAppend(t: Table, x: Row, R: int, k: int)
    ensures Occ(t + [x], R, k) == Occ(t, R, k)
      + (if x.rootId == R && x.lft == k then 1 else 0)
      + (if x.rootId == R && x.rgt == k then 1 else 0)
  {
    CountAppend(t, x, LftAt(R, k));
    CountAppend(t, x, RgtAt(R, k));
  }

  /** A renaming that moves the endpoints 1..2n of a dense tree into
      1..2n+2 while leaving free exactly the two endpoints of a new row makes
      the tree with that row appended dense again. `g` names the preimage of
      every other position. */
  lemma AddRowDense(t: Table, f: Row -> Row, R: int, h: int -> int, g: int -> int, x: Row)
    requires RelabelsOn(t, f, R, h)
    requires Injective(h)
    requires Dense(t, R)
    requires x.rootId == R && 1 <= x.lft < x.rgt <= 2 * Size(t, R) + 2
    requires forall v :: 1 <= v <= 2 * Size(t, R) ==> 1 <= h(v) <= 2 * Size(t, R) + 2 && h(v) != x.lft && h(v) != x.rgt
    requires forall k :: 1 <= k <= 2 * Size(t, R) + 2 && k != x.lft && k != x.rgt ==>
      1 <= g(k) <= 2 * Size(t, R) && h(g(k)) == k
    ensures Size(MapRows(t, f) + [x], R) == Size(t, R) + 1
    ensures Dense(MapRows(t, f) + [x], R)
  {
    var s := MapRows(t, f);
    var u := s + [x];
    var n := Size(t, R);
    SizeRelabel(t, f, R, h);
    CountAppend(s, x, InTree(R));
    assert Size(u, R) == n + 1;
    forall a | a in u && a.rootId == R ensures 1 <= a.lft <= 2 * Size(u, R) && 1 <= a.rgt <= 2 * Size(u, R) {
      if a != x {
        var i :| 0 <= i < |s| && s[i] == a;
        assert t[i] in t;
        assert 1 <= t[i].lft <= 2 * n && 1 <= t[i].rgt <= 2 * n;
      }
    }
    forall k | 1 <= k <= 2 * Size(u, R) ensures Occ(u, R, k) == 1 {
      OccAppend(s, x, R, k);
      if k == x.lft || k == x.rgt {
        forall y | y in t && y.rootId == R ensures h(y.lft) != k && h(y.rgt) != k {
        }
        OccRelabelAbsent(t, f, R, h, k);
      } else {
        OccRelabel(t, f, R, h, g(k));
      }
    }
  }

  /** Appending a non-empty row that is nested or disjoint with every row of
      the tree keeps the shape. */
  lemma AddRowShape(s: Table, R: int, x: Row)
    requires PositiveWidth(s, R) && Laminar(s, R)
    requires x.rootId == R && x.lft < x.rgt
    requires forall y :: y in s && y.rootId == R && y != x ==> NestedOrDisjoint(x, y)
    ensures PositiveWidth(s + [x], R) && Laminar(s + [x], R)
  {
    var u := s + [x];
    forall a, b | a in u && b in u && a.rootId == R && b.rootId == R && a != b
      ensures NestedOrDisjoint(a, b)
    {
      if a == x {
        assert b in s;
      } else if b == x {
        assert a in s;
        assert NestedOrDisjoint(x, a);
      } else {
        assert a in s && b in s;
      }
    }
  }

  /** Occurrences of k after a renaming are the occurrences of j before,
      when exactly the endpoints equal to j are renamed to k. */
  lemma OccPreimage(t: Table, f: Row -> Row, R: int, h: int -> int, k: int, j: int)
    requires RelabelsOn(t, f, R, h)
    requires forall x :: x in t && x.rootId == R ==> (h(x.lft) == k <==> x.lft == j) && (h(x.rgt) == k <==> x.rgt == j)
    ensures Occ(MapRows(t, f), R, k) == Occ(t, R, j)
  {
    var u := MapRows(t, f);
    forall i | 0 <= i < |t|
      ensures LftAt(R, k)(u[i]) == LftAt(R, j)(t[i])
      ensures RgtAt(R, k)(u[i]) == RgtAt(R, j)(t[i])
    {
      assert t[i] in t;
    }
    CountCorrespond(u, LftAt(R, k), t, LftAt(R, j));
    CountCorrespond(u, RgtAt(R, k), t, RgtAt(R, j));
  }

  /** One row inside a translated block and one row outside it: the outer
      row's renamed endpoints avoid the translated block, so the two end up
      nested or disjoint whatever they were before. */
  lemma BlockPairCross(x: Row, y: Row, x': Row, y': Row, lo: int, hi: int, c: int)
    requires lo <= x.lft < x.rgt <= hi
    requires x'.lft == x.lft + c && x'.rgt == x.rgt + c
    requires y'.lft < y'.rgt
    requires !(lo + c <= y'.lft <= hi + c) && !(lo + c <= y'.rgt <= hi + c)
    ensures NestedOrDisjoint(x', y')
  {
  }

  /** Two rows under a block move stay nested or disjoint. */
  lemma BlockPair(x: Row, y: Row, x': Row, y': Row, h: int -> int, lo: int, hi: int, c: int)
    requires x.lft < x.rgt && y.lft < y.rgt && NestedOrDisjoint(x, y)
    requires (lo <= x.lft <= hi <==> lo <= x.rgt <= hi) && (lo <= y.lft <= hi <==> lo <= y.rgt <= hi)
    requires forall v :: lo <= v <= hi ==> h(v) == v + c
    requires forall u, v :: u < v && !(lo <= u <= hi) && !(lo <= v <= hi) ==> h(u) < h(v)
    requires forall v :: !(lo <= v <= hi) ==> !(lo + c <= h(v) <= hi + c)
    requires x'.lft == h(x.lft) && x'.rgt == h(x.rgt) && y'.lft == h(y.lft) && y'.rgt == h(y.rgt)
    ensures NestedOrDisjoint(x', y')
  {
    var xin := lo <= x.lft <= hi;
    var yin := lo <= y.lft <= hi;
    if xin == yin {
      assert MonotoneOn(h, {x.lft, x.rgt, y.lft, y.rgt});
      PairRelabel(x, y, x', y', h);
    } else if xin {
      BlockPairCross(x, y, x', y', lo, hi, c);
    } else {
      BlockPairCross(y, x, y', x', lo, hi, c);
    }
  }

  /** A renaming that translates a closed block [lo, hi] of values by c,
      keeps the order of the values outside it, and sends none of them into
      the translated block, keeps the shape. A block is closed when every
      row has both endpoints in it or neither. */
  lemma BlockMoveShape(t: Table, f: Row -> Row, R: int, h: int -> int, lo: int, hi: int, c: int)
    requires RelabelsOn(t, f, R, h)
    requires PositiveWidth(t, R) && Laminar(t, R)
    requires forall x :: x in t && x.rootId == R ==> (lo <= x.lft <= hi <==> lo <= x.rgt <= hi)
    requires forall v :: lo <= v <= hi ==> h(v) == v + c
    requires forall u, v :: u < v && !(lo <= u <= hi) && !(lo <= v <= hi) ==> h(u) < h(v)
    requires forall v :: !(lo <= v <= hi) ==> !(lo + c <= h(v) <= hi + c)
    ensures PositiveWidth(MapRows(t, f), R) && Laminar(MapRows(t, f), R)
  {
    BlockMoveWidth(t, f, R, h, lo, hi, c);
    BlockMoveLaminar(t, f, R, h, lo, hi, c);
  }

  lemma BlockMoveWidth(t: Table, f: Row -> Row, R: int, h: int -> int, lo: int, hi: int, c: int)
    requires RelabelsOn(t, f, R, h)
    requires PositiveWidth(t, R)
    requires forall x :: x in t && x.rootId == R ==> (lo <= x.lft <= hi <==> lo <= x.rgt <= hi)
    requires forall v :: lo <= v <= hi ==> h(v) == v + c
    requires forall u, v :: u < v && !(lo <= u <= hi) && !(lo <= v <= hi) ==> h(u) < h(v)
    ensures PositiveWidth(MapRows(t, f), R)
  {
    var u := MapRows(t, f);
    forall a | a in u && a.rootId == R ensures a.lft < a.rgt {
      var i :| 0 <= i < |u| && u[i] == a;
      assert t[i] in t;
    }
  }

  lemma BlockMoveLaminar(t: Table, f: Row -> Row, R: int, h: int -> int, lo: int, hi: int, c: int)
    requires RelabelsOn(t, f, R, h)
    requires PositiveWidth(t, R) && Laminar(t, R)
    requires forall x :: x in t && x.rootId == R ==> (lo <= x.lft <= hi <==> lo <= x.rgt <= hi)
    requires forall v :: lo <= v <= hi ==> h(v) == v + c
    requires forall u, v :: u < v && !(lo <= u <= hi) && !(lo <= v <= hi) ==> h(u) < h(v)
    requires forall v :: !(lo <= v <= hi) ==> !(lo + c <= h(v) <= hi + c)
    ensures Laminar(MapRows(t, f), R)
  {
    var u := MapRows(t, f);
    forall a, b | a in u && b in u && a.rootId == R && b.rootId == R && a != b
      ensures NestedOrDisjoint(a, b)
    {
      var i :| 0 <= i < |u| && u[i] == a;
      var j :| 0 <= j < |u| && u[j] == b;
      var x, y := t[i], t[j];
      assert x in t && y in t;
      assert x != y;
      BlockPair(x, y, a, b, h, lo, hi, c);
    }
  }
}

=== FILE: removal.dfy ===
/** Taking a subtree out of its tree: `delete` destroys it, `makeRoot`
    turns it into a tree of its own, and `moveBetweenTrees` hands it to
    another tree. All three then close the hole it leaves with
    `shiftRlValues`, and leave the source tree as delete leaves it. */
module Removal {
  import opened Rows
  import opened Forest
  import opened Relabel
  import opened Shift
  import opened Predicates
  import opened Inserts
  import opened Transfer

  /** The rows `destroy` keeps: all but those of tree R inside [a, b]. */
  function Outside(R: int, a: int, b: int): Row -> bool {
    (x: Row) => !(x.rootId == R && a <= x.lft && x.rgt <= b)
  }

  /** `delete()`: destroy every row of the node's tree inside its interval,
      then shift everything from rgt + 1 on down by the subtree's width. */
  function Delete(t: Table, n: Row): (r: Table)
    ensures |r| == |t| - CountWhere(t, Within(n.rootId, n.lft, n.rgt))
  {
    var R, a, b := n.rootId, n.lft, n.rgt;
    FilterLength(t, Outside(R, a, b));
    CountComplement(t, Within(R, a, b), Outside(R, a, b));
    ShiftRlValues(Filter(t, Outside(R, a, b)), b + 1, a - b - 1, R)
  }

  /** The rows destroy keeps. */
  function Kept(t: Table, n: Row): (k: Table)
    ensures forall x :: x in k <==> x in t && !(x.rootId == n.rootId && n.lft <= x.lft && x.rgt <= n.rgt)
  {
    Filter(t, Outside(n.rootId, n.lft, n.rgt))
  }

  /** The closing shift of delete as a bulk update of the kept rows. */
  lemma DeleteIsClosing(t: Table, n: Row)
    ensures Delete(t, n) == MapRows(Kept(t, n), CloseFn(n))
  {
    var k := Kept(t, n);
    var d := Delete(t, n);
    var m := MapRows(k, CloseFn(n));
    assert d == MapRows(k, ShiftRow(AtLeast(n.rgt + 1), n.lft - n.rgt - 1, n.rootId));
    forall i | 0 <= i < |k| ensures d[i] == m[i] {
      AtLeastShiftRow(n.rgt + 1, n.lft - n.rgt - 1, n.rootId, k[i]);
    }
  }

  /** Every row outside the subtree survives, its endpoints past the node's
      rgt lowered by the subtree's width (so the next sibling now starts at
      the node's old lft); every surviving row is such a row. */
  lemma DeleteRows(t: Table, n: Row)
    ensures forall x :: x in t && !Within(n.rootId, n.lft, n.rgt)(x) ==> ClosedRow(n, x) in Delete(t, n)
    ensures forall y :: y in Delete(t, n) ==>
      exists x :: x in t && !Within(n.rootId, n.lft, n.rgt)(x) && y == ClosedRow(n, x)
  {
    DeleteIsClosing(t, n);
    ClosedRows(t, n);
  }

  lemma ClosedRows(t: Table, n: Row)
    ensures forall x :: x in t && !Within(n.rootId, n.lft, n.rgt)(x) ==> ClosedRow(n, x) in MapRows(Kept(t, n), CloseFn(n))
    ensures forall y :: y in MapRows(Kept(t, n), CloseFn(n)) ==>
      exists x :: x in t && !Within(n.rootId, n.lft, n.rgt)(x) && y == ClosedRow(n, x)
  {
    var k := Kept(t, n);
    var u := MapRows(k, CloseFn(n));
    forall x | x in t && !Within(n.rootId, n.lft, n.rgt)(x) ensures ClosedRow(n, x) in u {
      assert x in k;
      var i :| 0 <= i < |k| && k[i] == x;
      assert u[i] == ClosedRow(n, x);
    }
    forall y | y in u ensures exists x :: x in t && !Within(n.rootId, n.lft, n.rgt)(x) && y == ClosedRow(n, x) {
      var i :| 0 <= i < |u| && u[i] == y;
      assert k[i] in k;
    }
  }

  /** With unique ids, delete removes exactly the rows of the subtree: an id
      survives exactly when its row lay outside [lft, rgt] of the node's
      tree. */
  lemma DeleteRemovesSubtree(t: Table, n: Row)
    requires UniqueIds(t)
    ensures forall x :: x in t ==> (HasId(Delete(t, n), x.id) <==> !Within(n.rootId, n.lft, n.rgt)(x))
  {
    DeleteIsClosing(t, n);
    ClosedIds(t, n);
  }

  lemma ClosedIds(t: Table, n: Row)
    requires UniqueIds(t)
    ensures forall x :: x in t ==> (HasId(MapRows(Kept(t, n), CloseFn(n)), x.id) <==> !Within(n.rootId, n.lft, n.rgt)(x))
  {
    forall x | x in t ensures HasId(MapRows(Kept(t, n), CloseFn(n)), x.id) <==> !Within(n.rootId, n.lft, n.rgt)(x) {
      ClosedId(t, n, x);
    }
  }

  lemma ClosedId(t: Table, n: Row, x: Row)
    requires UniqueIds(t) && x in t
    ensures HasId(MapRows(Kept(t, n), CloseFn(n)), x.id) <==> !(x.rootId == n.rootId && n.lft <= x.lft && x.rgt <= n.rgt)
  {
    var k := Kept(t, n);
    var r := MapRows(k, CloseFn(n));
    if !(x.rootId == n.rootId && n.lft <= x.lft && x.rgt <= n.rgt) {
      assert x in k;
      var i :| 0 <= i < |k| && k[i] == x;
      assert r[i].id == x.id;
    }
    if HasId(r, x.id) {
      var i :| 0 <= i < |r| && r[i].id == x.id;
      assert r[i] == ClosedRow(n, k[i]);
      assert k[i] in k;
      var p :| 0 <= p < |t| && t[p] == x;
      var q :| 0 <= q < |t| && t[q] == k[i];
      assert p == q;
    }
  }

  /** A row of a laminar tree that is not inside the node's interval has
      no endpoint in it. */
  lemma KeptAvoidsBlock(x: Row, n: Row)
    requires x.rootId == n.rootId && x.lft < x.rgt && n.lft < n.rgt
    requires x == n || NestedOrDisjoint(x, n)
    requires !(n.lft <= x.lft && x.rgt <= n.rgt)
    ensures !(n.lft <= x.lft <= n.rgt) && !(n.lft <= x.rgt <= n.rgt)
  {
  }

  /** The kept rows of a well-formed tree have no endpoint in [lft, rgt]
      of the deleted node. */
  lemma KeptRowsAvoid(t: Table, n: Row)
    requires PositiveWidth(t, n.rootId) && Laminar(t, n.rootId)
    requires n in t
    ensures forall x :: x in Kept(t, n) && x.rootId == n.rootId ==>
      !(n.lft <= x.lft <= n.rgt) && !(n.lft <= x.rgt <= n.rgt)
  {
    forall x | x in Kept(t, n) && x.rootId == n.rootId
      ensures !(n.lft <= x.lft <= n.rgt) && !(n.lft <= x.rgt <= n.rgt)
    {
      KeptAvoidsBlock(x, n);
    }
  }

  lemma CloseRelabels(t: Table, n: Row)
    ensures RelabelsOn(t, CloseFn(n), n.rootId, CloseShift(n))
  {
  }

  /** The shape half of DeleteKeepsWellFormed. */
  lemma DeleteShape(t: Table, n: Row)
    requires PositiveWidth(t, n.rootId) && Laminar(t, n.rootId)
    requires n in t
    ensures PositiveWidth(MapRows(Kept(t, n), CloseFn(n)), n.rootId)
    ensures Laminar(MapRows(Kept(t, n), CloseFn(n)), n.rootId)
  {
    var k := Kept(t, n);
    var h := CloseShift(n);
    KeptRowsAvoid(t, n);
    CloseRelabels(k, n);
    forall u, v | u in Endpoints(k, n.rootId) && v in Endpoints(k, n.rootId) && u < v ensures h(u) < h(v) {
    }
    ShapeRelabel(k, CloseFn(n), n.rootId, h);
  }

  /** The kept rows of a well-formed tree: as many as the tree had, less
      half the node's width. */
  lemma KeptSize(t: Table, n: Row)
    requires WellFormed(t, n.rootId) && n in t
    ensures 2 * Size(Kept(t, n), n.rootId) == 2 * Size(t, n.rootId) - (n.rgt - n.lft + 1)
  {
    var R, a, b := n.rootId, n.lft, n.rgt;
    var both := (x: Row) => x.rootId == R && !(a <= x.lft && x.rgt <= b);
    CountFilter(t, Outside(R, a, b), InTree(R), both);
    CountSplit(t, InTree(R), both, Within(R, a, b));
    SubtreeCounts(t, R, n);
  }

  /** A value outside [lft, rgt] occurs as often among the kept rows as in
      the whole tree. */
  lemma KeptOcc(t: Table, n: Row, j: int)
    requires PositiveWidth(t, n.rootId)
    requires j < n.lft || j > n.rgt
    ensures Occ(Kept(t, n), n.rootId, j) == Occ(t, n.rootId, j)
  {
    var R, a, b := n.rootId, n.lft, n.rgt;
    var bl := (x: Row) => Outside(R, a, b)(x) && LftAt(R, j)(x);
    var br := (x: Row) => Outside(R, a, b)(x) && RgtAt(R, j)(x);
    CountFilter(t, Outside(R, a, b), LftAt(R, j), bl);
    CountFilter(t, Outside(R, a, b), RgtAt(R, j), br);
    forall i | 0 <= i < |t| ensures bl(t[i]) == LftAt(R, j)(t[i]) && br(t[i]) == RgtAt(R, j)(t[i]) {
      assert t[i] in t;
    }
    CountCorrespond(t, bl, t, LftAt(R, j));
    CountCorrespond(t, br, t, RgtAt(R, j));
  }

  /** The closed values of the kept rows lie in 1..2m. */
  lemma DeleteInRange(t: Table, n: Row)
    requires WellFormed(t, n.rootId) && n in t
    requires 2 * Size(MapRows(Kept(t, n), CloseFn(n)), n.rootId) == 2 * Size(t, n.rootId) - (n.rgt - n.lft + 1)
    ensures InRange(MapRows(Kept(t, n), CloseFn(n)), n.rootId)
  {
    var R := n.rootId;
    var k := Kept(t, n);
    var u := MapRows(k, CloseFn(n));
    var m := 2 * Size(t, R);
    KeptRowsAvoid(t, n);
    assert 1 <= n.lft && n.rgt <= m;
    forall y | y in u && y.rootId == R ensures 1 <= y.lft <= 2 * Size(u, R) && 1 <= y.rgt <= 2 * Size(u, R) {
      var i :| 0 <= i < |u| && u[i] == y;
      var x := k[i];
      assert x in k;
      assert y == ClosedRow(n, x);
      CloseValueRange(n, m, x.lft);
      CloseValueRange(n, m, x.rgt);
    }
  }

  /** A value of 1..m outside [lft, rgt] closes into 1..m - width. */
  lemma CloseValueRange(n: Row, m: int, v: int)
    requires 1 <= n.lft && n.rgt <= m
    requires 1 <= v <= m && !(n.lft <= v <= n.rgt)
    ensures 1 <= CloseValue(n, v) <= m - (n.rgt - n.lft + 1)
  {
  }

  /** Each position 1..2m of the closed tree is the image of exactly one
      endpoint of the tree before. */
  lemma DeleteOcc(t: Table, n: Row, v: int)
    requires WellFormed(t, n.rootId) && n in t
    requires 1 <= v <= 2 * Size(t, n.rootId) - (n.rgt - n.lft + 1)
    ensures Occ(MapRows(Kept(t, n), CloseFn(n)), n.rootId, v) == 1
  {
    var k := Kept(t, n);
    var j := if v < n.lft then v else v + (n.rgt - n.lft + 1);
    KeptRowsAvoid(t, n);
    CloseRelabels(k, n);
    OccPreimage(k, CloseFn(n), n.rootId, CloseShift(n), v, j);
    KeptOcc(t, n, j);
  }

  /** The counting half of DeleteKeepsWellFormed. */
  lemma DeleteDense(t: Table, n: Row)
    requires WellFormed(t, n.rootId) && n in t
    ensures Dense(MapRows(Kept(t, n), CloseFn(n)), n.rootId)
    ensures 2 * Size(MapRows(Kept(t, n), CloseFn(n)), n.rootId) == 2 * Size(t, n.rootId) - (n.rgt - n.lft + 1)
  {
    var k := Kept(t, n);
    KeptSize(t, n);
    CloseRelabels(k, n);
    SizeRelabel(k, CloseFn(n), n.rootId, CloseShift(n));
    DeleteInRange(t, n);
    forall v | 1 <= v <= 2 * Size(MapRows(k, CloseFn(n)), n.rootId) ensures Occ(MapRows(k, CloseFn(n)), n.rootId, v) == 1 {
      DeleteOcc(t, n, v);
    }
  }

  /** The root half of DeleteKeepsWellFormed: deleting the root empties the
      tree, deleting any other node shortens the root to [1, 2m]. */
  lemma DeleteRooted(t: Table, n: Row)
    requires WellFormed(t, n.rootId) && n in t
    requires 2 * Size(MapRows(Kept(t, n), CloseFn(n)), n.rootId) == 2 * Size(t, n.rootId) - (n.rgt - n.lft + 1)
    ensures Rooted(MapRows(Kept(t, n), CloseFn(n)), n.rootId)
  {
    var k := Kept(t, n);
    var u := MapRows(k, CloseFn(n));
    var root :| root in t && root.rootId == n.rootId && root.lft == 1 && root.rgt == 2 * Size(t, n.rootId);
    RootEnclosesAll(t, n.rootId, root, n);
    if root != n {
      assert root in k;
      var i :| 0 <= i < |k| && k[i] == root;
      assert u[i] in u;
    }
  }

  /** Deleting a row of a well-formed tree leaves it well formed, smaller
      by half the node's width, with every other tree as it was. */
  lemma DeleteKeepsWellFormed(t: Table, n: Row)
    requires WellFormed(t, n.rootId) && n in t
    ensures WellFormed(Delete(t, n), n.rootId)
    ensures 2 * Size(Delete(t, n), n.rootId) == 2 * Size(t, n.rootId) - (n.rgt - n.lft + 1)
    ensures OnlyTreeChanged(t, Delete(t, n), n.rootId)
  {
    DeleteIsClosing(t, n);
    DeleteShape(t, n);
    DeleteDense(t, n);
    DeleteRooted(t, n);
    DeleteOtherTrees(t, n);
  }

  lemma DeleteOtherTrees(t: Table, n: Row)
    ensures OnlyTreeChanged(t, MapRows(Kept(t, n), CloseFn(n)), n.rootId)
  {
    var R := n.rootId;
    var k := Kept(t, n);
    forall R' | R' != R ensures Filter(MapRows(k, CloseFn(n)), InTree(R')) == Filter(t, InTree(R')) {
      FilterMapRows(k, CloseFn(n), InTree(R'));
      FilterFilter(t, Outside(R, n.lft, n.rgt), InTree(R'), InTree(R'));
    }
  }

  /** `makeRoot(newRootId)`: refused for a root, or when the forest mode is
      off; otherwise the strict descendants move into tree newRootId,
      renumbered from 1 and with levels counted from the node, the hole in
      the old tree is closed, and the node is saved as [1, width] at
      level 0. */
  function MakeRoot(t: Table, n: Row, newRootId: int, hasManyRoots: bool): (r: Result<Table>)
    ensures r.Err? <==> IsRoot(n) || !hasManyRoots
    ensures r.Err? ==> r.error == RootOperationInvalid
    ensures r.Ok? ==> n.(lft := 1, rgt := n.rgt - n.lft + 1, level := 0, rootId := newRootId) in r.value
    ensures r.Ok? && HasId(t, n.id) ==> |r.value| == |t|
  {
    if IsRoot(n) || !hasManyRoots then Err(RootOperationInvalid)
    else Ok(Rerooted(t, n, newRootId))
  }

  /** The three writes of a permitted makeRoot: carry the strict
      descendants into the new tree (Transfer.CarryRow), close the hole in the
      old one (shiftRlValues past the node's rgt), save the node as the new
      root. Each write is spelled as the bulk update it performs; the save
      is one when the node is stored, and an insert otherwise. The close
      runs in the old tree, as the comment on it says, although the code
      passes the rootId the first write has already replaced. */
  function Rerooted(t: Table, n: Row, newRootId: int): (r: Table)
    ensures NewRoot(n, newRootId) in r
    ensures HasId(t, n.id) ==> |r| == |t|
  {
    RerootKeepsIds(t, n, newRootId);
    Save(Uprooted(t, n, newRootId), NewRoot(n, newRootId))
  }

  /** The node as makeRoot saves it: [1, width] at level 0 in the new tree. */
  function NewRoot(n: Row, newRootId: int): Row {
    n.(lft := 1, rgt := n.rgt - n.lft + 1, level := 0, rootId := newRootId)
  }

  /** The table after the carry and the closing shift, before the save. */
  function Uprooted(t: Table, n: Row, newRootId: int): Table {
    MapRows(MapRows(t, CarryFn(n.lft, n.rgt, n.rootId, 1 - n.lft, -n.level, newRootId)),
            ShiftRow(AtLeast(n.rgt + 1), n.lft - n.rgt - 1, n.rootId))
  }

  lemma RerootKeepsIds(t: Table, n: Row, newRootId: int)
    ensures HasId(t, n.id) ==> HasId(Uprooted(t, n, newRootId), n.id)
  {
    if HasId(t, n.id) {
      var t1 := MapRows(t, CarryFn(n.lft, n.rgt, n.rootId, 1 - n.lft, -n.level, newRootId));
      var k :| 0 <= k < |t| && t[k].id == n.id;
      AtLeastShiftRow(n.rgt + 1, n.lft - n.rgt - 1, n.rootId, t1[k]);
    }
  }

  /** What makeRoot makes of one row. */
  function MakeRootRowOf(n: Row, newRootId: int, x: Row): Row {
    if x.id == n.id then n.(lft := 1, rgt := n.rgt - n.lft + 1, level := 0, rootId := newRootId)
    else if x.rootId == n.rootId && n.lft < x.lft && x.rgt < n.rgt then
      x.(lft := x.lft + 1 - n.lft, rgt := x.rgt + 1 - n.lft, level := x.level - n.level, rootId := newRootId)
    else ClosedRow(n, x)
  }

  function MakeRootFn(n: Row, newRootId: int): Row -> Row {
    (x: Row) => MakeRootRowOf(n, newRootId, x)
  }

  /** One row through the three writes of makeRoot. */
  lemma MakeRootRowTrace(n: Row, newRootId: int, x: Row)
    requires newRootId != n.rootId
    ensures SaveRow(n.(lft := 1, rgt := n.rgt - n.lft + 1, rootId := newRootId, level := 0),
              ShiftRow(AtLeast(n.rgt + 1), n.lft - n.rgt - 1, n.rootId)(
                CarryRow(n.lft, n.rgt, n.rootId, 1 - n.lft, -n.level, newRootId, x)))
            == MakeRootRowOf(n, newRootId, x)
  {
    var c := CarryRow(n.lft, n.rgt, n.rootId, 1 - n.lft, -n.level, newRootId, x);
    AtLeastShiftRow(n.rgt + 1, n.lft - n.rgt - 1, n.rootId, c);
  }

  /** The three writes of makeRoot, composed into one bulk update. */
  lemma MakeRootIsMap(t: Table, n: Row, newRootId: int)
    requires !IsRoot(n) && HasId(t, n.id) && newRootId != n.rootId
    ensures MakeRoot(t, n, newRootId, true) == Ok(MapRows(t, MakeRootFn(n, newRootId)))
  {
    MakeRootChain(t, n, newRootId);
  }

  lemma MakeRootChain(t: Table, n: Row, newRootId: int)
    requires HasId(t, n.id) && newRootId != n.rootId
    ensures Rerooted(t, n, newRootId) == MapRows(t, MakeRootFn(n, newRootId))
  {
    var t2 := Uprooted(t, n, newRootId);
    RerootKeepsIds(t, n, newRootId);
    SaveIsMap(t2, NewRoot(n, newRootId));
    var r := MapRows(t2, SaveFn(NewRoot(n, newRootId)));
    var m := MapRows(t, MakeRootFn(n, newRootId));
    forall i | 0 <= i < |t| ensures r[i] == m[i] {
      MakeRootRowTrace(n, newRootId, t[i]);
    }
  }

  /** The rows of tree R that makeRoot leaves there: those outside the
      node's subtree. */
  function StaysIn(n: Row): Row -> bool {
    (x: Row) => x.rootId == n.rootId && !(n.lft <= x.lft && x.rgt <= n.rgt)
  }

  /** Where makeRoot sends one row of a well-formed tree: the subtree moves
      to the new tree by a translation of 1 - lft, the rest of the old tree
      is closed up as delete closes it, other trees are untouched. */
  lemma MakeRootRowFate(t: Table, n: Row, newRootId: int, x: Row)
    requires UniqueIds(t) && n in t && x in t && newRootId != n.rootId
    requires PositiveWidth(t, n.rootId) && Laminar(t, n.rootId)
    ensures x.rootId != newRootId ==>
      (MakeRootRowOf(n, newRootId, x).rootId == newRootId <==> Within(n.rootId, n.lft, n.rgt)(x))
    ensures Within(n.rootId, n.lft, n.rgt)(x) ==>
      && MakeRootRowOf(n, newRootId, x).lft == x.lft + 1 - n.lft
      && MakeRootRowOf(n, newRootId, x).rgt == x.rgt + 1 - n.lft
    ensures MakeRootRowOf(n, newRootId, x).rootId == n.rootId <==> StaysIn(n)(x)
    ensures StaysIn(n)(x) ==> MakeRootRowOf(n, newRootId, x) == ClosedRow(n, x)
    ensures x.rootId != n.rootId ==> MakeRootRowOf(n, newRootId, x) == x
  {
    if x.id == n.id {
      var i :| 0 <= i < |t| && t[i] == x;
      var j :| 0 <= j < |t| && t[j] == n;
      assert i == j;
    }
    if x.rootId == n.rootId && x != n {
      assert NestedOrDisjoint(x, n);
    }
  }

  /** What makeRoot leaves in the old tree is exactly what delete leaves. */
  lemma MakeRootOldTreeRows(t: Table, n: Row, newRootId: int)
    requires WellFormed(t, n.rootId) && n in t && UniqueIds(t) && newRootId != n.rootId
    ensures Filter(MapRows(t, MakeRootFn(n, newRootId)), InTree(n.rootId)) == Filter(Delete(t, n), InTree(n.rootId))
  {
    forall i | 0 <= i < |t|
      ensures InTree(n.rootId)(MakeRootFn(n, newRootId)(t[i])) == StaysIn(n)(t[i])
      ensures StaysIn(n)(t[i]) ==> MakeRootFn(n, newRootId)(t[i]) == CloseFn(n)(t[i])
    {
      MakeRootRowFate(t, n, newRootId, t[i]);
    }
    LeavesWhatDeleteLeaves(t, n, MakeRootFn(n, newRootId));
  }

  /** A bulk update that keeps in n's tree exactly the rows outside n's
      subtree, closed up, leaves that tree as delete leaves it. */
  lemma LeavesWhatDeleteLeaves(t: Table, n: Row, f: Row -> Row)
    requires forall i :: 0 <= i < |t| ==> InTree(n.rootId)(f(t[i])) == StaysIn(n)(t[i])
    requires forall i :: 0 <= i < |t| && StaysIn(n)(t[i]) ==> f(t[i]) == CloseFn(n)(t[i])
    ensures Filter(MapRows(t, f), InTree(n.rootId)) == Filter(Delete(t, n), InTree(n.rootId))
  {
    var R := n.rootId;
    FilterAfterMap(t, f, InTree(R), StaysIn(n), CloseFn(n));
    DeleteIsClosing(t, n);
    FilterAfterMap(Kept(t, n), CloseFn(n), InTree(R), InTree(R), CloseFn(n));
    FilterFilter(t, Outside(R, n.lft, n.rgt), InTree(R), StaysIn(n));
  }

  /** makeRoot leaves the old tree well formed, smaller by the subtree, and
      the trees other than the old and the new one untouched. */
  lemma MakeRootKeepsOldTree(t: Table, n: Row, newRootId: int)
    requires WellFormed(t, n.rootId) && n in t && UniqueIds(t) && !IsRoot(n) && newRootId != n.rootId
    ensures MakeRoot(t, n, newRootId, true).Ok?
    ensures WellFormed(MakeRoot(t, n, newRootId, true).value, n.rootId)
    ensures 2 * Size(MakeRoot(t, n, newRootId, true).value, n.rootId) == 2 * Size(t, n.rootId) - (n.rgt - n.lft + 1)
  {
    assert HasId(t, n.id);
    MakeRootIsMap(t, n, newRootId);
    MakeRootOldTreeRows(t, n, newRootId);
    WellFormedOfTreeRows(MapRows(t, MakeRootFn(n, newRootId)), Delete(t, n), n.rootId);
    DeleteKeepsWellFormed(t, n);
  }

  /** Trees other than the old and the new one keep their rows. */
  lemma MakeRootOtherTrees(t: Table, n: Row, newRootId: int)
    requires n in t && UniqueIds(t) && !IsRoot(n) && newRootId != n.rootId
    requires PositiveWidth(t, n.rootId) && Laminar(t, n.rootId)
    ensures forall T :: T != n.rootId && T != newRootId ==>
      Filter(MakeRoot(t, n, newRootId, true).value, InTree(T)) == Filter(t, InTree(T))
  {
    assert HasId(t, n.id);
    MakeRootIsMap(t, n, newRootId);
    forall T | T != n.rootId && T != newRootId
      ensures Filter(MapRows(t, MakeRootFn(n, newRootId)), InTree(T)) == Filter(t, InTree(T))
    {
      forall i | 0 <= i < |t|
        ensures InTree(T)(MakeRootFn(n, newRootId)(t[i])) == InTree(T)(t[i])
        ensures InTree(T)(t[i]) ==> MakeRootFn(n, newRootId)(t[i]) == t[i]
      {
        MakeRootRowFate(t, n, newRootId, t[i]);
      }
      FilterMapRows(t, MakeRootFn(n, newRootId), InTree(T));
    }
  }

  /** The hypotheses the new-tree lemmas share: a well-formed old tree
      holding n, unique ids, and no row yet in the new tree. */
  predicate ReRootable(t: Table, n: Row, newRootId: int) {
    && WellFormed(t, n.rootId) && n in t && UniqueIds(t) && newRootId != n.rootId
    && forall i :: 0 <= i < |t| ==> t[i].rootId != newRootId
  }

  lemma NewTreeShape(t: Table, n: Row, newRootId: int)
    requires ReRootable(t, n, newRootId)
    ensures PositiveWidth(MapRows(t, MakeRootFn(n, newRootId)), newRootId)
    ensures Laminar(MapRows(t, MakeRootFn(n, newRootId)), newRootId)
  {
    var u := MapRows(t, MakeRootFn(n, newRootId));
    forall y | y in u && y.rootId == newRootId ensures y.lft < y.rgt {
      var i :| 0 <= i < |u| && u[i] == y;
      MakeRootRowFate(t, n, newRootId, t[i]);
    }
    forall y1, y2 | y1 in u && y2 in u && y1.rootId == newRootId && y2.rootId == newRootId && y1 != y2
      ensures NestedOrDisjoint(y1, y2)
    {
      var i :| 0 <= i < |u| && u[i] == y1;
      var j :| 0 <= j < |u| && u[j] == y2;
      MakeRootRowFate(t, n, newRootId, t[i]);
      MakeRootRowFate(t, n, newRootId, t[j]);
      assert t[i] != t[j];
      assert NestedOrDisjoint(t[i], t[j]);
    }
  }

  lemma NewTreeSize(t: Table, n: Row, newRootId: int)
    requires ReRootable(t, n, newRootId)
    ensures 2 * Size(MapRows(t, MakeRootFn(n, newRootId)), newRootId) == n.rgt - n.lft + 1
  {
    var u := MapRows(t, MakeRootFn(n, newRootId));
    forall i | 0 <= i < |t| ensures Within(n.rootId, n.lft, n.rgt)(t[i]) == InTree(newRootId)(u[i]) {
      MakeRootRowFate(t, n, newRootId, t[i]);
    }
    CountCorrespond(t, Within(n.rootId, n.lft, n.rgt), u, InTree(newRootId));
    SubtreeCounts(t, n.rootId, n);
  }

  /** Endpoint k of the new tree is endpoint k + lft - 1 of the old one. */
  lemma NewTreeEndpoint(t: Table, n: Row, newRootId: int, x: Row, k: int)
    requires ReRootable(t, n, newRootId) && x in t
    requires 1 <= k <= n.rgt - n.lft + 1
    ensures LftAt(n.rootId, k + n.lft - 1)(x) == LftAt(newRootId, k)(MakeRootRowOf(n, newRootId, x))
    ensures RgtAt(n.rootId, k + n.lft - 1)(x) == RgtAt(newRootId, k)(MakeRootRowOf(n, newRootId, x))
  {
    var i :| 0 <= i < |t| && t[i] == x;
    MakeRootRowFate(t, n, newRootId, x);
    if x.rootId == n.rootId && !Within(n.rootId, n.lft, n.rgt)(x) {
      assert x != n;
      KeptAvoidsBlock(x, n);
    }
  }

  lemma NewTreeDense(t: Table, n: Row, newRootId: int)
    requires ReRootable(t, n, newRootId)
    ensures Dense(MapRows(t, MakeRootFn(n, newRootId)), newRootId)
  {
    var u := MapRows(t, MakeRootFn(n, newRootId));
    var R, a, b := n.rootId, n.lft, n.rgt;
    NewTreeSize(t, n, newRootId);
    assert 1 <= a && b <= 2 * Size(t, R);
    forall y | y in u && y.rootId == newRootId
      ensures 1 <= y.lft <= 2 * Size(u, newRootId) && 1 <= y.rgt <= 2 * Size(u, newRootId)
    {
      var i :| 0 <= i < |u| && u[i] == y;
      MakeRootRowFate(t, n, newRootId, t[i]);
    }
    forall k | 1 <= k <= 2 * Size(u, newRootId) ensures Occ(u, newRootId, k) == 1 {
      forall i | 0 <= i < |t|
        ensures LftAt(R, k + a - 1)(t[i]) == LftAt(newRootId, k)(u[i])
        ensures RgtAt(R, k + a - 1)(t[i]) == RgtAt(newRootId, k)(u[i])
      {
        NewTreeEndpoint(t, n, newRootId, t[i], k);
      }
      CountCorrespond(t, LftAt(R, k + a - 1), u, LftAt(newRootId, k));
      CountCorrespond(t, RgtAt(R, k + a - 1), u, RgtAt(newRootId, k));
      assert Occ(t, R, k + a - 1) == 1;
    }
  }

  /** makeRoot builds a well-formed new tree out of the subtree: as many
      rows as the subtree had, the node as its root [1, width]. */
  lemma MakeRootBuildsNewTree(t: Table, n: Row, newRootId: int)
    requires WellFormed(t, n.rootId) && n in t && UniqueIds(t) && !IsRoot(n) && newRootId != n.rootId
    requires Size(t, newRootId) == 0
    ensures MakeRoot(t, n, newRootId, true).Ok?
    ensures WellFormed(MakeRoot(t, n, newRootId, true).value, newRootId)
    ensures 2 * Size(MakeRoot(t, n, newRootId, true).value, newRootId) == n.rgt - n.lft + 1
  {
    CountZero(t, InTree(newRootId));
    assert ReRootable(t, n, newRootId);
    assert HasId(t, n.id);
    MakeRootIsMap(t, n, newRootId);
    var u := MapRows(t, MakeRootFn(n, newRootId));
    NewTreeShape(t, n, newRootId);
    NewTreeSize(t, n, newRootId);
    NewTreeDense(t, n, newRootId);
    var j :| 0 <= j < |t| && t[j] == n;
    assert u[j] == NewRoot(n, newRootId);
  }

  /** Where a move between trees sends one row of a well-formed source
      tree: only the rows outside the node's subtree stay, closed up. */
  lemma TransferRowFate(t: Table, n: Row, s: Slot, x: Row)
    requires UniqueIds(t) && n in t && x in t && s.rootId != n.rootId
    requires PositiveWidth(t, n.rootId) && Laminar(t, n.rootId)
    ensures TransferRowOf(n, s, x).rootId == n.rootId <==> StaysIn(n)(x)
    ensures StaysIn(n)(x) ==> TransferRowOf(n, s, x) == ClosedRow(n, x)
  {
    if x.id == n.id {
      var i :| 0 <= i < |t| && t[i] == x;
      var j :| 0 <= j < |t| && t[j] == n;
      assert i == j;
    }
    if x.rootId == n.rootId && x != n {
      assert NestedOrDisjoint(x, n);
    }
  }

  /** moveBetweenTrees leaves the source tree as delete would: well formed
      and smaller by the subtree, every endpoint past the node's old rgt
      lowered by the subtree's width. */
  lemma MoveBetweenTreesKeepsSource(t: Table, n: Row, dest: Row, moveType: string)
    requires WellFormed(t, n.rootId) && n in t && UniqueIds(t) && n.rootId != dest.rootId
    requires MoveSlot(dest, moveType).Some? && !IsEqualTo(Detach(n.(rootId := dest.rootId)), dest)
    ensures MoveBetweenTrees(t, n, dest, MoveSlot(dest, moveType).value.lft, moveType).Ok?
    ensures Filter(MoveBetweenTrees(t, n, dest, MoveSlot(dest, moveType).value.lft, moveType).value, InTree(n.rootId))
      == Filter(Delete(t, n), InTree(n.rootId))
    ensures WellFormed(MoveBetweenTrees(t, n, dest, MoveSlot(dest, moveType).value.lft, moveType).value, n.rootId)
    ensures 2 * Size(MoveBetweenTrees(t, n, dest, MoveSlot(dest, moveType).value.lft, moveType).value, n.rootId)
      == 2 * Size(t, n.rootId) - (n.rgt - n.lft + 1)
  {
    var s := MoveSlot(dest, moveType).value;
    assert HasId(t, n.id);
    MoveBetweenTreesIsMap(t, n, dest, moveType);
    forall i | 0 <= i < |t|
      ensures InTree(n.rootId)(TransferFn(n, s)(t[i])) == StaysIn(n)(t[i])
      ensures StaysIn(n)(t[i]) ==> TransferFn(n, s)(t[i]) == CloseFn(n)(t[i])
    {
      TransferRowFate(t, n, s, t[i]);
    }
    LeavesWhatDeleteLeaves(t, n, TransferFn(n, s));
    WellFormedOfTreeRows(MapRows(t, TransferFn(n, s)), Delete(t, n), n.rootId);
    DeleteKeepsWellFormed(t, n);
  }
}

=== FILE: rows.dfy ===
/** The nested-set table: rows, the library's error kinds, and the generic
    collection operations (save, where-filters, counting) the tree code is
    built from. */
module Rows {

  /** One row of the table. [lft, rgt] is the node's interval, `level` its
      depth and `rootId` the partition key naming the tree of the forest the
      row belongs to. A node that has no place in a tree has rgt <= lft. */
  datatype Row = Row(id: int, lft: int, rgt: int, level: int, rootId: int)

  /** The whole store: all trees of the forest share one table. */
  type Table = seq<Row>

  /** The four kinds of exception the library throws. */
  datatype Error =
    | AlreadyAttached       // inserting a node that already has its place in a tree
    | SelfReference         // destination is the node itself, or lies inside it
    | RootOperationInvalid  // root-related guard of insertAsParentOf and makeRoot
    | UnknownMoveType       // dispatch guard of moveBetweenTrees

  /** A write either completes (the whole transaction commits) or throws,
      and then the transaction rolls back and no write is visible. */
  datatype Result<T> = Ok(value: T) | Err(error: Error)

  /** The library answers `false` where no row matches. */
  datatype Option<T> = None | Some(value: T)

  /** Some row of `t` carries this primary key. */
  predicate HasId(t: Table, id: int) {
    exists i :: 0 <= i < |t| && t[i].id == id
  }

  predicate UniqueIds(t: Table) {
    forall i, j :: 0 <= i < |t| && 0 <= j < |t| && t[i].id == t[j].id ==> i == j
  }

  /** `instance.save()`: the row with the instance's primary key takes the
      instance's values; an instance not yet stored is inserted. */
  function Save(t: Table, n: Row): (r: Table)
    ensures n in r
    ensures HasId(t, n.id) ==> |r| == |t|
    ensures HasId(t, n.id) ==> forall i :: 0 <= i < |t| ==> r[i] == (if t[i].id == n.id then n else t[i])
    ensures !HasId(t, n.id) ==> r == t + [n]
  {
    if HasId(t, n.id) then
      var r := seq(|t|, i requires 0 <= i < |t| => if t[i].id == n.id then n else t[i]);
      var k :| 0 <= k < |t| && t[k].id == n.id;
      assert r[k] == n;
      r
    else
      t + [n]
  }

  /** What a save of n does to one stored row. */
  function SaveRow(n: Row, x: Row): Row {
    if x.id == n.id then n else x
  }

  function SaveFn(n: Row): Row -> Row {
    (x: Row) => SaveRow(n, x)
  }

  /** A bulk `update`: every row is rewritten by the same row function. */
  function MapRows(t: Table, f: Row -> Row): (r: Table)
    ensures |r| == |t|
    ensures forall i :: 0 <= i < |t| ==> r[i] == f(t[i])
  {
    seq(|t|, i requires 0 <= i < |t| => f(t[i]))
  }

  /** Saving an instance already stored is a bulk update keyed on its id. */
  lemma SaveIsMap(t: Table, n: Row)
    requires HasId(t, n.id)
    ensures Save(t, n) == MapRows(t, SaveFn(n))
  {
  }

  /** Two bulk updates in a row are one bulk update by the composed function. */
  lemma MapRowsCompose(t: Table, f: Row -> Row, g: Row -> Row, fg: Row -> Row)
    requires forall x :: fg(x) == g(f(x))
    ensures MapRows(MapRows(t, f), g) == MapRows(t, fg)
  {
  }

  /** Number of rows of `t` that satisfy `p`. */
  function CountWhere(t: Table, p: Row -> bool): (n: nat)
    ensures n <= |t|
  {
    if |t| == 0 then 0 else CountWhere(t[..|t| - 1], p) + (if p(t[|t| - 1]) then 1 else 0)
  }

  /** The rows of `t` that satisfy `keep`, in table order: what a `where`
      clause selects. */
  function Filter(t: Table, keep: Row -> bool): (r: Table)
    ensures |r| <= |t|
    ensures forall x :: x in r <==> x in t && keep(x)
  {
    if |t| == 0 then []
    else
      var init := t[..|t| - 1];
      var last := t[|t| - 1];
      assert t == init + [last];
      Filter(init, keep) + (if keep(last) then [last] else [])
  }

  /** Counting commutes with a row-by-row correspondence: two tables of equal
      length whose rows satisfy `p` and `q` at the same positions. */
  lemma {:induction false} CountCorrespond(t: Table, p: Row -> bool, u: Table, q: Row -> bool)
    requires |t| == |u|
    requires forall i :: 0 <= i < |t| ==> p(t[i]) == q(u[i])
    ensures CountWhere(t, p) == CountWhere(u, q)
  {
    if |t| > 0 {
      CountCorrespond(t[..|t| - 1], p, u[..|u| - 1], q);
    }
  }

  /** A predicate that is the disjoint union of two others counts their sum. */
  lemma {:induction false} CountSplit(t: Table, p: Row -> bool, q: Row -> bool, s: Row -> bool)
    requires forall i :: 0 <= i < |t| ==> p(t[i]) == (q(t[i]) || s(t[i]))
    requires forall i :: 0 <= i < |t| ==> !(q(t[i]) && s(t[i]))
    ensures CountWhere(t, p) == CountWhere(t, q) + CountWhere(t, s)
  {
    if |t| > 0 {
      CountSplit(t[..|t| - 1], p, q, s);
    }
  }

  /** Counting is monotone in the predicate. */
  lemma {:induction false} CountMono(t: Table, p: Row -> bool, q: Row -> bool)
    requires forall i :: 0 <= i < |t| ==> p(t[i]) ==> q(t[i])
    ensures CountWhere(t, p) <= CountWhere(t, q)
  {
    if |t| > 0 {
      CountMono(t[..|t| - 1], p, q);
    }
  }

  /** No row satisfies `p` exactly when the count is zero. */
  lemma {:induction false} CountZero(t: Table, p: Row -> bool)
    ensures CountWhere(t, p) == 0 <==> forall i :: 0 <= i < |t| ==> !p(t[i])
  {
    if |t| > 0 {
      CountZero(t[..|t| - 1], p);
      if CountWhere(t, p) == 0 {
        forall i | 0 <= i < |t| ensures !p(t[i]) {
          if i < |t| - 1 {
            assert t[i] == t[..|t| - 1][i];
          }
        }
      } else if !p(t[|t| - 1]) {
        var i :| 0 <= i < |t| - 1 && p(t[..|t| - 1][i]);
        assert t[i] == t[..|t| - 1][i];
      }
    }
  }

  /** Counting over a where-filter is counting the conjunction. */
  lemma {:induction false} CountFilter(t: Table, keep: Row -> bool, p: Row -> bool, both: Row -> bool)
    requires forall x :: both(x) == (keep(x) && p(x))
    ensures CountWhere(Filter(t, keep), p) == CountWhere(t, both)
  {
    if |t| > 0 {
      var init := t[..|t| - 1];
      var last := t[|t| - 1];
      CountFilter(init, keep, p, both);
      var f := Filter(init, keep);
      if keep(last) {
        assert Filter(t, keep) == f + [last];
        assert (f + [last])[..|f + [last]| - 1] == f;
      } else {
        assert Filter(t, keep) == f;
      }
    }
  }

  /** A row appended to a table adds itself to every count it satisfies. */
  lemma CountAppend(t: Table, x: Row, p: Row -> bool)
    ensures CountWhere(t + [x], p) == CountWhere(t, p) + (if p(x) then 1 else 0)
  {
    assert (t + [x])[..|t + [x]| - 1] == t;
  }

  /** A bulk update that leaves the rows selected by `keep` as they are, and
      selects no other row afterwards, does not change what `keep` filters. */
  lemma {:induction false} FilterMapRows(t: Table, f: Row -> Row, keep: Row -> bool)
    requires forall i :: 0 <= i < |t| ==> keep(f(t[i])) == keep(t[i])
    requires forall i :: 0 <= i < |t| && keep(t[i]) ==> f(t[i]) == t[i]
    ensures Filter(MapRows(t, f), keep) == Filter(t, keep)
  {
    if |t| > 0 {
      var init := t[..|t| - 1];
      FilterMapRows(init, f, keep);
      assert MapRows(t, f)[..|t| - 1] == MapRows(init, f);
    }
  }

  /** Appending a row that `keep` rejects does not change what it filters. */
  lemma FilterAppendRejected(t: Table, x: Row, keep: Row -> bool)
    requires !keep(x)
    ensures Filter(t + [x], keep) == Filter(t, keep)
  {
    assert (t + [x])[..|t + [x]| - 1] == t;
  }

  /** A filter keeps as many rows as it counts. */
  lemma {:induction false} FilterLength(t: Table, keep: Row -> bool)
    ensures |Filter(t, keep)| == CountWhere(t, keep)
  {
    if |t| > 0 {
      FilterLength(t[..|t| - 1], keep);
    }
  }

  /** Every row satisfies exactly one of two complementary predicates. */
  lemma {:induction false} CountComplement(t: Table, p: Row -> bool, q: Row -> bool)
    requires forall x :: q(x) == !p(x)
    ensures CountWhere(t, p) + CountWhere(t, q) == |t|
  {
    if |t| > 0 {
      CountComplement(t[..|t| - 1], p, q);
    }
  }

  /** Two where-filters in a row are one filter by the conjunction. */
  lemma {:induction false} FilterFilter(t: Table, p: Row -> bool, q: Row -> bool, both: Row -> bool)
    requires forall x :: both(x) == (p(x) && q(x))
    ensures Filter(Filter(t, p), q) == Filter(t, both)
  {
    if |t| > 0 {
      var init, last := t[..|t| - 1], t[|t| - 1];
      FilterFilter(init, p, q, both);
      var f := Filter(init, p);
      if p(last) {
        assert Filter(t, p) == f + [last];
        assert (f + [last])[..|f + [last]| - 1] == f;
      } else {
        assert Filter(t, p) == f;
      }
    }
  }

  /** Filtering after a bulk update is updating the rows a filter of the
      original selects, when the update decides membership row by row. */
  lemma {:induction false} FilterAfterMap(t: Table, f: Row -> Row, q: Row -> bool, keep: Row -> bool, g: Row -> Row)
    requires forall i :: 0 <= i < |t| ==> q(f(t[i])) == keep(t[i])
    requires forall i :: 0 <= i < |t| && keep(t[i]) ==> f(t[i]) == g(t[i])
    ensures Filter(MapRows(t, f), q) == MapRows(Filter(t, keep), g)
  {
    if |t| > 0 {
      var init, last := t[..|t| - 1], t[|t| - 1];
      FilterAfterMap(init, f, q, keep, g);
      assert MapRows(t, f)[..|t| - 1] == MapRows(init, f);
      var m := MapRows(Filter(init, keep), g);
      if keep(last) {
        assert MapRows(Filter(t, keep), g) == m + [g(last)];
      } else {
        assert MapRows(Filter(t, keep), g) == m;
      }
    }
  }
}

=== FILE: shift.dfy ===
/** The range shifter: `shiftRlValues` and `shiftRlRange`, the two bulk
    increments every structural write of the library is built from. */
module Shift {
  import opened Rows
  import opened Forest
  import opened Relabel

  /** The `where` bound `{[Op.gte]: first}`. */
  function AtLeast(first: int): int -> bool {
    v => v >= first
  }

  /** The `where` bound `{[Op.between]: [first, last]}`, both ends included. */
  function Between(first: int, last: int): int -> bool {
    v => first <= v <= last
  }

  /** The value map of one bulk increment: values selected by `sel` move by
      `delta`, the others stay. */
  function Moved(sel: int -> bool, delta: int): int -> int {
    v => if sel(v) then v + delta else v
  }

  /** `increment('lft', {by: delta, where: {lft: sel, rootId: R}})`, one row. */
  function IncLft(sel: int -> bool, delta: int, R: int): Row -> Row {
    (x: Row) => if x.rootId == R && sel(x.lft) then x.(lft := x.lft + delta) else x
  }

  /** `increment('rgt', {by: delta, where: {rgt: sel, rootId: R}})`, one row. */
  function IncRgt(sel: int -> bool, delta: int, R: int): Row -> Row {
    (x: Row) => if x.rootId == R && sel(x.rgt) then x.(rgt := x.rgt + delta) else x
  }

  /** The combined effect of both increments on one row: each endpoint of a
      row of tree R is moved on its own, by its own value. */
  function ShiftRow(sel: int -> bool, delta: int, R: int): Row -> Row {
    (x: Row) =>
      if x.rootId == R then x.(lft := Moved(sel, delta)(x.lft), rgt := Moved(sel, delta)(x.rgt)) else x
  }

  lemma ShiftRowIsBothIncrements(sel: int -> bool, delta: int, R: int)
    ensures forall x :: ShiftRow(sel, delta, R)(x) == IncRgt(sel, delta, R)(IncLft(sel, delta, R)(x))
  {
    forall x ensures ShiftRow(sel, delta, R)(x) == IncRgt(sel, delta, R)(IncLft(sel, delta, R)(x)) {
      var y := IncLft(sel, delta, R)(x);
      assert y.rgt == x.rgt && y.rootId == x.rootId;
      assert Moved(sel, delta)(x.lft) == if sel(x.lft) then x.lft + delta else x.lft;
      assert Moved(sel, delta)(x.rgt) == if sel(x.rgt) then x.rgt + delta else x.rgt;
      if x.rootId == R {
        assert y.lft == Moved(sel, delta)(x.lft);
      }
    }
  }

  /** What one row becomes under a shift, with the lambdas unfolded. */
  lemma ShiftRowApply(sel: int -> bool, delta: int, R: int, x: Row)
    ensures ShiftRow(sel, delta, R)(x) ==
      if x.rootId == R then
        x.(lft := if sel(x.lft) then x.lft + delta else x.lft,
           rgt := if sel(x.rgt) then x.rgt + delta else x.rgt)
      else x
  {
    assert Moved(sel, delta)(x.lft) == if sel(x.lft) then x.lft + delta else x.lft;
    assert Moved(sel, delta)(x.rgt) == if sel(x.rgt) then x.rgt + delta else x.rgt;
  }

  /** A shift selecting the values from `first` on, one row, without the
      closures. */
  lemma AtLeastShiftRow(first: int, delta: int, R: int, x: Row)
    ensures ShiftRow(AtLeast(first), delta, R)(x) ==
      if x.rootId == R then
        x.(lft := if x.lft >= first then x.lft + delta else x.lft,
           rgt := if x.rgt >= first then x.rgt + delta else x.rgt)
      else x
  {
    ShiftRowApply(AtLeast(first), delta, R, x);
    assert AtLeast(first)(x.lft) == (x.lft >= first) && AtLeast(first)(x.rgt) == (x.rgt >= first);
  }

  /** A shift selecting the values in [first, last], one row, without the
      closures. */
  lemma BetweenShiftRow(first: int, last: int, delta: int, R: int, x: Row)
    ensures ShiftRow(Between(first, last), delta, R)(x) ==
      if x.rootId == R then
        x.(lft := if first <= x.lft <= last then x.lft + delta else x.lft,
           rgt := if first <= x.rgt <= last then x.rgt + delta else x.rgt)
      else x
  {
    ShiftRowApply(Between(first, last), delta, R, x);
    assert Between(first, last)(x.lft) == (first <= x.lft <= last);
    assert Between(first, last)(x.rgt) == (first <= x.rgt <= last);
  }

  /** The two increments of a shift, issued together under Promise.all, run
      in either order with the same outcome: they write different columns and
      each selects by its own column. */
  lemma IncrementsCommute(t: Table, sel: int -> bool, delta: int, R: int)
    ensures MapRows(MapRows(t, IncLft(sel, delta, R)), IncRgt(sel, delta, R))
         == MapRows(MapRows(t, IncRgt(sel, delta, R)), IncLft(sel, delta, R))
  {
    var a := MapRows(MapRows(t, IncLft(sel, delta, R)), IncRgt(sel, delta, R));
    var b := MapRows(MapRows(t, IncRgt(sel, delta, R)), IncLft(sel, delta, R));
    forall i | 0 <= i < |t| ensures a[i] == b[i] {
    }
  }

  /** Both increments of a shift with the given bound, lft first. */
  function ShiftBy(t: Table, sel: int -> bool, delta: int, R: int): (r: Table)
    ensures r == MapRows(t, ShiftRow(sel, delta, R))
  {
    ShiftRowIsBothIncrements(sel, delta, R);
    MapRowsCompose(t, IncLft(sel, delta, R), IncRgt(sel, delta, R), ShiftRow(sel, delta, R));
    MapRows(MapRows(t, IncLft(sel, delta, R)), IncRgt(sel, delta, R))
  }

  /** `shiftRlValues(first, delta, rootId)`: in tree R, lft moves by delta
      exactly when lft >= first, and rgt moves by delta exactly when
      rgt >= first; nothing else changes. */
  function ShiftRlValues(t: Table, first: int, delta: int, R: int): (r: Table)
    ensures |r| == |t|
    ensures forall i :: 0 <= i < |t| ==>
      r[i].id == t[i].id && r[i].level == t[i].level && r[i].rootId == t[i].rootId
    ensures forall i :: 0 <= i < |t| && t[i].rootId != R ==> r[i] == t[i]
    ensures forall i :: 0 <= i < |t| && t[i].rootId == R ==>
      && r[i].lft == (if t[i].lft >= first then t[i].lft + delta else t[i].lft)
      && r[i].rgt == (if t[i].rgt >= first then t[i].rgt + delta else t[i].rgt)
  {
    ShiftBy(t, AtLeast(first), delta, R)
  }

  /** `shiftRlRange(first, last, delta, rootId)`: the same with the bound
      first <= value <= last on each column. */
  function ShiftRlRange(t: Table, first: int, last: int, delta: int, R: int): (r: Table)
    ensures |r| == |t|
    ensures forall i :: 0 <= i < |t| ==>
      r[i].id == t[i].id && r[i].level == t[i].level && r[i].rootId == t[i].rootId
    ensures forall i :: 0 <= i < |t| && t[i].rootId != R ==> r[i] == t[i]
    ensures forall i :: 0 <= i < |t| && t[i].rootId == R ==>
      && r[i].lft == (if first <= t[i].lft <= last then t[i].lft + delta else t[i].lft)
      && r[i].rgt == (if first <= t[i].rgt <= last then t[i].rgt + delta else t[i].rgt)
  {
    ShiftBy(t, Between(first, last), delta, R)
  }

  /** shiftRlValues as the bulk update it performs. */
  lemma ShiftRlValuesIsMap(t: Table, first: int, delta: int, R: int)
    ensures ShiftRlValues(t, first, delta, R) == MapRows(t, ShiftRow(AtLeast(first), delta, R))
  {
  }

  /** Opening a gap with a non-negative delta and closing it again from the
      new position restores the table. */
  lemma ShiftRoundTrip(t: Table, p: int, d: int, R: int)
    requires d >= 0
    ensures ShiftRlValues(ShiftRlValues(t, p, d, R), p + d, -d, R) == t
  {
    var u := ShiftRlValues(ShiftRlValues(t, p, d, R), p + d, -d, R);
    assert |u| == |t|;
    forall i | 0 <= i < |t| ensures u[i] == t[i] {
    }
  }

  lemma ShiftRelabels(t: Table, sel: int -> bool, delta: int, R: int)
    ensures RelabelsOn(t, ShiftRow(sel, delta, R), R, Moved(sel, delta))
  {
  }

  /** A shift by a negative delta keeps the shape as long as no endpoint of
      the tree lies in the gap [first + delta, first) it closes. */
  lemma ShiftClosingKeepsShape(t: Table, first: int, delta: int, R: int)
    requires delta < 0
    requires forall x :: x in t && x.rootId == R ==>
      !(first + delta <= x.lft < first) && !(first + delta <= x.rgt < first)
    requires PositiveWidth(t, R) && Laminar(t, R)
    ensures PositiveWidth(MapRows(t, ShiftRow(AtLeast(first), delta, R)), R)
    ensures Laminar(MapRows(t, ShiftRow(AtLeast(first), delta, R)), R)
  {
    var h := Moved(AtLeast(first), delta);
    ShiftRelabels(t, AtLeast(first), delta, R);
    forall u, v | u in Endpoints(t, R) && v in Endpoints(t, R) && u < v ensures h(u) < h(v) {
      assert h(u) == if u >= first then u + delta else u;
      assert h(v) == if v >= first then v + delta else v;
    }
    ShapeRelabel(t, ShiftRow(AtLeast(first), delta, R), R, h);
  }

  /** A shift by a positive delta is strictly monotone on the endpoints of
      the tree, so it keeps the shape unconditionally. */
  lemma ShiftOpeningKeepsShape(t: Table, first: int, delta: int, R: int)
    requires delta > 0
    requires PositiveWidth(t, R) && Laminar(t, R)
    ensures PositiveWidth(MapRows(t, ShiftRow(AtLeast(first), delta, R)), R)
    ensures Laminar(MapRows(t, ShiftRow(AtLeast(first), delta, R)), R)
  {
    var h := Moved(AtLeast(first), delta);
    ShiftRelabels(t, AtLeast(first), delta, R);
    forall u, v | u in Endpoints(t, R) && v in Endpoints(t, R) && u < v ensures h(u) < h(v) {
      assert h(u) == if u >= first then u + delta else u;
      assert h(v) == if v >= first then v + delta else v;
    }
    ShapeRelabel(t, ShiftRow(AtLeast(first), delta, R), R, h);
  }

  /** The shift that closes the hole a subtree n leaves (after `delete`,
      `makeRoot` and `moveBetweenTrees`), on one value of its tree: values
      past n's rgt move down by the subtree's width. */
  function CloseValue(n: Row, v: int): int {
    if v > n.rgt then v - (n.rgt - n.lft + 1) else v
  }

  function CloseShift(n: Row): int -> int {
    v => CloseValue(n, v)
  }

  /** A row outside the removed subtree, after the closing shift. */
  function ClosedRow(n: Row, x: Row): Row {
    if x.rootId == n.rootId then x.(lft := CloseValue(n, x.lft), rgt := CloseValue(n, x.rgt)) else x
  }

  function CloseFn(n: Row): Row -> Row {
    (x: Row) => ClosedRow(n, x)
  }
}

=== FILE: transfer.dfy ===
/** Relocating a subtree into another tree: `moveBetweenTrees`. The
    destination tree is widened at the anchor, the node is re-inserted there
    by the matching `insertAs*`, its former descendants are carried over
    with a bulk update, and the hole in the source tree is closed. */
module Transfer {
  import opened Rows
  import opened Forest
  import opened Shift
  import opened Predicates
  import opened Inserts

  /** The bulk update that carries the rows strictly inside (a, b) of tree R
      into tree newRoot, translated by diff and with their level moved by
      levelDiff, one row. `makeRoot` uses the same update. */
  function CarryRow(a: int, b: int, R: int, diff: int, levelDiff: int, newRoot: int, x: Row): Row {
    if x.rootId == R && a < x.lft && x.rgt < b then
      x.(lft := x.lft + diff, rgt := x.rgt + diff, level := x.level + levelDiff, rootId := newRoot)
    else x
  }

  function CarryFn(a: int, b: int, R: int, diff: int, levelDiff: int, newRoot: int): Row -> Row {
    (x: Row) => CarryRow(a, b, R, diff, levelDiff, newRoot, x)
  }

  /** The insert each move type dispatches to, as the slot it computes;
      None for a move type the switch does not know. */
  function MoveSlot(dest: Row, moveType: string): (s: Option<Slot>)
    ensures s.Some? <==> moveType in {"moveAsPrevSiblingOf", "moveAsFirstChildOf", "moveAsNextSiblingOf", "moveAsLastChildOf"}
    ensures s.Some? ==> s.value.rootId == dest.rootId
  {
    match moveType
    case "moveAsPrevSiblingOf" => Some(PrevSiblingSlot(dest))
    case "moveAsFirstChildOf" => Some(FirstChildSlot(dest))
    case "moveAsNextSiblingOf" => Some(NextSiblingSlot(dest))
    case "moveAsLastChildOf" => Some(LastChildSlot(dest))
    case _ => None
  }

  /** The anchor each move type passes as newLft. */
  function Anchor(dest: Row, moveType: string): int {
    match moveType
    case "moveAsPrevSiblingOf" => dest.lft
    case "moveAsFirstChildOf" => dest.lft + 1
    case "moveAsNextSiblingOf" => dest.rgt + 1
    case _ => dest.rgt
  }

  /** The node as the re-insert leaves it, stretched back to its width. */
  function Stretched(n: Row, placed: Row): Row {
    placed.(rgt := placed.lft + (n.rgt - n.lft))
  }

  /** The steps after the re-insert: save the node stretched to its old
      width, carry its former descendants along (CarryRow), close
      the hole in the source tree (shiftRlValues from rgt + 1 by
      lft - rgt - 1). `placed` is the in-memory node as the insert left it. */
  function Graft(t: Table, n: Row, dest: Row, placed: Row): Table {
    MapRows(MapRows(Save(t, Stretched(n, placed)),
                    CarryFn(n.lft, n.rgt, n.rootId, placed.lft - n.lft, placed.level - n.level, dest.rootId)),
            ShiftRow(AtLeast(n.rgt + 1), n.lft - n.rgt - 1, n.rootId))
  }

  /** The writes before the re-insert: the destination tree opens a gap of
      rgt - lft - 1 at newLft (shiftRlValues), and the node's row joins the
      destination tree. */
  function Widened(t: Table, n: Row, dest: Row, newLft: int): Table {
    Save(MapRows(t, ShiftRow(AtLeast(newLft), n.rgt - n.lft - 1, dest.rootId)), n.(rootId := dest.rootId))
  }

  /** A failed re-insert throws; a successful one is followed by Graft. */
  function Regraft(ins: Result<Table>, n: Row, dest: Row, placed: Row): Result<Table> {
    match ins
    case Err(e) => Err(e)
    case Ok(u) => Ok(Graft(u, n, dest, placed))
  }

  /** `moveBetweenTrees(dest, newLft, moveType)` with the node detached
      before it is re-inserted, so that the insert's guard lets it through. */
  function MoveBetweenTrees(t: Table, n: Row, dest: Row, newLft: int, moveType: string): (r: Result<Table>)
    ensures MoveSlot(dest, moveType).None? ==> r == Err(UnknownMoveType)
    ensures r.Ok? <==> MoveSlot(dest, moveType).Some? && !IsEqualTo(Detach(n.(rootId := dest.rootId)), dest)
  {
    match MoveSlot(dest, moveType)
    case None => Err(UnknownMoveType)
    case Some(s) =>
      Regraft(InsertAt(Widened(t, n, dest, newLft), Detach(n.(rootId := dest.rootId)), dest, s),
              n, dest, Placed(Detach(n.(rootId := dest.rootId)), s))
  }

  /** The same with the node re-inserted as it is, still holding its
      interval: the insert's guard then rejects it. */
  function MoveBetweenTreesAsWritten(t: Table, n: Row, dest: Row, newLft: int, moveType: string): (r: Result<Table>)
    ensures MoveSlot(dest, moveType).None? ==> r == Err(UnknownMoveType)
    ensures MoveSlot(dest, moveType).Some? && IsValidNode(n) ==> r == Err(AlreadyAttached)
  {
    match MoveSlot(dest, moveType)
    case None => Err(UnknownMoveType)
    case Some(s) =>
      Regraft(InsertAt(Widened(t, n, dest, newLft), n.(rootId := dest.rootId), dest, s),
              n, dest, Placed(n.(rootId := dest.rootId), s))
  }

  /** The gap of width w that the destination tree opens at p, on one
      value. */
  function OpenValue(p: int, w: int, v: int): int {
    if v >= p then v + w else v
  }

  /** What moveBetweenTrees makes of one row, the node landing in slot s of
      the destination tree: the node takes [s.lft, s.lft + width - 1] at the
      slot's level, its former descendants follow it by the same
      translation and level step, the destination tree opens a gap of the
      subtree's width at s.lft, and the source tree closes its hole. */
  function TransferRowOf(n: Row, s: Slot, x: Row): Row {
    if x.id == n.id then
      n.(lft := s.lft, rgt := s.lft + (n.rgt - n.lft), level := s.level, rootId := s.rootId)
    else if x.rootId == n.rootId && n.lft < x.lft && x.rgt < n.rgt then
      x.(lft := x.lft + (s.lft - n.lft), rgt := x.rgt + (s.lft - n.lft),
         level := x.level + (s.level - n.level), rootId := s.rootId)
    else if x.rootId == s.rootId then
      x.(lft := OpenValue(s.lft, n.rgt - n.lft + 1, x.lft), rgt := OpenValue(s.lft, n.rgt - n.lft + 1, x.rgt))
    else ClosedRow(n, x)
  }

  function TransferFn(n: Row, s: Slot): Row -> Row {
    (x: Row) => TransferRowOf(n, s, x)
  }

  lemma WidenedIsMap(t: Table, n: Row, dest: Row, newLft: int)
    requires HasId(t, n.id)
    ensures HasId(Widened(t, n, dest, newLft), n.id)
    ensures Widened(t, n, dest, newLft) ==
      MapRows(MapRows(t, ShiftRow(AtLeast(newLft), n.rgt - n.lft - 1, dest.rootId)), SaveFn(n.(rootId := dest.rootId)))
  {
    var t1 := MapRows(t, ShiftRow(AtLeast(newLft), n.rgt - n.lft - 1, dest.rootId));
    var k :| 0 <= k < |t| && t[k].id == n.id;
    AtLeastShiftRow(newLft, n.rgt - n.lft - 1, dest.rootId, t[k]);
    SaveIsMap(t1, n.(rootId := dest.rootId));
  }

  lemma InsertAtIsMap(t: Table, d: Row, dest: Row, s: Slot)
    requires !IsValidNode(d) && !IsEqualTo(d, dest) && HasId(t, d.id)
    ensures InsertAt(t, d, dest, s).Ok?
    ensures HasId(InsertAt(t, d, dest, s).value, d.id)
    ensures InsertAt(t, d, dest, s).value ==
      MapRows(MapRows(t, ShiftRow(AtLeast(s.lft), 2, s.rootId)), SaveFn(Placed(d, s)))
  {
    var t1 := MapRows(t, ShiftRow(AtLeast(s.lft), 2, s.rootId));
    ShiftRlValuesIsMap(t, s.lft, 2, s.rootId);
    var k :| 0 <= k < |t| && t[k].id == d.id;
    AtLeastShiftRow(s.lft, 2, s.rootId, t[k]);
    assert d.(level := s.level).(lft := s.lft, rgt := s.rgt, rootId := s.rootId) == Placed(d, s);
    SaveIsMap(t1, Placed(d, s));
  }

  lemma GraftIsMap(t: Table, n: Row, dest: Row, d: Row, s: Slot)
    requires HasId(t, d.id)
    ensures Graft(t, n, dest, Placed(d, s)) ==
      MapRows(MapRows(MapRows(t, SaveFn(Stretched(n, Placed(d, s)))),
                      CarryFn(n.lft, n.rgt, n.rootId, s.lft - n.lft, s.level - n.level, dest.rootId)),
              ShiftRow(AtLeast(n.rgt + 1), n.lft - n.rgt - 1, n.rootId))
  {
    SaveIsMap(t, Stretched(n, Placed(d, s)));
  }

  /** One row through the seven writes of a move between trees. */
  lemma TransferRowTrace(n: Row, dest: Row, s: Slot, x: Row)
    requires s.rootId == dest.rootId && n.rootId != dest.rootId && n.lft < n.rgt
    ensures
      var n1 := n.(rootId := dest.rootId);
      var pl := Placed(Detach(n1), s);
      ShiftRow(AtLeast(n.rgt + 1), n.lft - n.rgt - 1, n.rootId)(
        CarryRow(n.lft, n.rgt, n.rootId, pl.lft - n.lft, pl.level - n.level, dest.rootId,
          SaveRow(Stretched(n, pl),
            SaveRow(pl,
              ShiftRow(AtLeast(s.lft), 2, s.rootId)(
                SaveRow(n1,
                  ShiftRow(AtLeast(s.lft), n.rgt - n.lft - 1, dest.rootId)(x)))))))
      == TransferRowOf(n, s, x)
  {
    var n1 := n.(rootId := dest.rootId);
    var pl := Placed(Detach(n1), s);
    var y1 := ShiftRow(AtLeast(s.lft), n.rgt - n.lft - 1, dest.rootId)(x);
    AtLeastShiftRow(s.lft, n.rgt - n.lft - 1, dest.rootId, x);
    var y2 := SaveRow(n1, y1);
    var y3 := ShiftRow(AtLeast(s.lft), 2, s.rootId)(y2);
    AtLeastShiftRow(s.lft, 2, s.rootId, y2);
    var y5 := SaveRow(Stretched(n, pl), SaveRow(pl, y3));
    var y6 := CarryRow(n.lft, n.rgt, n.rootId, pl.lft - n.lft, pl.level - n.level, dest.rootId, y5);
    AtLeastShiftRow(n.rgt + 1, n.lft - n.rgt - 1, n.rootId, y6);
  }

  /** A move between trees, landing in the slot its move type names, is
      the bulk update TransferFn. */
  lemma MoveBetweenTreesIsMap(t: Table, n: Row, dest: Row, moveType: string)
    requires MoveSlot(dest, moveType).Some?
    requires HasId(t, n.id) && n.rootId != dest.rootId && IsValidNode(n)
    requires !IsEqualTo(Detach(n.(rootId := dest.rootId)), dest)
    ensures MoveBetweenTrees(t, n, dest, MoveSlot(dest, moveType).value.lft, moveType)
      == Ok(MapRows(t, TransferFn(n, MoveSlot(dest, moveType).value)))
  {
    var s := MoveSlot(dest, moveType).value;
    var d := Detach(n.(rootId := dest.rootId));
    var w := Widened(t, n, dest, s.lft);
    WidenedIsMap(t, n, dest, s.lft);
    InsertAtIsMap(w, d, dest, s);
    var ins := InsertAt(w, d, dest, s).value;
    GraftIsMap(ins, n, dest, d, s);
    var t3 := MapRows(MapRows(ins, SaveFn(Stretched(n, Placed(d, s)))),
                      CarryFn(n.lft, n.rgt, n.rootId, s.lft - n.lft, s.level - n.level, dest.rootId));
    TransferChain(t, n, dest, s, w, ins, t3, Graft(ins, n, dest, Placed(d, s)));
    assert MoveBetweenTrees(t, n, dest, s.lft, moveType) == Ok(Graft(ins, n, dest, Placed(d, s)));
  }

  lemma TransferChain(t: Table, n: Row, dest: Row, s: Slot, t1: Table, t2: Table, t3: Table, r: Table)
    requires s.rootId == dest.rootId && n.rootId != dest.rootId && n.lft < n.rgt
    requires t1 == MapRows(MapRows(t, ShiftRow(AtLeast(s.lft), n.rgt - n.lft - 1, dest.rootId)), SaveFn(n.(rootId := dest.rootId)))
    requires t2 == MapRows(MapRows(t1, ShiftRow(AtLeast(s.lft), 2, s.rootId)), SaveFn(Placed(Detach(n.(rootId := dest.rootId)), s)))
    requires t3 == MapRows(MapRows(t2, SaveFn(Stretched(n, Placed(Detach(n.(rootId := dest.rootId)), s)))),
                           CarryFn(n.lft, n.rgt, n.rootId, s.lft - n.lft, s.level - n.level, dest.rootId))
    requires r == MapRows(t3, ShiftRow(AtLeast(n.rgt + 1), n.lft - n.rgt - 1, n.rootId))
    ensures r == MapRows(t, TransferFn(n, s))
  {
    var m := MapRows(t, TransferFn(n, s));
    forall i | 0 <= i < |t| ensures r[i] == m[i] {
      TransferRowTrace(n, dest, s, t[i]);
    }
  }
}

